=== FILE: README.md ===
# A Dafny model of the DDP server and client in cloudydeno/ddp

This project models the protocol core of `cloudydeno/ddp`. That is a TypeScript implementation of Meteor's Distributed Data Protocol (DDP), version 1, with SockJS array framing as an alternative transport encoding. Every stateful component becomes an immutable state record. Every operation becomes a pure transition function that returns the new state, together with the messages it wrote and the error it threw, if any.

The modules follow the source files:

| module | file | models |
|---|---|---|
| `Wrappers`, `Values`, `OrderedMaps` | — | `Outcome`/`Option`; EJSON values (including `undefined`) and JavaScript truthiness; JavaScript `Map`/`Set` insertion order |
| `Wire` | `src/lib/types.ts` | client and server messages, `DocumentChange`, `MeteorError`, the two `result` shapes |
| `Publishing`, `PublishingProps` | `src/server/publishing.ts` | the per-session merge engine `PresentedCollection`, and its invariants, its sync with a client copy and the rerun diff |
| `ServerSessions` | `src/server/session.ts` | the session's collections, its subscriptions, close, and socket framing |
| `Subscriptions` | `src/server/subscription.ts` | `DdpSessionSubscription` and `emitToSub` |
| `Registry` | `src/server/interface.ts` | the `DdpInterface` handler registry |
| `Dispatch` | `src/server/session.ts`, `src/server/interface.ts` | `handleClientPacket`, `registerSocket`, `startDefaultSub`, inbound delivery |
| `ClientSockets` | `src/client/socket.ts` | `DdpClientSocket`: the three tables of pending requests, `handlePacket`, the inbound loops, `sendMessage` framing |
| `Handshakes` | `src/client/_open.ts` | `runHandshake` |
| `Connections` | `src/client/connection.ts` | `DdpConnection`: status, desired subscriptions, routing to live stores, socket setup |
| `Documents` | `src/livedata/document.ts` | `makeReturnDoc` field projection |
| `LiveCollections` | `src/livedata/collections/live.ts` | the client's live store, its queries and cursors |
| `AnonymousCollections` | `src/livedata/collections/anonymous.ts` | `insert` |
| `Facades` | `src/livedata/facades.ts` | the synchronous `Collection`/`Cursor` fallbacks |
| `LiveVariables` | `src/lib/live-variable.ts` | `LiveVariable` |

Modelling conventions:
- **State and effects.**
  - A socket is the log of frames written to it.
  - A promise a request returns is a settlement appended to a log when it resolves or rejects.
  - Application callbacks and handlers are numbers, or functions that describe what they return.
- **Ordering.** JavaScript `Map` and `Set` iteration order is observable in several places, for example the order of `removed` packets during `dropSub`. It is modelled by `OrderedMaps.OMap`, a map paired with its keys in insertion order.
- **Selectors.** The compiled query selector is an arbitrary predicate on documents.
- **Ids.** Random ids are inputs.

Several behaviours of the code are surprising. The model keeps them as written, and a lemma exhibits each one:
- **Rerun diff.** `flushRerun` keeps the fields that are *equal* before and after and drops the changed ones. It computes the cleared names against array indices instead of field names. See `PublishingProps.FlushRerunClearsChangedField` and `PublishingProps.FlushRerunClearsUnchangedField`.
- **`removed` and shared fields.** After `removed`, a field that is still backed keeps the leaving subscriber's last value. See `PublishingProps.RemoveKeepsLeaversValue`.
- **`changeDocument`.** It writes `undefined` under the index keys `"0"`, `"1"`, … instead of under the cleared names. See `LiveCollections.ClearedNameSurvives`.
- **Query matching.** `addDocument` matches queries against `{id, ...}`, while finding and `removeDocument` match against `{_id, ...}`. See `LiveCollections.AddMissesIdSelector`, `LiveCollections.FindSeesIdSelector` and `LiveCollections.RemoveHitsIdSelector`.
- **Automatic socket setup.** `#createSocket` runs the handshake before it attaches the writer, so that handshake can never write `connect`. See `Connections.CreatedSocketNeverConnects`.
- **`setSnapshot`.** It rethrows the *last* value caught if that value is truthy, not the last truthy value. See `LiveVariables.LaterFalsyThrowCancels`.

## Model

| member | source | states |
|---|---|---|
| Wire.ToResultRecord | src/lib/types.ts:71-84 | a flattened `result` never has both `result` and `error`, and has `error` exactly for a failure |
| Wire.FromResultRecord | src/lib/types.ts:71-84 | a record reads as a `result` message exactly when it does not carry both properties |
| Wire.ResultRecordRoundTrip | src/lib/types.ts:71-84 | reading a flattened `result` gives back the message |
| Wire.ResultRecordInverse | src/lib/types.ts:71-84 | every admissible record is the flattening of the message read from it |
| Values.DecimalString | src/server/publishing.ts:51-52 | the array index key of `n` is a non-empty run of decimal digits, longer than one digit exactly from 10 on |
| Values.DecimalStringInjective | src/server/publishing.ts:51-52 | distinct indices have distinct keys |
| Values.IndexKeys | src/livedata/collections/live.ts:48 | the keys of an `n`-element array include the decimal spelling of every index below `n` |
| Values.IndexKeysCount | src/livedata/collections/live.ts:48 | an `n`-element array has exactly `n` keys |
| Values.DecimalRoundTrip | src/server/publishing.ts:51-52 | reading an index key back as a number gives the index |
| Publishing.NewCollection | src/server/publishing.ts:14-34 | a new engine is empty, sending, and has an empty snapshot |
| Publishing.ConsiderSending | src/server/publishing.ts:25-32 | a document packet tagged with the collection name goes out exactly while sending is on |
| Publishing.Add | src/server/publishing.ts:87-117 | a new document gets the subscriber as its sole presenter, the fields as its view, and an `added`; a second subscriber's fields are merged into the view with a `changed` and never a second `added`; a repeated `added` from the same subscriber throws |
| Publishing.Change | src/server/publishing.ts:119-144 | an unknown document or a subscriber that does not present it throws; empty fields change nothing; `undefined` names leave the view and are listed as cleared; other names are written to the subscriber's contribution and the view |
| Publishing.RemovePresent | src/server/publishing.ts:152-185 | the last presenter removes the document with `removed`; otherwise exactly the leaver's names no other presenter backs are cleared, with `changed` only when there are any |
| Publishing.Remove | src/server/publishing.ts:146-151 | an unknown document or a subscriber that does not present it throws; otherwise the removal above |
| Publishing.DropSub | src/server/publishing.ts:79-85 | only the document cache changes |
| Publishing.StartRerun | src/server/publishing.ts:35-39 | sending is suspended, the cache becomes the snapshot and the cache restarts empty |
| Publishing.DiffBoth | src/server/publishing.ts:43-61 | a document present before and after yields at most one `changed` for that document |
| Publishing.DiffLeft | src/server/publishing.ts:194-200 | the first pass never adds, and emits `removed` exactly for the snapshot documents missing afterwards |
| Publishing.DiffRight | src/server/publishing.ts:202-206 | the second pass emits `added`, with the full view, exactly for the documents new since the snapshot |
| Publishing.FlushRerun | src/server/publishing.ts:40-77 | sending resumes and the snapshot is dropped; `removed` goes out exactly for documents only in the snapshot, and `added` with the whole view exactly for documents only in the cache |
| PublishingProps.NewCollectionValid | src/server/publishing.ts:14-34 | a new engine satisfies the invariant that every document has a presenter and every view field is backed |
| PublishingProps.AddPreservesValid | src/server/publishing.ts:87-117 | `added` keeps the invariant |
| PublishingProps.ChangePreservesValid | src/server/publishing.ts:119-144 | `changed` keeps the invariant |
| PublishingProps.RemovePresentPreservesValid | src/server/publishing.ts:146-185 | `removed` keeps the invariant; in particular no cached document is left without a presenter |
| PublishingProps.DropSubPreservesValid | src/server/publishing.ts:79-85 | `dropSub` keeps the invariant |
| PublishingProps.RerunPreservesValid | src/server/publishing.ts:35-77 | `startRerun` and `flushRerun` keep the invariant |
| PublishingProps.DropSubEffect | src/server/publishing.ts:79-85 | after `dropSub` no document is presented by the subscriber, a document goes exactly when the subscriber was its only presenter, and other contributions are untouched |
| PublishingProps.SuspendedAdd | src/server/publishing.ts:25-32 | while suspended, `added` sends nothing yet changes the state as it does while sending |
| PublishingProps.SuspendedChange | src/server/publishing.ts:25-32 | while suspended, `changed` sends nothing yet changes the state as it does while sending |
| PublishingProps.SuspendedRemove | src/server/publishing.ts:25-32 | while suspended, `removed` sends nothing yet changes the state as it does while sending |
| PublishingProps.SuspendedDropSub | src/server/publishing.ts:79-85 | while suspended, `dropSub` sends nothing yet changes the state as it does while sending |
| PublishingProps.AddKeepsClientInSync | src/server/publishing.ts:87-117 | a client that holds the merged views and applies what `added` sends holds the new merged views |
| PublishingProps.ChangeKeepsClientInSync | src/server/publishing.ts:119-144 | the same for `changed` |
| PublishingProps.RemoveLastKeepsClientInSync | src/server/publishing.ts:152-160 | the same for `removed` by the last presenter |
| PublishingProps.RemoveSomeKeepsClientInSync | src/server/publishing.ts:162-185 | the same for `removed` while others still present |
| PublishingProps.RemoveKeepsClientInSync | src/server/publishing.ts:146-185 | the same for every successful `removed` |
| PublishingProps.DropSubKeepsClientInSync | src/server/publishing.ts:79-85 | the same for `dropSub` |
| PublishingProps.FlushRerunRebuildsDocumentSet | src/server/publishing.ts:40-77 | a client holding the snapshot that applies the rerun packets holds exactly the rebuilt documents, and every new one in full |
| PublishingProps.FlushRerunOncePerDocument | src/server/publishing.ts:189-207 | the rerun sends at most one packet per document |
| PublishingProps.FlushRerunSingleField | src/server/publishing.ts:43-60 | the exact packet for a one-field document whose value went from `x` to `y` |
| PublishingProps.FlushRerunClearsChangedField | src/server/publishing.ts:46-52 | a field whose value changed across a rerun is cleared on the client instead of updated |
| PublishingProps.FlushRerunClearsUnchangedField | src/server/publishing.ts:46-59 | an unchanged field is both resent and cleared, so a client loses it |
| PublishingProps.RemoveKeepsLeaversValue | src/server/publishing.ts:163-176 | a field two subscribers wrote keeps the last writer's value after that writer leaves |
| ServerSessions.NewSession | src/server/session.ts:56-75 | a new session is open, has written nothing, and has no collections or subscriptions |
| ServerSessions.RawFrames | src/server/session.ts:231-236 | raw mode writes one frame per packet, in order |
| ServerSessions.Frames | src/server/session.ts:229-240 | the frames of a `send` carry exactly its packets; raw mode writes one frame per packet and SockJS mode one array frame |
| ServerSessions.Send | src/server/session.ts:229-240 | `send` throws exactly once the session is closed, and what it throws is the reason the session was aborted with; otherwise it only appends frames that carry the packets |
| ServerSessions.SendEach | src/server/publishing.ts:25-32 | sending packets one at a time throws, with the abort reason, exactly when the session is closed and there is something to send; otherwise the packets are appended in order |
| ServerSessions.GetCollection | src/server/session.ts:25-32 | an engine is created empty and sending on first use, at the end of the order, and returned unchanged afterwards |
| ServerSessions.ApplyOp | src/server/subscription.ts:64-75 | a merge operation runs on the named engine; an engine error leaves the engine as it was; on an open session its packets are sent; on a closed one a send throws the abort reason, nothing is written, and the engine is left as the operation had changed it up to that send |
| ServerSessions.HaltOp | src/server/publishing.ts:87-185 | `changed`, a first `added` and a `removed` with presenters left halt only after completing; a step that sends nothing completes |
| ServerSessions.ClosedRemoveLeavesOrphan | src/server/publishing.ts:152-158 | on a closed session the last presenter's `removed` throws and leaves the document cached with no presenter, so the same subscriber's next `changed` throws "unpresented doc" |
| Publishing.AddHalted | src/server/publishing.ts:93-102 | `added` to a cached document halted at its send has recorded the new presenter but not merged the client view; a suspended engine completes |
| Publishing.RemoveHalted | src/server/publishing.ts:152-158 | `removed` by the last presenter halted at its send keeps the document cached, with no presenter and its order kept; every other `removed` completes |
| Publishing.DropSubVisitHalted | src/server/publishing.ts:79-85 | `dropSub` halted at a send only changes the document cache, and a visit that sends nothing completes |
| Publishing.DropSubHalted | src/server/publishing.ts:79-85 | the same for the whole cache |
| PublishingProps.AddHaltedPreservesValid | src/server/publishing.ts:93-102 | a halted `added` keeps every document presented and every view field backed |
| PublishingProps.AddHaltedKeepsViews | src/server/publishing.ts:93-102 | a halted `added` to a cached document leaves the merged views as the client holds them |
| PublishingProps.RemoveHaltedOrphans | src/server/publishing.ts:152-158 | a halted `removed` by the last presenter breaks the presenter invariant, yet leaves the merged views as the client holds them |
| ServerSessions.Close | src/server/session.ts:37-42 | the first close records the abort reason, fires the signal of every named subscription and forgets them all; a later close changes nothing |
| ServerSessions.AbortReason | src/server/session.ts:203-214 | a plain socket close aborts with the default reason; a socket error aborts with the error itself, or with an error built from the event's message, or with "Unidentified WebSocket error." when that message is empty |
| ServerSessions.Open | src/server/session.ts:189-192 | opening writes `o` in SockJS mode and nothing in raw mode |
| ServerSessions.GetCollectionStable | src/server/session.ts:25-32 | asking twice for a name yields the same engine and changes nothing more |
| ServerSessions.CloseIdempotent | src/server/session.ts:37-42 | closing twice is closing once, whatever the second cause; the closed session refuses every send with the first cause's reason, and every named subscription was aborted |
| Subscriptions.NewSubscription | src/server/subscription.ts:18-26 | a subscription object gets a handle no other has |
| Subscriptions.Recreate | src/server/subscription.ts:34-36 | the recreated object has the same id and a new handle whose signal has not fired |
| Subscriptions.DropAll | src/server/subscription.ts:41-43 | dropping a subscriber from every engine keeps the set of engines; it throws only on a closed session, with the abort reason, and then writes nothing |
| Subscriptions.SubStop | src/server/subscription.ts:38-51 | a universal subscription only fires its signal; a named one that is no longer registered does nothing; otherwise it is unregistered, dropped from every engine, `nosub` with the error is sent and its signal fires |
| Subscriptions.SubAdded | src/server/subscription.ts:64-67 | ignored once stopped; otherwise `added` on the named engine under the subscription's id |
| Subscriptions.SubChanged | src/server/subscription.ts:68-71 | ignored once stopped; otherwise `changed` on the named engine |
| Subscriptions.SubRemoved | src/server/subscription.ts:72-75 | ignored once stopped; otherwise `removed` on the named engine |
| Subscriptions.SubReady | src/server/subscription.ts:89-100 | ignored once stopped and for universal subscriptions; otherwise `ready` with the id is sent while the session is sending, and queued otherwise |
| Subscriptions.ServerErrorFor | src/server/subscription.ts:79-86 | the error is client-safe, has code `server-error`, the thrown message as its reason, and that message with ` [server-error]` as its message |
| Subscriptions.SubError | src/server/subscription.ts:77-87 | ignored once stopped; otherwise a stop carrying the server error |
| Subscriptions.RunPublication | src/server/session.ts:129-132 | a publication's calls are performed first; a call that throws, or else a rejection, is passed to `error` with its message; otherwise the calls' effect is the result; the session's identity, framing, flags and universal subscriptions stay, frames are only appended, and no signal is un-fired |
| Subscriptions.PerformAllAppend | src/server/session.ts:129-132 | a handler's calls take effect in order: a run of calls is its first part followed, unless that threw, by the rest |
| Subscriptions.PerformAllOne | src/server/session.ts:129-132 | a single call takes effect as itself |
| Subscriptions.FailingPublicationSendsNosub | src/server/session.ts:129-132 | a publication that rejects or throws while its named subscription is live on an open session ends it: the id is dropped, the signal fires, and the last packet is `nosub` with a `server-error` carrying the failure's message |
| Subscriptions.DuplicateAddThrows | src/server/publishing.ts:89-92 | a publication that adds the same document twice throws the merge engine's error at the second `added`, with the subscription still live |
| Subscriptions.DuplicateAddFailsPublication | src/server/session.ts:129-132 | that publication ends with `nosub` carrying the merge engine's error as a `server-error` |
| Subscriptions.EmitStep | src/server/subscription.ts:113-136 | an event from a failed source changes nothing; a live source's `ready` counts one source down and calls `ready` exactly when none is left; any other event leaves the counts alone; sources that failed stay failed |
| Subscriptions.EmitToSub | src/server/subscription.ts:103-139 | with no sources `ready` is called once at once, and with sources the emission never throws |
| Subscriptions.EmitFoldCounts | src/server/subscription.ts:107-119 | the count of unready sources is the number of sources minus the ready events taken |
| Subscriptions.EmitToSubReadiesOnce | src/server/subscription.ts:107-119 | with `n` sources `ready` is called exactly once if at least `n` ready events got through and never otherwise, and while no source fails every ready event gets through |
| Subscriptions.Start | src/server/subscription.ts:6-17 | a stream list is pumped, a single stream is pumped as a list of one, no result does nothing, and a rejection becomes `error` |
| Subscriptions.Pump | src/server/subscription.ts:9-16 | pumping no streams readies the subscription at once, and a throw from that becomes `error`; streams are emitted without throwing |
| Subscriptions.StopIdempotent | src/server/subscription.ts:38-51 | stopping again after a stop changes nothing and sends nothing |
| Subscriptions.UniversalNeverSends | src/server/subscription.ts:39-50 | a universal subscription's stop, ready and error write nothing, yet stop fires its signal |
| Subscriptions.StoppedIgnoresEverything | src/server/subscription.ts:64-90 | once the signal fired, `added`, `changed`, `removed`, `ready` and `error` change nothing |
| Subscriptions.ErrorSendsNosub | src/server/subscription.ts:77-87 | `error` on a live registered subscription unregisters it, fires its signal and sends `nosub` with the server error |
| Registry.NewInterface | src/server/interface.ts:9-12 | a new registry has no callbacks, methods or publications |
| Registry.Announce | src/server/interface.ts:37-39 | a registered callback handed a session returns or throws as its handler does |
| Registry.OnConnection | src/server/interface.ts:16-17 | a callback joins the set once, at the end, with its behaviour; a present one keeps its place and behaviour |
| Registry.StopConnection | src/server/interface.ts:18-22 | the handle's `stop` removes exactly that callback |
| Registry.OnConnectionThenStop | src/server/interface.ts:16-23 | registering a new callback and stopping it restores the registry, and the other callbacks keep their order |
| Registry.AddMethod | src/server/interface.ts:25-27 | the name maps to the handler, replacing any earlier one, and other names are untouched |
| Registry.AddPublication | src/server/interface.ts:28-30 | the name maps to the handler, replacing any earlier one, and other names are untouched |
| Registry.AddDefaultPublication | src/server/interface.ts:31-33 | the publication is appended after the earlier ones |
| Registry.CallMethod | src/server/interface.ts:52-58 | an unregistered name throws `unimplemented method`; otherwise the handler's result or error |
| Registry.LookupPublication | src/server/interface.ts:60-66 | a registered name gives its handler, and any other throws `unimplemented sub` |
| Registry.AddedMethodIsCalled | src/server/interface.ts:25-58 | after `addMethod` a call by that name runs the new handler, and calls by other names are unaffected |
| Dispatch.StartDefaultSub | src/server/session.ts:77-90 | a universal subscription with the next handle joins the universal set and the handler runs on it with no parameters; an asynchronous failure is caught and routed to the subscription's error path, while a synchronous throw escapes before the catch is attached, leaving the subscription live |
| Dispatch.SynchronousDefaultFailureEscapes | src/server/session.ts:77-90 | a handler that throws synchronously leaves the default subscription live and unaborted, and its error escapes; the same failure raised asynchronously is caught and aborts the subscription |
| Dispatch.StartDefaultSubs | src/server/interface.ts:47-49 | every default publication gets a universal subscription and a handle of its own, and no connection callback is told |
| Dispatch.AnnounceAll | src/server/interface.ts:37-39 | the callbacks are told in order up to and including the first that throws, whose error is the result; none throws exactly when all are told |
| Dispatch.RegisterSocket | src/server/interface.ts:35-50 | every connection callback is told of the session, in order, and then every default publication gets a universal subscription; a throwing callback ends it with its error, with later callbacks untold and no default publication started |
| Dispatch.MethodSeed | src/server/session.ts:147 | a method sees a random seed exactly when the packet carries a non-empty one |
| Dispatch.MethodReply | src/server/session.ts:148-162 | success is answered by `result` and `updated` for the id, and failure by a lone `result` whose error carries the message as code and message |
| Dispatch.HandleClientPacket | src/server/session.ts:92-171 | handling only extends the session; a method never fails the handling; `unsub` of an unknown id does nothing; a client `pong` throws and changes nothing |
| Dispatch.Deliver | src/server/session.ts:193-201 | delivery only extends the session, and records at most one failure per inbound packet |
| Dispatch.DeliverAppend | src/server/session.ts:193-201 | delivering two batches is delivering their concatenation |
| Dispatch.ConnectRefused | src/server/session.ts:97-104 | a version other than `1` is answered by `failed` for version `1`, and nothing is registered |
| Dispatch.ConnectAccepted | src/server/session.ts:106-111 | version `1` is answered by `connected` with the session id; then the callbacks are told; the handling throws exactly when a callback does, and otherwise every default publication is started |
| Dispatch.ThrowingCallbackStopsRegistration | src/server/session.ts:106-111 | a first callback that throws ends the `connect` handling with its error after `connected`; no other callback is told and no default publication starts |
| Dispatch.PingEchoed | src/server/session.ts:113-118 | `ping` is answered by `pong` with the same, possibly absent, id; on a closed session the handling throws the abort reason |
| Dispatch.MethodSucceeded | src/server/session.ts:138-166 | a returning method is answered by its result and then `updated` |
| Dispatch.MethodFailed | src/server/session.ts:138-166 | a throwing or unregistered method is answered by one `result` carrying the error |
| Dispatch.MethodOnClosedSession | src/server/session.ts:163-164 | a reply that cannot be sent leaves the session as it was and does not fail the handling |
| Dispatch.UnsubUnknownIgnored | src/server/session.ts:134-137 | `unsub` of an unknown id changes nothing |
| Dispatch.SubToUnknownPublication | src/server/session.ts:119-133 | a subscription to an unknown publication is registered, then ended with `nosub` carrying the `unimplemented sub` error |
| Dispatch.SubRegisteredBeforeRun | src/server/session.ts:119-133 | the publication runs with its subscription already registered under the requested id |
| Dispatch.ClosedSessionSilencesSubs | src/server/session.ts:37-42 | after a close, a former named subscription changes nothing whatever it is asked |
| Dispatch.ClosedSessionRefuses | src/server/session.ts:229-230 | once a session is closed for a cause, `ping` and `connect` fail the handling with that cause's abort reason |
| Dispatch.PongUnexpected | src/server/session.ts:167-169 | a client `pong` is an unexpected message: it throws and changes nothing |
| ClientSockets.NewClientSocket | src/client/socket.ts:11-38 | a new socket has no writer and empty tables |
| ClientSockets.AttachWriter | src/client/connection.ts:160 | attaching a writer changes nothing else |
| ClientSockets.SendMessage | src/client/socket.ts:236-254 | without a writer it throws; raw mode writes the packet alone and SockJS mode a one-element array |
| ClientSockets.SendMessageCarriesPacket | src/client/socket.ts:236-254 | whatever the framing, a send adds exactly its packet to what was written |
| ClientSockets.CallMethod | src/client/socket.ts:40-66 | an outstanding id throws; otherwise the id is registered before `method` is written, and a failed write rejects the call |
| ClientSockets.Ping | src/client/socket.ts:68-78 | an outstanding id throws; otherwise the id is registered, in order, before `ping` is written |
| ClientSockets.Subscribe | src/client/socket.ts:80-108 | an id that is pending or ready throws; otherwise it becomes pending before `sub` is written |
| ClientSockets.HandlePong | src/client/socket.ts:147-160 | `pong` without an id resolves every pending ping; with a pending id it resolves only that one; an unknown id is ignored |
| ClientSockets.MarkReady | src/client/socket.ts:169-179 | only the subscription tables and the settlements change; an empty list does nothing; a first id that is not pending throws and changes nothing |
| ClientSockets.MarkReadyAllPending | src/client/socket.ts:169-179 | when every id is pending and listed once, all of them become ready and resolve in order |
| ClientSockets.HandlePacket | src/client/socket.ts:141-234 | `ping` is answered, `pong` resolves pings, `error` throws, `updated` is ignored, `ready`/`nosub`/`result` are matched against the tables and unknown ids throw, and document packets are handed on unchanged |
| ClientSockets.HandleReceived | src/client/socket.ts:141-233 | a known packet is handled as such; JSON that is no known packet changes nothing and hands nothing on, and throws exactly when it is `null` |
| ClientSockets.RawLoop | src/client/socket.ts:111-121 | raw mode logs at most one failure per chunk and goes on; it ends early exactly when some chunk does not parse, so JSON that is no known packet never ends it |
| ClientSockets.HandleAll | src/client/socket.ts:126-132 | handling an array frame logs nothing, and only a throw from handling a message ends the loop |
| ClientSockets.SockJsLoop | src/client/socket.ts:124-138 | `o`, `c` and unknown chunks end the SockJS loop with their errors; only array frames are handled |
| ClientSockets.RunInboundLoop | src/client/socket.ts:110-139 | the loop is chosen by the framing |
| ClientSockets.SubscribePreservesDisjoint | src/client/socket.ts:80-108 | `subscribe` keeps pending and ready subscriptions apart |
| ClientSockets.MarkReadyPreservesDisjoint | src/client/socket.ts:169-181 | moving subscriptions to ready keeps pending and ready subscriptions apart, even when it throws halfway |
| ClientSockets.HandlePacketPreservesDisjoint | src/client/socket.ts:169-200 | handling any packet keeps pending and ready subscriptions apart |
| ClientSockets.MethodResultResolves | src/client/socket.ts:203-220 | a call answered by a success resolves with the result and leaves the table as before the call |
| ClientSockets.MethodErrorRejects | src/client/socket.ts:203-220 | a call answered by an error rejects with the error's message |
| ClientSockets.RejectedCallStaysPending | src/client/socket.ts:57-65 | a call without a writer is rejected, yet its id stays registered, so reusing it throws |
| ClientSockets.ResultAnsweredOnce | src/client/socket.ts:204-207 | a second result for the same id throws and changes nothing |
| ClientSockets.PingPongResolves | src/client/socket.ts:155-159 | a ping answered by a pong with its id resolves it, and only it |
| ClientSockets.PongWithoutIdResolvesAll | src/client/socket.ts:148-154 | a pong without an id resolves every pending ping in the order they were sent |
| ClientSockets.ReadyResolvesSub | src/client/socket.ts:169-181 | a subscription declared ready resolves, becomes ready, and `ready` goes on to the connection |
| ClientSockets.NosubForgetsReadySub | src/client/socket.ts:194-198 | after `nosub` a ready subscription is forgotten, so a second `nosub` throws |
| ClientSockets.ReadyKeepsEarlierMoves | src/client/socket.ts:170-180 | a `ready` whose second id is unknown throws after the first id already moved and resolved, and nothing is handed on |
| ClientSockets.RawLoopAppend | src/client/socket.ts:112-120 | the raw loop over two runs of chunks, the first of which all parse, is the loop over their concatenation |
| ClientSockets.RawLoopUnfold | src/client/socket.ts:112-120 | a chunk that parses is handled, its failure logged, and the loop goes on with the rest |
| ClientSockets.ForeignChunkPassedOver | src/client/socket.ts:112-120 | in raw mode JSON that is no known packet is passed over; `null` adds the error reading its `msg` to the log; the loop reads on either way |
| ClientSockets.SockJsLoopOneArray | src/client/socket.ts:126-132 | one array frame handles its messages and nothing else |
| ClientSockets.HandleAllAppend | src/client/socket.ts:127-130 | an array's messages are handled in order: the first run, then, unless it threw, the rest |
| ClientSockets.SockJsLoopAppend | src/client/socket.ts:124-138 | the SockJS loop reads chunks in order: the first run, then, unless that ended the loop, the rest |
| ClientSockets.SockJsArraysForwardAll | src/client/socket.ts:124-138 | array frames whose messages never throw are all handled, the loop goes on, and what they hand on is concatenated in order |
| Handshakes.RunHandshake | src/client/_open.ts:26-64 | the reader is released exactly when there is no error; without a writer the handshake fails before reading; otherwise `connect` is written |
| Handshakes.HandshakeSucceedsExactly | src/client/_open.ts:40-58 | success exactly when there is a writer and the chunks open the session for the framing: `o` then an array led by `connected`, or an encoded `connected` |
| Handshakes.ConnectWrittenFirst | src/client/_open.ts:34-38 | `connect` version `1` supporting `1` is written before anything is read |
| Handshakes.HandshakeIgnoresLaterChunks | src/client/_open.ts:40-58 | chunks after the opening do not change the outcome |
| Handshakes.CheckConnected | src/client/_open.ts:49-50 | the first message passes exactly when it is `connected` |
| Handshakes.RawHandshakeRejectsForeign | src/client/_open.ts:54-57 | in raw mode JSON that is no known packet fails: an object at the `msg` check, anything else at the first-character check |
| Handshakes.SockJsHandshakeNullMessage | src/client/_open.ts:47-50 | in SockJS mode a reply led by `null` fails when its `msg` is read |
| Connections.CreateSocket | src/client/connection.ts:131-137 | an existing socket throws; otherwise the status becomes `connecting` and a socket without a writer is installed |
| Connections.NewConnection | src/client/connection.ts:12-33 | a connection starts offline with no socket, or `connecting` with one when it connects automatically |
| Connections.CurrentStatus | src/client/connection.ts:34-36 | `status()` gives the current status |
| Connections.GrabCollection | src/client/connection.ts:38-45 | a store is created empty on first use and the same store is returned afterwards; other stores are untouched |
| Connections.GrabCollectionStable | src/client/connection.ts:38-45 | a second grab changes nothing |
| Connections.CallMethod | src/client/connection.ts:51-55 | without a socket it throws `Not connected and no offline queue`; otherwise the socket's call |
| Connections.Ping | src/client/connection.ts:57-61 | without a socket it throws; otherwise the socket's ping |
| Connections.Subscribe | src/client/connection.ts:63-70 | without a socket, or for an id the socket refuses, it throws; otherwise the subscription is desired and not ready |
| Connections.StopSub | src/client/connection.ts:74-81 | `stop` forgets the subscription, and writes `unsub` exactly when it was still desired and the socket can write |
| Connections.StopSubIdempotent | src/client/connection.ts:74-81 | a second `stop` changes nothing and writes nothing |
| Connections.MarkDesired | src/client/connection.ts:111-124 | the flag of each listed desired id is set and unknown ids are ignored |
| Connections.HandleLivedataPacket | src/client/connection.ts:85-129 | document packets reach their collection's store, created first; ordered packets throw; `ready`/`nosub` only touch the flags; anything else is ignored |
| Connections.ReadyRaisesListed | src/client/connection.ts:111-117 | `ready` raises the flag of every listed desired id and leaves the others |
| Connections.NosubLowers | src/client/connection.ts:118-124 | `nosub` lowers the flag of that id and leaves the others |
| Connections.InCollection | src/client/connection.ts:93-104 | the store is created first and kept as the store operation left it, even when that operation threw, and the throw is handed on |
| Connections.AddedRoutedToStore | src/client/connection.ts:93-96 | `added` does to the named store what `addDocument` does, with fields defaulting to none; a rejected id leaves the store as it was |
| Connections.RouteAll | src/client/connection.ts:157-162 | routing handed-on packets never touches the socket or the status, and rejects at most once per packet |
| Connections.Receive | src/client/connection.ts:157-162 | what the socket's read loop hands on is routed in order |
| Connections.SetupCreatedSocket | src/client/connection.ts:138-146 | the setup touches neither stores nor subscriptions, and does nothing without a socket |
| Connections.CreatedSocketNeverConnects | src/client/connection.ts:138-146 | the automatic setup's handshake fails for want of a writer, so the status stays `connecting` |
| Connections.ConnectToStreams | src/client/connection.ts:151-165 | an existing socket throws; otherwise the connection becomes `connected` exactly when the handshake accepts the chunks, and stays `connecting` otherwise |
| Connections.ConnectToStreamsWritesConnect | src/client/connection.ts:155-163 | the only packet written by then is `connect` |
| Documents.MakeReturnDoc | src/livedata/document.ts:4-30 | in inclusion mode the result holds exactly the included names that are `_id` or present; otherwise it holds the fields the specifier does not name, own or inherited from `Object.prototype`, plus `_id` unless named; `_id` is the id and the other values are the originals |
| Documents.NoSpecKeepsOwnFields | src/livedata/document.ts:20-28 | with no specifier the result is every field whose name is not a member of `Object.prototype`, plus `_id` |
| Documents.ConstructorFieldDropped | src/livedata/document.ts:20-25 | a stored field called `constructor` is never handed out by a query without a specifier |
| Documents.InclusionKeepsOnlyIncluded | src/livedata/document.ts:10-19 | in inclusion mode only included names appear, `_id` only when included, and absent names are omitted |
| Documents.MakeReturnDocIdempotent | src/livedata/document.ts:4-30 | projecting a projected document again with the same options changes nothing |
| Documents.SplitId | src/livedata/facades.ts:264-272 | destructuring `{_id, ...fields}` gives the `_id` value and every other field unchanged |
| Documents.SplitReturnDoc | src/livedata/facades.ts:264-266 | splitting a projected document gives back the id and the stored fields without `_id` and without those named after `Object.prototype` members |
| LiveCollections.NewLiveCollection | src/livedata/collections/live.ts:8-9 | a new store has no documents, queries or callbacks |
| LiveCollections.AddedObject | src/livedata/collections/live.ts:24 | `addDocument` matches `{id, ...fields}` |
| LiveCollections.IdObject | src/livedata/collections/live.ts:62 | finding and removal match `{_id, ...fields}` |
| LiveCollections.Notify | src/livedata/collections/live.ts:19-33 | only queries that fire get a callback, with the document shaped for them; the first callback that throws ends the loop and its error escapes; when none throws, every query that fires is told |
| LiveCollections.DeliveredSkip | src/livedata/collections/live.ts:20-25 | a query that is dirty or does not match adds nothing to the loop |
| LiveCollections.DeliveredThrow | src/livedata/collections/live.ts:29 | a first callback that throws ends the loop there |
| LiveCollections.DeliveredCons | src/livedata/collections/live.ts:19-33 | a first callback that returns is followed by the loop over the other queries |
| LiveCollections.NotifyStopsAtThrow | src/livedata/collections/live.ts:19-33 | once a callback throws, no query after it hears of the document |
| LiveCollections.AddDocument | src/livedata/collections/live.ts:11-42 | an empty or present id throws and changes nothing; otherwise the fields are stored at the end before any query is told, and the queries are notified as `Notify` states, so a throwing `added` leaves the document stored |
| LiveCollections.ThrowingAddedSilencesLater | src/livedata/collections/live.ts:14-33 | a throwing `added` leaves the new document stored, its error escapes, and later queries hear nothing |
| LiveCollections.ChangeDocument | src/livedata/collections/live.ts:43-50 | an empty id throws and changes nothing; otherwise the document is stored, at the end if it is new, no other document changes and no query hears of it |
| LiveCollections.ChangeDocumentFields | src/livedata/collections/live.ts:43-50 | each stored field is its index-key value, else the given one, else the previous one |
| LiveCollections.ChangeClearingNothing | src/livedata/collections/live.ts:43-50 | a change that clears nothing stores the given fields spread over the stored ones, or over nothing when the document is absent, and throws nothing |
| LiveCollections.EmptyChangeKeepsStore | src/livedata/collections/live.ts:43-50 | changing a stored document with no fields and nothing cleared leaves the whole store as it was |
| LiveCollections.ChangeAfterChange | src/livedata/collections/live.ts:43-50 | a second change that clears nothing spreads its fields over those the first one left |
| LiveCollections.ChangesCompose | src/livedata/collections/live.ts:43-50 | two changes of one document that clear nothing are the single change with the second fields spread over the first |
| LiveCollections.RemoveDocument | src/livedata/collections/live.ts:51-67 | an absent id throws and changes nothing; otherwise the document leaves before any query is told, and the queries are notified with the previous fields as `Notify` states, so a throwing `removed` leaves it removed |
| LiveCollections.MatchingIds | src/livedata/collections/live.ts:79-86 | exactly the stored ids whose documents match, as a subsequence of the insertion order |
| LiveCollections.Find | src/livedata/collections/live.ts:79-86 | one projected document per matching id, the ids taken in insertion order with the non-matching ones left out |
| LiveCollections.FindOne | src/livedata/collections/live.ts:99-104 | the first document found, or none exactly when nothing matches |
| LiveCollections.Count | src/livedata/collections/live.ts:121-127 | the count is the number of matching documents, so it equals `fetch().length` under every option |
| LiveCollections.MatchAllFindsAll | src/livedata/collections/live.ts:79-86 | the empty selector finds every document, in insertion order |
| LiveCollections.InitialAdds | src/livedata/collections/live.ts:160-162 | the documents go to `added` in order, up to and including the first call that throws, whose error escapes; none throws exactly when all are delivered |
| LiveCollections.Observe | src/livedata/collections/live.ts:153-166 | every current match goes to `added` first, in `find` order, and only then is the query registered under a new handle; an `added` that throws ends the delivery, escapes, and leaves the query unregistered |
| LiveCollections.StopQuery | src/livedata/collections/live.ts:71-77 | stopping removes exactly that query |
| LiveCollections.StopQueryIdempotent | src/livedata/collections/live.ts:71-77 | a second stop changes nothing |
| LiveCollections.StoppedQueryHearsNothing | src/livedata/collections/live.ts:71-77 | a stopped query gets no later callback |
| LiveCollections.AddThenRemove | src/livedata/collections/live.ts:11-67 | adding and removing a new document restores the documents and their order |
| LiveCollections.AddMissesIdSelector | src/livedata/collections/live.ts:24 | a query on `_id` hears nothing when a document without `_id` is added |
| LiveCollections.FindSeesIdSelector | src/livedata/collections/live.ts:81-83 | yet the same selector finds that document |
| LiveCollections.RemoveHitsIdSelector | src/livedata/collections/live.ts:62-65 | and the query hears of its removal, unless an earlier callback threw |
| LiveCollections.ClearedNameSurvives | src/livedata/collections/live.ts:48 | a cleared field keeps its value, and `"0"` becomes undefined instead |
| AnonymousCollections.Insert | src/livedata/collections/anonymous.ts:17-20 | a falsy `_id` throws `_id is required`; an existing id throws; otherwise the other fields are stored under the id at the end, and what an observer throws escapes |
| AnonymousCollections.InsertCountsOneMore | src/livedata/collections/anonymous_test.ts:10-14 | an insert that stores the document makes `find().count()` grow by one, whatever the observers throw |
| AnonymousCollections.InsertThenFind | src/livedata/collections/anonymous.ts:17-20 | the inserted document, `_id` included and fields named after `Object.prototype` members left out, is the last one `find()` yields |
| AnonymousCollections.LastFound | src/livedata/collections/live.ts:79-86 | a document stored last under its own `_id` is the last one `find()` yields, shaped as a query without a specifier shapes it |
| Facades.Mutate | src/livedata/facades.ts:71-98 | a callback throws; a backing method is delegated to; a missing one throws `not implemented` |
| Facades.Fetch | src/livedata/facades.ts:204-212 | the backing's `fetch`, else everything the iterator yields, else a throw |
| Facades.Count | src/livedata/facades.ts:191-203 | the backing's `count`, else the number of items the iterator yields, else a throw; over a consistent backing it agrees with `fetch` |
| Facades.ForEach | src/livedata/facades.ts:213-224 | the backing's `forEach`; else every item with its index, and then the throw all the same |
| Facades.ForEachFallbackVisitsThenThrows | src/livedata/facades.ts:217-223 | the fallback visits every item and still throws |
| Facades.Map | src/livedata/facades.ts:225-238 | the backing's `map`, else the callback's results in order with indices 0..n-1, else a throw |
| Facades.FindOneVia | src/livedata/facades.ts:61-70 | the backing's `findOne`, else the first item found or none, and a throw when the cursor cannot iterate |
| Facades.ObserveCbsToChanges | src/livedata/facades.ts:262-274 | a document callback exists exactly where the change callback does, hands it the `_id` split from the rest, and throws what it throws |
| Facades.ObserveChanges | src/livedata/facades.ts:245-253 | the backing's `observeChanges`, else `observe` with converted callbacks, else a throw |
| Facades.Observe | src/livedata/facades.ts:239-244 | the backing's `observe`, else a throw |
| Facades.LiveBacking | src/livedata/collections/live.ts:121-147 | the live cursor's `count`, `fetch` and iteration agree |
| Facades.FindOneFallbackAgrees | src/livedata/facades.ts:61-70 | over the live store, the backing's `findOne` and the fallback give the same document |
| Facades.ObserveChangesSplitsStoredDocument | src/livedata/facades.ts:249-250 | through `observe`, the change callbacks get the stored id and the stored fields without `_id` (and without those named after `Object.prototype` members), and the store sees what they throw |
| LiveVariables.NewLiveVariable | src/lib/live-variable.ts:11-13 | the snapshot is the initial value and there are no subscribers |
| LiveVariables.Subscribe | src/lib/live-variable.ts:20-21 | subscribers form a set kept in order |
| LiveVariables.Unsubscribe | src/lib/live-variable.ts:22-24 | the returned function removes exactly that callback |
| LiveVariables.RunsOf | src/lib/live-variable.ts:34-40 | every subscriber runs, in order, seeing the new value |
| LiveVariables.LastThrown | src/lib/live-variable.ts:33-40 | what is caught is `null` when nothing throws, and otherwise the value thrown by the last callback that threw |
| LiveVariables.SetSnapshot | src/lib/live-variable.ts:30-42 | the value is stored before any callback runs, every subscriber runs, and the last catch is rethrown if truthy |
| LiveVariables.UnsubscribedNotRun | src/lib/live-variable.ts:20-25 | an unsubscribed callback is not run by a later `setSnapshot` |
| LiveVariables.SubscribeIdempotent | src/lib/live-variable.ts:16-21 | subscribing twice is subscribing once |
| LiveVariables.LaterFalsyThrowCancels | src/lib/live-variable.ts:33-41 | a later callback throwing `null` cancels an earlier one's error |

## Left out

- EJSON and JSON text: encoding and parsing are not modelled, and packets are structured values. A chunk read from a socket is already classified as `o`, an array frame, a close frame, an encoded packet, other JSON, or text that is not JSON. JSON with leading whitespace is not modelled. Malformed JSON inside an array frame is not distinguished. Of JSON that is no known packet, only `null` is told apart, because reading `msg` off it throws; the message of that error is the one V8 gives.
- JSON quoting: the quoting inside error messages (`JSON.stringify` of an id) does not escape quotes or control characters.
- Handshake error messages: they are represented by the offending chunk or packet, not by its JSON text.
- Numbers: only integers are modelled; floating point is not.
- Selectors: the sift selector compiler is outside the model. A selector is an arbitrary predicate on documents.
- Clones and equality: `structuredClone` and `EJSON.clone` are the identity on immutable values, and `EJSON.equals` is structural equality.
- Object keys: the insertion order of JavaScript object keys is not modelled; a document is a map. In `makeReturnDoc` the specifier's `in` does see the members of `Object.prototype` (`Documents.Inherited`), but `in original` in inclusion mode is modelled as own-key membership: for an included name such as `toString` that the document lacks, the source finds the inherited function and `structuredClone` throws on it, while the model leaves the name out.
- Tracing: OpenTelemetry spans and baggage only trace and never change protocol state.
- Transport: `openWebsocketStream`, `serveWebsocket`, the WebSocket event wiring and `DdpStreamSession`'s stream plumbing are not modelled.
- Time and interleaving:
  - Promise interleaving is reduced to sequential steps, and each request's settlement goes into an ordered log.
  - The connection's live-data callback runs synchronously, and its rejections are collected into a list. In the source that callback is async and nobody awaits it (socket.ts:180, 193, 196), so each such rejection is unhandled.
  - `emitToSub`'s concurrent source pipes become one interleaved sequence of source events.
- `RemoteCollectionApi.insert` is a remote call and is not modelled.
- The `*Async` facade methods and `Symbol.asyncIterator` are not modelled.
- Offline behaviour is not modelled: the offline queue, reconnection, backoff, `retryCount` updates and `userId`. The code shown has none of them.
- `getApi` returns a view of the same store, so it is the store itself.
- `collectionName` passes the backing's optional name through unchanged; the live store has none, so no member models it.
- Subscriptions.DropAll: the contract states which engines exist, when it throws and that a closed session writes nothing. What each engine becomes is stated step by step by `ServerSessions.ApplyOp` and is not summed over the names.
- AnonymousCollections.Insert: requires that a truthy `_id` is a string, as the document type declares.
- Connections.NewConnection: `autoConnect` only installs the socket; the asynchronous setup that follows is `Connections.SetupCreatedSocket`.
- Facades.ForEach: the callback's own effects are not modelled, only the visits it receives.
- LiveVariables.SetSnapshot: a callback is described only by whether it throws, and by what. Callbacks that subscribe, unsubscribe or set the value while running are not modelled.
- LiveCollections.Notify: an observer callback is described only by what it throws. Callbacks that change the store, or stop a query, while the loop runs are not modelled.
- LiveCollections.ChangeDocument: the `cleared` list of a `changed` packet is the set of names it holds. A list that repeats a name writes one index key per entry in the source, and one per distinct name here. The servers modelled here never repeat a name, since theirs come from the keys of an object.
- Server subscription class: the server session constructs `DdpSocketSubscription(this, '')` and `DdpSocketSubscription(this, pkt.id)` (session.ts:9, 78, 120), but the subscription module exports only `DdpSessionSubscription(connection, opts)` with `opts.subId`, `opts.pubName` and `opts.startFunc` (subscription.ts:5, 18-25). As written, the import does not resolve. Read literally, `opts.subId` of a string argument is undefined, so every subscription would take the universal branches at subscription.ts:39 and :91. The model takes the evident intent: the second argument is the subscription id, `""` for a default publication.
- Subscriptions.Start, Subscriptions.Pump, Subscriptions.EmitToSub: these model `_start` and `emitToSub` as written. No session reaches them, though: `callSubscribe`'s `PublishStream[]` result is thrown away at session.ts:129-132 and interface.ts:60-66, and `_start` is never called. `Dispatch.HandleClientPacket` models that: a publication's streams are not pumped.
- Unhandled rejections: several members drop or collect a failure that the source leaves as a promise rejection with no handler. Deno ends the process on such a rejection by default, and the model does not model ending the process:
  - `Connections.StopSub` drops a failed `unsub` send (connection.ts:77);
  - `Connections.SetupCreatedSocket` drops the handshake's failure (connection.ts:138-146);
  - the inbound loop's result is discarded (connection.ts:142, :162);
  - `Dispatch.StartDefaultSubs` drops what each `startDefaultSub` throws (interface.ts:47-49);
  - `Connections.RouteAll` collects the live-data callback's rejections (socket.ts:180, 193, 196);
  - `Subscriptions.EmitToSub` collects a failing source's error in `rejections`, where the source's `pipeTo` promise (subscription.ts:112) has no handler.
- Thrown values: a thrown value or a rejection is modelled as the message of an `Error` (`Registry.HandlerResult`, `Subscriptions.ServerErrorFor`, `Dispatch.MethodReply`). The source reads `.message` off whatever was thrown (session.ts:159-160, subscription.ts:82-83). So a thrown string would give an undefined `error`/`message` in the `result`, and `"undefined [server-error]"` in `nosub`. A thrown `null` would make that read throw, and no method reply would be sent. Non-`Error` throws are not modelled.
- ServerSessions.AbortReason: a session's abort reason is kept as the message of what `throwIfAborted` throws. A reasonless abort gives the text of Deno's `AbortSignal`, and the class of the thrown value is not modelled.
- Subscriptions.Perform: the `unblock` method throws `Method not implemented.` and is not offered to handlers.

=== FILE: anonymous.dfy ===
/**
 * A collection that lives only on the client (`AnonymousCollection`): its
 * API adds `insert` on top of the live store.  The API object is a view of
 * the same store, so `getApi` is the store itself here.
 */
module AnonymousCollections {
  import opened Wrappers
  import opened Values
  import opened Documents
  import opened LiveCollections

  function IdRequired(): string { "_id is required" }

  /** Whether `{_id, ...fields}` destructures a falsy `_id` out of the document. */
  predicate MissingId(doc: Fields) {
    "_id" !in doc || !Truthy(doc["_id"])
  }

  /**
   * `insert`: a falsy `_id` throws; otherwise the document's other fields
   * are added under that id, which fails for an id already stored and
   * otherwise stores them even when an observer's callback then throws.
   * The document type declares `_id` a string.
   */
  function Insert(c: LiveCollection, doc: Fields): (r: Update)
    requires !MissingId(doc) ==> doc["_id"].Str?
    ensures MissingId(doc) ==> r == Update(c, Some(IdRequired()))
    ensures !MissingId(doc) && doc["_id"].s in c.fields.entries ==> r == Update(c, Some(DuplicateId(doc["_id"].s)))
    ensures !MissingId(doc) && doc["_id"].s !in c.fields.entries ==>
      var id := doc["_id"].s;
      && r.collection.fields.entries == c.fields.entries[id := doc - {"_id"}]
      && r.collection.fields.keys == c.fields.keys + [id]
      && r.thrown == AddDocument(c, id, doc - {"_id"}).thrown
  {
    if MissingId(doc) then Update(c, Some(IdRequired()))
    else AddDocument(c, doc["_id"].s, doc - {"_id"})
  }

  /** An insert that stores the document makes `find().count()` grow by exactly one. */
  lemma InsertCountsOneMore(c: LiveCollection, doc: Fields)
    requires !MissingId(doc) ==> doc["_id"].Str?
    requires !MissingId(doc) && doc["_id"].s !in c.fields.entries
    ensures |Find(Insert(c, doc).collection, MatchAll(), FindOpts(None))|
         == |Find(c, MatchAll(), FindOpts(None))| + 1
  {
    var c' := Insert(c, doc).collection;
    MatchAllFindsAll(c.fields.keys, c.fields.entries);
    MatchAllFindsAll(c'.fields.keys, c'.fields.entries);
  }

  /**
   * The inserted document comes back, `_id` included, as the last one
   * `find()` yields, short of any field named after a member of
   * `Object.prototype`.
   */
  lemma InsertThenFind(c: LiveCollection, doc: Fields)
    requires !MissingId(doc) ==> doc["_id"].Str?
    requires !MissingId(doc) && doc["_id"].s !in c.fields.entries
    ensures var found := Find(Insert(c, doc).collection, MatchAll(), FindOpts(None));
      |found| > 0 && found[|found| - 1] == OwnFields(doc)
  {
    var c' := Insert(c, doc).collection;
    assert c'.fields.keys == c.fields.keys + [doc["_id"].s];
    LastFound(c', doc);
  }

  /** A document stored last, under its own `_id`, is the last one `find()` yields, shaped. */
  lemma LastFound(c: LiveCollection, doc: Fields)
    requires "_id" in doc && doc["_id"].Str?
    requires |c.fields.keys| > 0 && c.fields.keys[|c.fields.keys| - 1] == doc["_id"].s
    requires c.fields.entries[doc["_id"].s] == doc - {"_id"}
    ensures var found := Find(c, MatchAll(), FindOpts(None));
      |found| > 0 && found[|found| - 1] == OwnFields(doc)
  {
    var id := doc["_id"].s;
    MatchAllFindsAll(c.fields.keys, c.fields.entries);
    NoSpecKeepsOwnFields(id, doc - {"_id"});
    OwnFieldsRestoreId(doc, id);
  }
}

=== FILE: client_socket.dfy ===
/**
 * The client's side of one DDP socket (`DdpClientSocket`): it correlates the
 * server's replies with the calls, pings and subscriptions it has
 * outstanding, forwards subscription packets to the connection, and frames
 * what it writes.  Promises are modelled by the `settled` log: each entry
 * says how one pending call, ping or subscription settled.
 */
module ClientSockets {
  import opened Wrappers
  import opened Values
  import opened Wire
  import OM = OrderedMaps

  /** How an outstanding request's promise settled. */
  datatype Settlement =
    | MethodResolved(id: string, result: Option<Value>)
    | MethodRejected(id: string, message: string)
    | PingResolved(id: string)
    | PingRejected(id: string, message: string)
    | SubResolved(id: string)
    | SubRejected(id: string, message: string)

  /** One text frame the client writes. */
  datatype ClientFrame =
    | RawText(packet: ClientPacket)               // one encoded packet
    | SockJsText(packets: seq<ClientPacket>)      // a JSON array of encoded packets

  /**
   * The socket.  `hasWriter` says whether a writer is attached; the three
   * tables hold the ids awaiting a reply (pings in the order they were sent),
   * and `readySubs` the subscriptions the server declared ready.
   */
  datatype ClientSocket = ClientSocket(
    encapsulation: Encapsulation,
    hasWriter: bool,
    pendingMethods: set<string>,
    pendingPings: OM.DistinctSeq<string>,
    pendingSubs: set<string>,
    readySubs: set<string>,
    sent: seq<ClientFrame>,
    settled: seq<Settlement>)

  const NoWriter: string := "not connected, no writer"
  const DuplicatedMethod: string := "BUG: duplicated methodId"
  const DuplicatedPing: string := "BUG: duplicated pingId"
  const DuplicatedSub: string := "BUG: duplicated subId"
  const RefusedWithoutError: string := "Server refused the subscription without providing an error"

  /** `JSON.stringify` of a string (escaping of quotes and control characters is not modelled). */
  function JsonQuote(s: string): string {
    "\"" + s + "\""
  }

  /** The error for a subscription reply naming an id with no subscription. */
  function UnknownSub(msg: string, id: string): string {
    "DDP error: received \"" + msg + "\" for unknown subscription " + JsonQuote(id)
  }

  /** The error for a `result` naming an id with no outstanding call. */
  function UnknownMethod(id: string): string {
    "DDP error: received \"result\" for unknown method call " + JsonQuote(id)
  }

  function NewClientSocket(encapsulation: Encapsulation): (r: ClientSocket)
    ensures r.encapsulation == encapsulation && !r.hasWriter
    ensures r.pendingMethods == {} && r.pendingPings == [] && r.pendingSubs == {} && r.readySubs == {}
    ensures r.sent == [] && r.settled == []
  {
    ClientSocket(encapsulation, false, {}, [], {}, {}, [], [])
  }

  /** Assigning the socket's `writer`. */
  function AttachWriter(c: ClientSocket): (r: ClientSocket)
    ensures r.hasWriter && r == c.(hasWriter := true)
  {
    c.(hasWriter := true)
  }

  /**
   * `sendMessage`: throws without a writer; raw mode writes the packet alone,
   * SockJS mode wraps it in a one-element array.
   */
  function SendMessage(c: ClientSocket, pkt: ClientPacket): (r: Outcome<ClientSocket>)
    ensures r.Throw? <==> !c.hasWriter
    ensures r.Throw? ==> r.message == NoWriter
    ensures r.Ok? ==> r.value == c.(sent := r.value.sent) && |r.value.sent| == |c.sent| + 1
    ensures r.Ok? ==> r.value.sent[..|c.sent|] == c.sent
    ensures r.Ok? && c.encapsulation == Raw ==> r.value.sent[|c.sent|] == RawText(pkt)
    ensures r.Ok? && c.encapsulation == SockJs ==> r.value.sent[|c.sent|] == SockJsText([pkt])
  {
    if !c.hasWriter then Throw(NoWriter)
    else
      var frame := match c.encapsulation
        case Raw => RawText(pkt)
        case SockJs => SockJsText([pkt]);
      Ok(c.(sent := c.sent + [frame]))
  }

  /** The packets of the frames written, in order. */
  function SentPackets(frames: seq<ClientFrame>): seq<ClientPacket>
    decreases |frames|
  {
    if frames == [] then []
    else
      var here := match frames[0]
        case RawText(p) => [p]
        case SockJsText(ps) => ps;
      here + SentPackets(frames[1..])
  }

  lemma {:induction false} SentPacketsAppend(a: seq<ClientFrame>, b: seq<ClientFrame>)
    ensures SentPackets(a + b) == SentPackets(a) + SentPackets(b)
    decreases |a|
  {
    if a == [] {
      assert a + b == b;
    } else {
      assert (a + b)[0] == a[0];
      assert (a + b)[1..] == a[1..] + b;
      SentPacketsAppend(a[1..], b);
    }
  }

  /** Whatever the framing, a sent message adds exactly its packet to the packets written. */
  lemma SendMessageCarriesPacket(c: ClientSocket, pkt: ClientPacket)
    requires c.hasWriter
    ensures SentPackets(SendMessage(c, pkt).value.sent) == SentPackets(c.sent) + [pkt]
  {
    var r := SendMessage(c, pkt).value;
    assert r.sent == c.sent + [r.sent[|c.sent|]];
    SentPacketsAppend(c.sent, [r.sent[|c.sent|]]);
  }

  /**
   * `callMethod`: an id already outstanding throws; otherwise the id is
   * registered before the `method` packet is written, and a failed write
   * rejects the call while its id stays registered.
   */
  function CallMethod(c: ClientSocket, id: string, name: string, params: seq<Value>): (r: Outcome<ClientSocket>)
    ensures id in c.pendingMethods ==> r == Throw(DuplicatedMethod)
    ensures id !in c.pendingMethods ==> r.Ok? && r.value.pendingMethods == c.pendingMethods + {id}
    ensures id !in c.pendingMethods && c.hasWriter ==>
      r.value == SendMessage(c, Method(id, name, params, None)).value.(pendingMethods := c.pendingMethods + {id})
    ensures id !in c.pendingMethods && !c.hasWriter ==>
      r.value == c.(pendingMethods := c.pendingMethods + {id}, settled := c.settled + [MethodRejected(id, NoWriter)])
  {
    if id in c.pendingMethods then Throw(DuplicatedMethod)
    else
      var c1 := c.(pendingMethods := c.pendingMethods + {id});
      match SendMessage(c1, Method(id, name, params, None))
      case Ok(c2) => Ok(c2)
      case Throw(m) => Ok(c1.(settled := c1.settled + [MethodRejected(id, m)]))
  }

  /** `ping`: like a method call, for the ping table. */
  function Ping(c: ClientSocket, id: string): (r: Outcome<ClientSocket>)
    ensures id in c.pendingPings ==> r == Throw(DuplicatedPing)
    ensures id !in c.pendingPings ==> r.Ok? && r.value.pendingPings == c.pendingPings + [id]
    ensures id !in c.pendingPings && c.hasWriter ==>
      r.value == SendMessage(c, ClientPing(Some(id))).value.(pendingPings := c.pendingPings + [id])
    ensures id !in c.pendingPings && !c.hasWriter ==>
      r.value == c.(pendingPings := c.pendingPings + [id], settled := c.settled + [PingRejected(id, NoWriter)])
  {
    if id in c.pendingPings then Throw(DuplicatedPing)
    else
      var c1 := c.(pendingPings := OM.Push(c.pendingPings, id));
      match SendMessage(c1, ClientPing(Some(id)))
      case Ok(c2) => Ok(c2)
      case Throw(m) => Ok(c1.(settled := c1.settled + [PingRejected(id, m)]))
  }

  /** `subscribe`: an id pending or ready throws; otherwise like a method call, for the subscription table. */
  function Subscribe(c: ClientSocket, id: string, name: string, params: seq<Value>): (r: Outcome<ClientSocket>)
    ensures id in c.pendingSubs || id in c.readySubs ==> r == Throw(DuplicatedSub)
    ensures id !in c.pendingSubs && id !in c.readySubs ==>
      && r.Ok? && r.value.pendingSubs == c.pendingSubs + {id} && r.value.readySubs == c.readySubs
    ensures id !in c.pendingSubs && id !in c.readySubs && c.hasWriter ==>
      r.value == SendMessage(c, Sub(id, name, params)).value.(pendingSubs := c.pendingSubs + {id})
    ensures id !in c.pendingSubs && id !in c.readySubs && !c.hasWriter ==>
      r.value == c.(pendingSubs := c.pendingSubs + {id}, settled := c.settled + [SubRejected(id, NoWriter)])
  {
    if id in c.pendingSubs || id in c.readySubs then Throw(DuplicatedSub)
    else
      var c1 := c.(pendingSubs := c.pendingSubs + {id});
      match SendMessage(c1, Sub(id, name, params))
      case Ok(c2) => Ok(c2)
      case Throw(m) => Ok(c1.(settled := c1.settled + [SubRejected(id, m)]))
  }

  /**
   * The socket after handling one packet, the packet handed on to the
   * connection (if any), and what the handling threw (if anything).
   */
  datatype Handled = Handled(socket: ClientSocket, forwarded: Option<ServerPacket>, thrown: Option<string>)

  /** A resolution for each id, in order. */
  function PingsResolved(ids: seq<string>): (r: seq<Settlement>)
    ensures |r| == |ids|
    ensures forall i :: 0 <= i < |ids| ==> r[i] == PingResolved(ids[i])
  {
    seq(|ids|, i requires 0 <= i < |ids| => PingResolved(ids[i]))
  }

  /** A `pong`: without an id it answers every pending ping, with one it answers that ping only. */
  function HandlePong(c: ClientSocket, id: Option<string>): (r: ClientSocket)
    ensures id.None? || id.value == "" ==>
      r == c.(pendingPings := [], settled := c.settled + PingsResolved(c.pendingPings))
    ensures id.Some? && id.value != "" && id.value !in c.pendingPings ==> r == c
    ensures id.Some? && id.value != "" && id.value in c.pendingPings ==>
      && r.pendingPings == OM.Without(c.pendingPings, id.value)
      && r == c.(pendingPings := r.pendingPings, settled := c.settled + [PingResolved(id.value)])
  {
    if id.None? || id.value == "" then
      c.(pendingPings := [], settled := c.settled + PingsResolved(c.pendingPings))
    else if id.value !in c.pendingPings then c
    else c.(pendingPings := OM.Without(c.pendingPings, id.value), settled := c.settled + [PingResolved(id.value)])
  }

  /** The socket after a `ready`'s ids were taken in, and what that threw, if anything. */
  datatype Marked = Marked(socket: ClientSocket, thrown: Option<string>)

  /**
   * A `ready`'s ids in order: each moves from pending to ready and its
   * subscription resolves; the first id not pending throws, keeping the
   * moves made before it.
   */
  function MarkReady(c: ClientSocket, subs: seq<string>): (r: Marked)
    ensures r.socket == c.(pendingSubs := r.socket.pendingSubs, readySubs := r.socket.readySubs, settled := r.socket.settled)
    ensures subs != [] && subs[0] !in c.pendingSubs ==> r == Marked(c, Some(UnknownSub("ready", subs[0])))
    ensures subs == [] ==> r == Marked(c, None)
    decreases |subs|
  {
    if subs == [] then Marked(c, None)
    else if subs[0] !in c.pendingSubs then Marked(c, Some(UnknownSub("ready", subs[0])))
    else
      var c1 := c.(pendingSubs := c.pendingSubs - {subs[0]}, readySubs := c.readySubs + {subs[0]},
                   settled := c.settled + [SubResolved(subs[0])]);
      MarkReady(c1, subs[1..])
  }

  /** The subscriptions resolved by a `ready` for `subs`, in order. */
  function SubsResolved(subs: seq<string>): (r: seq<Settlement>)
    ensures |r| == |subs|
    ensures forall i :: 0 <= i < |subs| ==> r[i] == SubResolved(subs[i])
  {
    seq(|subs|, i requires 0 <= i < |subs| => SubResolved(subs[i]))
  }

  /** The ids of a sequence. */
  function Elements(subs: seq<string>): (r: set<string>)
    ensures forall x :: x in r <==> x in subs
  {
    set x | x in subs
  }

  lemma ReadyCons(subs: seq<string>)
    requires subs != []
    ensures Elements(subs) == {subs[0]} + Elements(subs[1..])
    ensures SubsResolved(subs) == [SubResolved(subs[0])] + SubsResolved(subs[1..])
  {
    assert subs == [subs[0]] + subs[1..];
  }

  lemma SetShift(p: set<string>, q: set<string>, x: string, e: set<string>)
    ensures (p - {x}) - e == p - ({x} + e)
    ensures (q + {x}) + e == q + ({x} + e)
  {
  }

  /** When every id is pending and listed once, a `ready` moves them all and resolves them in order. */
  lemma {:induction false} MarkReadyAllPending(c: ClientSocket, subs: seq<string>)
    requires forall i :: 0 <= i < |subs| ==> subs[i] in c.pendingSubs
    requires OM.Distinct(subs)
    ensures var r := MarkReady(c, subs);
      && r.thrown.None?
      && r.socket.pendingSubs == c.pendingSubs - Elements(subs)
      && r.socket.readySubs == c.readySubs + Elements(subs)
      && r.socket.settled == c.settled + SubsResolved(subs)
    decreases |subs|, 1
  {
    if subs == [] {
      assert c.settled + [] == c.settled;
      assert c.pendingSubs - {} == c.pendingSubs && c.readySubs + {} == c.readySubs;
    } else {
      MarkReadyAllPendingCons(c, subs);
    }
  }

  lemma {:induction false} MarkReadyAllPendingCons(c: ClientSocket, subs: seq<string>)
    requires subs != []
    requires forall i :: 0 <= i < |subs| ==> subs[i] in c.pendingSubs
    requires OM.Distinct(subs)
    ensures var r := MarkReady(c, subs);
      && r.thrown.None?
      && r.socket.pendingSubs == c.pendingSubs - Elements(subs)
      && r.socket.readySubs == c.readySubs + Elements(subs)
      && r.socket.settled == c.settled + SubsResolved(subs)
    decreases |subs|, 0
  {
    var c1 := c.(pendingSubs := c.pendingSubs - {subs[0]}, readySubs := c.readySubs + {subs[0]},
                 settled := c.settled + [SubResolved(subs[0])]);
    var t := subs[1..];
    assert MarkReady(c, subs) == MarkReady(c1, t);
    forall i | 0 <= i < |t| ensures t[i] in c1.pendingSubs {
      assert t[i] == subs[i + 1] && t[i] != subs[0];
    }
    assert OM.Distinct(t);
    MarkReadyAllPending(c1, t);
    ReadyCons(subs);
    SetShift(c.pendingSubs, c.readySubs, subs[0], Elements(t));
    OM.ConcatAssoc(c.settled, [SubResolved(subs[0])], SubsResolved(t));
  }

  /** `handlePacket`.  Packets nobody handles are logged and dropped. */
  function HandlePacket(c: ClientSocket, pkt: ServerPacket): (r: Handled)
    ensures pkt.ServerError? ==> r == Handled(c, None, Some("DDP error: " + pkt.reason))
    ensures pkt.Doc? ==> r == Handled(c, Some(pkt), None)
    ensures pkt.Updated? || pkt.Connected? || pkt.Failed? ==> r == Handled(c, None, None)
    ensures pkt.ServerPong? ==> r == Handled(HandlePong(c, pkt.pingId), None, None)
    ensures pkt.ServerPing? && SendMessage(c, ClientPong(pkt.pingId)).Ok? ==>
      r == Handled(SendMessage(c, ClientPong(pkt.pingId)).value, None, None)
    ensures pkt.ServerPing? && SendMessage(c, ClientPong(pkt.pingId)).Throw? ==>
      r == Handled(c, None, Some(SendMessage(c, ClientPong(pkt.pingId)).message))
    ensures pkt.Result? && pkt.id !in c.pendingMethods ==> r == Handled(c, None, Some(UnknownMethod(pkt.id)))
    ensures pkt.Result? && pkt.id in c.pendingMethods ==>
      && r.forwarded.None? && r.thrown.None?
      && r.socket == c.(pendingMethods := c.pendingMethods - {pkt.id}, settled := r.socket.settled)
      && r.socket.settled == c.settled + [if pkt.outcome.Success? then MethodResolved(pkt.id, pkt.outcome.result)
           else MethodRejected(pkt.id, pkt.outcome.error.message.GetOr(""))]
    ensures pkt.Nosub? && pkt.id in c.pendingSubs ==>
      && r.forwarded == Some(pkt) && r.thrown.None?
      && r.socket == c.(pendingSubs := c.pendingSubs - {pkt.id}, settled := r.socket.settled)
      && r.socket.settled == c.settled + [SubRejected(pkt.id,
           if pkt.error.Some? && pkt.error.value.message.Some? then pkt.error.value.message.value else RefusedWithoutError)]
    ensures pkt.Nosub? && pkt.id !in c.pendingSubs && pkt.id in c.readySubs ==>
      r == Handled(c.(readySubs := c.readySubs - {pkt.id}), Some(pkt), None)
    ensures pkt.Nosub? && pkt.id !in c.pendingSubs && pkt.id !in c.readySubs ==>
      r == Handled(c, None, Some(UnknownSub("nosub", pkt.id)))
    ensures pkt.Ready? ==>
      && r.socket == MarkReady(c, pkt.subs).socket && r.thrown == MarkReady(c, pkt.subs).thrown
      && r.forwarded == (if r.thrown.None? then Some(pkt) else None)
  {
    match pkt
    case ServerPing(id) =>
      (match SendMessage(c, ClientPong(id))
       case Ok(c1) => Handled(c1, None, None)
       case Throw(m) => Handled(c, None, Some(m)))
    case ServerPong(id) => Handled(HandlePong(c, id), None, None)
    case ServerError(reason, _) => Handled(c, None, Some("DDP error: " + reason))
    case Updated(_) => Handled(c, None, None)
    case Ready(subs) =>
      var m := MarkReady(c, subs);
      if m.thrown.Some? then Handled(m.socket, None, m.thrown) else Handled(m.socket, Some(pkt), None)
    case Nosub(id, error) =>
      if id in c.pendingSubs then
        var message := if error.Some? && error.value.message.Some? then error.value.message.value else RefusedWithoutError;
        Handled(c.(pendingSubs := c.pendingSubs - {id}, settled := c.settled + [SubRejected(id, message)]), Some(pkt), None)
      else if id in c.readySubs then Handled(c.(readySubs := c.readySubs - {id}), Some(pkt), None)
      else Handled(c, None, Some(UnknownSub("nosub", id)))
    case Result(id, outcome) =>
      if id !in c.pendingMethods then Handled(c, None, Some(UnknownMethod(id)))
      else
        var s := match outcome
          case Success(v) => MethodResolved(id, v)
          case Failure(e) => MethodRejected(id, e.message.GetOr(""));
        Handled(c.(pendingMethods := c.pendingMethods - {id}, settled := c.settled + [s]), None, None)
    case Doc(_, _) => Handled(c, Some(pkt), None)
    case Connected(_) => Handled(c, None, None)
    case Failed(_) => Handled(c, None, None)
  }

  // ---------------------------------------------------------------------------
  // Inbound frames

  /**
   * A decoded message: a packet the client knows, or JSON that is not one
   * (any value but an object whose `msg` the client handles).  Such a value
   * goes to the default case, which only writes to the console, except that
   * reading `msg` off `null` throws.
   */
  datatype Received = Known(packet: ServerPacket) | Foreign(value: Value)

  /** What reading `msg` off `null` throws. */
  const NullMessage: string := "Cannot read properties of null (reading 'msg')"

  /** `handlePacket` on a decoded message. */
  function HandleReceived(c: ClientSocket, m: Received): (r: Handled)
    ensures m.Known? ==> r == HandlePacket(c, m.packet)
    ensures m.Foreign? ==> r.socket == c && r.forwarded.None?
    ensures m.Foreign? ==> (r.thrown.Some? <==> m.value == Null)
    ensures m.Foreign? && r.thrown.Some? ==> r.thrown.value == NullMessage
  {
    match m
    case Known(pkt) => HandlePacket(c, pkt)
    case Foreign(v) => Handled(c, None, if v == Null then Some(NullMessage) else None)
  }

  /**
   * A text chunk read from the socket, classified by its first character:
   * `o` (`OpenChunk`, exactly `o` when `rest` is empty), `a` followed by a
   * JSON array of encoded messages, `c` followed by a JSON `[code, reason]`,
   * an encoded packet (which starts with `{`), other JSON, or text that
   * does not parse as JSON.
   */
  datatype Chunk =
    | OpenChunk(rest: string)
    | ArrayChunk(entries: seq<Received>)
    | CloseChunk(code: nat, reason: string)
    | PacketChunk(packet: ServerPacket)
    | ForeignChunk(value: Value)
    | OtherChunk(text: string)

  /** Whether a raw-mode chunk parses as JSON. */
  predicate Decodes(chunk: Chunk) {
    chunk.PacketChunk? || chunk.ForeignChunk?
  }

  /** The message a decodable chunk carries. */
  function ReceivedOf(chunk: Chunk): (r: Received)
    requires Decodes(chunk)
    ensures chunk.PacketChunk? ==> r == Known(chunk.packet)
    ensures chunk.ForeignChunk? ==> r == Foreign(chunk.value)
  {
    if chunk.PacketChunk? then Known(chunk.packet) else Foreign(chunk.value)
  }

  /**
   * Why a read loop ended early: a thrown message; a SockJS chunk of no
   * known kind (`got unimpl packet ` followed by the chunk as JSON); or, in
   * raw mode, a chunk that does not parse.
   */
  datatype LoopFailure = LoopThrew(message: string) | Unrecognised(chunk: Chunk) | Undecodable(chunk: Chunk)

  /**
   * Where a read loop stopped: the socket, the packets handed on, the
   * handling errors it logged and carried on past, and why it ended early.
   */
  datatype LoopEnd = LoopEnd(socket: ClientSocket, forwarded: seq<ServerPacket>, logged: seq<string>, failure: Option<LoopFailure>)

  function OptSeq<T>(o: Option<T>): (r: seq<T>)
    ensures o.None? ==> r == []
    ensures o.Some? ==> r == [o.value]
  {
    if o.Some? then [o.value] else []
  }

  /**
   * The raw-mode loop: each chunk is parsed and handled; a failed handling
   * is logged and the loop goes on, and only a chunk that does not parse
   * ends it.
   */
  function RawLoop(c: ClientSocket, chunks: seq<Chunk>): (r: LoopEnd)
    ensures r.failure.None? || r.failure.value.Undecodable?
    ensures |r.logged| <= |chunks|
    ensures (forall i :: 0 <= i < |chunks| ==> Decodes(chunks[i])) <==> r.failure.None?
    decreases |chunks|
  {
    if chunks == [] then LoopEnd(c, [], [], None)
    else if !Decodes(chunks[0]) then LoopEnd(c, [], [], Some(Undecodable(chunks[0])))
    else
      var h := HandleReceived(c, ReceivedOf(chunks[0]));
      var rest := RawLoop(h.socket, chunks[1..]);
      assert (forall i :: 0 <= i < |chunks| ==> Decodes(chunks[i])) <==>
        (forall i :: 0 <= i < |chunks[1..]| ==> Decodes(chunks[1..][i])) by {
        forall i | 0 <= i < |chunks[1..]| ensures chunks[1..][i] == chunks[i + 1] { }
        if forall i :: 0 <= i < |chunks[1..]| ==> Decodes(chunks[1..][i]) {
          forall i | 0 <= i < |chunks| ensures Decodes(chunks[i]) {
            if i > 0 { assert chunks[i] == chunks[1..][i - 1]; }
          }
        }
      }
      LoopEnd(rest.socket, OptSeq(h.forwarded) + rest.forwarded, OptSeq(h.thrown) + rest.logged, rest.failure)
  }

  /** The messages of one SockJS array frame, in order; the first handling that throws ends the loop. */
  function HandleAll(c: ClientSocket, entries: seq<Received>): (r: LoopEnd)
    ensures r.logged == []
    ensures r.failure.None? || r.failure.value.LoopThrew?
    decreases |entries|
  {
    if entries == [] then LoopEnd(c, [], [], None)
    else
      var h := HandleReceived(c, entries[0]);
      if h.thrown.Some? then LoopEnd(h.socket, OptSeq(h.forwarded), [], Some(LoopThrew(h.thrown.value)))
      else
        var rest := HandleAll(h.socket, entries[1..]);
        LoopEnd(rest.socket, OptSeq(h.forwarded) + rest.forwarded, [], rest.failure)
  }

  /** The message of a SockJS close frame. */
  function ClosedByServer(code: nat, reason: string): string {
    "DDP connection closed by server: " + reason + " [" + DecimalString(code) + "]"
  }

  const SecondOpen: string := "got second open?"

  /** The SockJS-mode loop: only array frames are handled, and any other kind ends it. */
  function SockJsLoop(c: ClientSocket, chunks: seq<Chunk>): (r: LoopEnd)
    ensures r.logged == []
    ensures chunks != [] && chunks[0].OpenChunk? ==> r == LoopEnd(c, [], [], Some(LoopThrew(SecondOpen)))
    ensures chunks != [] && chunks[0].CloseChunk? ==>
      r == LoopEnd(c, [], [], Some(LoopThrew(ClosedByServer(chunks[0].code, chunks[0].reason))))
    ensures chunks != [] && (chunks[0].PacketChunk? || chunks[0].ForeignChunk? || chunks[0].OtherChunk?) ==>
      r == LoopEnd(c, [], [], Some(Unrecognised(chunks[0])))
    decreases |chunks|
  {
    if chunks == [] then LoopEnd(c, [], [], None)
    else match chunks[0]
      case OpenChunk(_) => LoopEnd(c, [], [], Some(LoopThrew(SecondOpen)))
      case CloseChunk(code, reason) => LoopEnd(c, [], [], Some(LoopThrew(ClosedByServer(code, reason))))
      case ArrayChunk(entries) =>
        var h := HandleAll(c, entries);
        if h.failure.Some? then h
        else
          var rest := SockJsLoop(h.socket, chunks[1..]);
          LoopEnd(rest.socket, h.forwarded + rest.forwarded, [], rest.failure)
      case _ => LoopEnd(c, [], [], Some(Unrecognised(chunks[0])))
  }

  /** `runInboundLoop`. */
  function RunInboundLoop(c: ClientSocket, chunks: seq<Chunk>): (r: LoopEnd)
    ensures c.encapsulation == Raw ==> r == RawLoop(c, chunks)
    ensures c.encapsulation == SockJs ==> r == SockJsLoop(c, chunks)
  {
    match c.encapsulation
    case Raw => RawLoop(c, chunks)
    case SockJs => SockJsLoop(c, chunks)
  }

  // ---------------------------------------------------------------------------
  // Properties

  /** A subscription is never both pending and ready. */
  ghost predicate SubsDisjoint(c: ClientSocket) {
    c.pendingSubs !! c.readySubs
  }

  lemma SubscribePreservesDisjoint(c: ClientSocket, id: string, name: string, params: seq<Value>)
    requires SubsDisjoint(c)
    ensures Subscribe(c, id, name, params).Ok? ==> SubsDisjoint(Subscribe(c, id, name, params).value)
  {
  }

  lemma {:induction false} MarkReadyPreservesDisjoint(c: ClientSocket, subs: seq<string>)
    requires SubsDisjoint(c)
    ensures SubsDisjoint(MarkReady(c, subs).socket)
    decreases |subs|
  {
    if subs != [] && subs[0] in c.pendingSubs {
      var c1 := c.(pendingSubs := c.pendingSubs - {subs[0]}, readySubs := c.readySubs + {subs[0]},
                   settled := c.settled + [SubResolved(subs[0])]);
      MarkReadyPreservesDisjoint(c1, subs[1..]);
    }
  }

  /** Every packet handled keeps pending and ready subscriptions apart. */
  lemma HandlePacketPreservesDisjoint(c: ClientSocket, pkt: ServerPacket)
    requires SubsDisjoint(c)
    ensures SubsDisjoint(HandlePacket(c, pkt).socket)
  {
    if pkt.Ready? {
      MarkReadyPreservesDisjoint(c, pkt.subs);
    }
  }

  /** A call answered by a success resolves with the result and leaves the table as it was. */
  lemma MethodResultResolves(c: ClientSocket, id: string, name: string, params: seq<Value>, v: Option<Value>)
    requires c.hasWriter && id !in c.pendingMethods
    ensures var c1 := CallMethod(c, id, name, params).value;
      var h := HandlePacket(c1, Result(id, Success(v)));
      && h.thrown.None? && h.forwarded.None?
      && h.socket.pendingMethods == c.pendingMethods
      && h.socket.settled == c.settled + [MethodResolved(id, v)]
      && SentPackets(h.socket.sent) == SentPackets(c.sent) + [Method(id, name, params, None)]
  {
    var c1 := CallMethod(c, id, name, params).value;
    SendMessageCarriesPacket(c, Method(id, name, params, None));
    assert c1.pendingMethods - {id} == c.pendingMethods;
  }

  /** A call answered by an error rejects with the error's message (empty when it has none). */
  lemma MethodErrorRejects(c: ClientSocket, id: string, name: string, params: seq<Value>, e: MeteorError)
    requires c.hasWriter && id !in c.pendingMethods
    ensures var c1 := CallMethod(c, id, name, params).value;
      var h := HandlePacket(c1, Result(id, Failure(e)));
      && h.thrown.None?
      && h.socket.pendingMethods == c.pendingMethods
      && h.socket.settled == c.settled + [MethodRejected(id, e.message.GetOr(""))]
  {
    var c1 := CallMethod(c, id, name, params).value;
    assert c1.pendingMethods - {id} == c.pendingMethods;
  }

  /** Without a writer a call is rejected at once, yet its id stays outstanding, so reusing it throws. */
  lemma RejectedCallStaysPending(c: ClientSocket, id: string, name: string, params: seq<Value>)
    requires !c.hasWriter && id !in c.pendingMethods
    ensures var c1 := CallMethod(c, id, name, params).value;
      && c1.settled == c.settled + [MethodRejected(id, NoWriter)]
      && id in c1.pendingMethods
      && CallMethod(c1, id, name, params) == Throw(DuplicatedMethod)
  {
  }

  /** A result for an id never called (or already answered) throws and changes nothing. */
  lemma ResultAnsweredOnce(c: ClientSocket, id: string, name: string, params: seq<Value>, v: Option<Value>, o: MethodOutcome)
    requires c.hasWriter && id !in c.pendingMethods
    ensures var c1 := CallMethod(c, id, name, params).value;
      var h := HandlePacket(c1, Result(id, Success(v)));
      HandlePacket(h.socket, Result(id, o)) == Handled(h.socket, None, Some(UnknownMethod(id)))
  {
  }

  /** A ping answered by a pong with its id resolves, and only it. */
  lemma PingPongResolves(c: ClientSocket, id: string)
    requires c.hasWriter && id !in c.pendingPings && id != ""
    ensures var c1 := Ping(c, id).value;
      var h := HandlePacket(c1, ServerPong(Some(id)));
      && h.thrown.None?
      && h.socket.pendingPings == c.pendingPings
      && h.socket.settled == c.settled + [PingResolved(id)]
  {
    WithoutPushed(c.pendingPings, id);
  }

  lemma {:induction false} WithoutPushed(s: seq<string>, x: string)
    requires x !in s
    ensures OM.Without(s + [x], x) == s
    decreases |s|
  {
    if s == [] {
      assert OM.Without([x], x) == OM.Without([x][1..], x);
    } else {
      assert (s + [x])[0] == s[0];
      assert (s + [x])[1..] == s[1..] + [x];
      WithoutPushed(s[1..], x);
    }
  }

  /** A pong without an id resolves every pending ping in the order they were sent. */
  lemma PongWithoutIdResolvesAll(c: ClientSocket)
    ensures var h := HandlePacket(c, ServerPong(None));
      && h.socket.pendingPings == []
      && |h.socket.settled| == |c.settled| + |c.pendingPings|
      && forall i :: 0 <= i < |c.pendingPings| ==> h.socket.settled[|c.settled| + i] == PingResolved(c.pendingPings[i])
  {
  }

  /** A subscription declared ready resolves, becomes ready, and the `ready` goes on to the connection. */
  lemma ReadyResolvesSub(c: ClientSocket, id: string, name: string, params: seq<Value>)
    requires c.hasWriter && id !in c.pendingSubs && id !in c.readySubs
    ensures var c1 := Subscribe(c, id, name, params).value;
      var h := HandlePacket(c1, Ready([id]));
      && h.thrown.None? && h.forwarded == Some(Ready([id]))
      && id in h.socket.readySubs && id !in h.socket.pendingSubs
      && h.socket.settled == c.settled + [SubResolved(id)]
  {
    var c1 := Subscribe(c, id, name, params).value;
    MarkReadyAllPending(c1, [id]);
    assert Elements([id]) == {id};
    assert SubsResolved([id]) == [SubResolved(id)];
  }

  /** After a `nosub`, a ready subscription is forgotten: a second `nosub` for it throws. */
  lemma NosubForgetsReadySub(c: ClientSocket, id: string, err: Option<MeteorError>)
    requires id !in c.pendingSubs && id in c.readySubs
    ensures var h := HandlePacket(c, Nosub(id, err));
      && h.forwarded == Some(Nosub(id, err)) && id !in h.socket.readySubs
      && HandlePacket(h.socket, Nosub(id, err)).thrown == Some(UnknownSub("nosub", id))
  {
  }

  /**
   * A `ready` listing a pending id and then an unknown one throws, yet the
   * first subscription has already become ready and resolved, and nothing
   * is handed on.
   */
  lemma ReadyKeepsEarlierMoves(c: ClientSocket, a: string, b: string)
    requires a in c.pendingSubs && b !in c.pendingSubs && a != b
    ensures var h := HandlePacket(c, Ready([a, b]));
      && h.thrown == Some(UnknownSub("ready", b))
      && h.forwarded.None?
      && a in h.socket.readySubs && a !in h.socket.pendingSubs
      && h.socket.settled == c.settled + [SubResolved(a)]
  {
    var c1 := c.(pendingSubs := c.pendingSubs - {a}, readySubs := c.readySubs + {a},
                 settled := c.settled + [SubResolved(a)]);
    assert [a, b][1..] == [b];
    assert MarkReady(c1, [b]) == Marked(c1, Some(UnknownSub("ready", b)));
  }

  /** The end of a loop that first handled one packet, yielding `h`, and then ran on to `rest`. */
  function Prepend(h: Handled, rest: LoopEnd): LoopEnd {
    LoopEnd(rest.socket, OptSeq(h.forwarded) + rest.forwarded, OptSeq(h.thrown) + rest.logged, rest.failure)
  }

  /** The end of a loop that ran to `first` without failing and then on to `second`. */
  function Join(first: LoopEnd, second: LoopEnd): LoopEnd {
    LoopEnd(second.socket, first.forwarded + second.forwarded, first.logged + second.logged, second.failure)
  }

  lemma PrependJoin(h: Handled, r1: LoopEnd, r2: LoopEnd)
    ensures Prepend(h, Join(r1, r2)) == Join(Prepend(h, r1), r2)
  {
    assert OptSeq(h.forwarded) + (r1.forwarded + r2.forwarded) == (OptSeq(h.forwarded) + r1.forwarded) + r2.forwarded;
    assert OptSeq(h.thrown) + (r1.logged + r2.logged) == (OptSeq(h.thrown) + r1.logged) + r2.logged;
  }

  lemma RawLoopUnfold(c: ClientSocket, chunks: seq<Chunk>)
    requires chunks != [] && Decodes(chunks[0])
    ensures var h := HandleReceived(c, ReceivedOf(chunks[0]));
      RawLoop(c, chunks) == Prepend(h, RawLoop(h.socket, chunks[1..]))
  {
  }

  /** A raw loop over chunks that parse visits them all, logging each failed handling in order. */
  lemma {:induction false} RawLoopAppend(c: ClientSocket, a: seq<Chunk>, b: seq<Chunk>)
    requires forall i :: 0 <= i < |a| ==> Decodes(a[i])
    ensures RawLoop(c, a + b) == Join(RawLoop(c, a), RawLoop(RawLoop(c, a).socket, b))
    decreases |a|
  {
    if a == [] {
      assert a + b == b;
    } else {
      assert (a + b)[0] == a[0];
      assert (a + b)[1..] == a[1..] + b;
      assert forall i :: 0 <= i < |a[1..]| ==> Decodes(a[1..][i]) by {
        forall i | 0 <= i < |a[1..]| ensures Decodes(a[1..][i]) {
          assert a[1..][i] == a[i + 1];
        }
      }
      var h := HandleReceived(c, ReceivedOf(a[0]));
      RawLoopUnfold(c, a);
      RawLoopUnfold(c, a + b);
      RawLoopAppend(h.socket, a[1..], b);
      var r1 := RawLoop(h.socket, a[1..]);
      PrependJoin(h, r1, RawLoop(r1.socket, b));
    }
  }

  /**
   * In raw mode JSON that is no known packet is passed over: a message with
   * an unknown `msg` changes nothing, and `null` is logged with the error
   * reading its `msg` throws; either way the loop reads on.
   */
  lemma ForeignChunkPassedOver(c: ClientSocket, v: Value, rest: seq<Chunk>)
    ensures var r := RawLoop(c, [ForeignChunk(v)] + rest);
      var after := RawLoop(c, rest);
      && r.socket == after.socket && r.forwarded == after.forwarded && r.failure == after.failure
      && r.logged == (if v == Null then [NullMessage] else []) + after.logged
  {
    var chunks := [ForeignChunk(v)] + rest;
    assert chunks[0] == ForeignChunk(v) && chunks[1..] == rest;
    RawLoopUnfold(c, chunks);
  }

  /** One SockJS array frame handles its messages and nothing else. */
  lemma SockJsLoopOneArray(c: ClientSocket, entries: seq<Received>)
    ensures SockJsLoop(c, [ArrayChunk(entries)]) == HandleAll(c, entries)
  {
    var h := HandleAll(c, entries);
    assert [ArrayChunk(entries)][1..] == [];
    if h.failure.None? {
      assert h.forwarded + [] == h.forwarded;
    }
  }

  /** The messages of an array are handled in order: the first run, then, unless it threw, the rest. */
  lemma {:induction false} HandleAllAppend(c: ClientSocket, a: seq<Received>, b: seq<Received>)
    ensures var first := HandleAll(c, a);
      HandleAll(c, a + b) == if first.failure.Some? then first else Join(first, HandleAll(first.socket, b))
    decreases |a|
  {
    if a == [] {
      assert a + b == b;
      var r := HandleAll(c, b);
      assert [] + r.forwarded == r.forwarded;
    } else {
      assert (a + b)[0] == a[0];
      assert (a + b)[1..] == a[1..] + b;
      var h := HandleReceived(c, a[0]);
      if h.thrown.None? {
        HandleAllAppend(h.socket, a[1..], b);
        var r1 := HandleAll(h.socket, a[1..]);
        if r1.failure.None? {
          var r2 := HandleAll(r1.socket, b);
          assert OptSeq(h.forwarded) + (r1.forwarded + r2.forwarded) == (OptSeq(h.forwarded) + r1.forwarded) + r2.forwarded;
        }
      }
    }
  }

  /**
   * The SockJS loop reads chunks in order: over two runs of chunks it is the
   * loop over the first, then, unless that ended it, the loop over the rest.
   */
  lemma {:induction false} SockJsLoopAppend(c: ClientSocket, a: seq<Chunk>, b: seq<Chunk>)
    ensures var first := SockJsLoop(c, a);
      SockJsLoop(c, a + b) == if first.failure.Some? then first else Join(first, SockJsLoop(first.socket, b))
    decreases |a|
  {
    if a == [] {
      assert a + b == b;
      var r := SockJsLoop(c, b);
      assert [] + r.forwarded == r.forwarded;
    } else {
      assert (a + b)[0] == a[0];
      assert (a + b)[1..] == a[1..] + b;
      if a[0].ArrayChunk? {
        var h := HandleAll(c, a[0].entries);
        if h.failure.None? {
          SockJsLoopAppend(h.socket, a[1..], b);
          var r1 := SockJsLoop(h.socket, a[1..]);
          if r1.failure.None? {
            var r2 := SockJsLoop(r1.socket, b);
            assert h.forwarded + (r1.forwarded + r2.forwarded) == (h.forwarded + r1.forwarded) + r2.forwarded;
          }
        }
      }
    }
  }

  /**
   * Array frames whose messages never throw are all handled: the loop does
   * not end, and it hands on what each frame hands on, in order.
   */
  lemma SockJsArraysForwardAll(c: ClientSocket, e1: seq<Received>, e2: seq<Received>)
    requires HandleAll(c, e1).failure.None?
    requires HandleAll(HandleAll(c, e1).socket, e2).failure.None?
    ensures var r := SockJsLoop(c, [ArrayChunk(e1), ArrayChunk(e2)]);
      && r.failure.None?
      && r.forwarded == HandleAll(c, e1).forwarded + HandleAll(HandleAll(c, e1).socket, e2).forwarded
  {
    var chunks := [ArrayChunk(e1), ArrayChunk(e2)];
    assert chunks == [ArrayChunk(e1)] + [ArrayChunk(e2)];
    SockJsLoopAppend(c, [ArrayChunk(e1)], [ArrayChunk(e2)]);
    SockJsLoopOneArray(c, e1);
    SockJsLoopOneArray(HandleAll(c, e1).socket, e2);
  }
}

=== FILE: connection.dfy ===
/**
 * The client connection (`DdpConnection`): it owns at most one socket, the
 * subscriptions the application asked for with their ready flags, and one
 * live store per collection name, created on first use.  Subscription
 * packets the socket hands on are routed here.  Ids are inputs.
 */
module Connections {
  import opened Wrappers
  import opened Values
  import opened Wire
  import OM = OrderedMaps
  import CS = ClientSockets
  import opened Handshakes
  import LC = LiveCollections

  datatype Status = Connected | Connecting | Failed | Waiting | Offline

  datatype ConnectionStatus = ConnectionStatus(connected: bool, status: Status, retryCount: nat)

  /** A subscription the application asked for, and whether the server last declared it ready. */
  datatype DesiredSub = DesiredSub(name: string, params: seq<Value>, ready: bool)

  datatype Connection = Connection(
    encapsulation: Encapsulation,
    collections: OM.OMap<string, LC.LiveCollection>,
    desiredSubs: OM.OMap<string, DesiredSub>,
    socket: Option<CS.ClientSocket>,
    status: ConnectionStatus)

  const NotConnected: string := "Not connected and no offline queue"
  const HaveSocket: string := "have socket already"
  const OrderingUnsupported: string := "TODO: DDP subscription ordering is not implemented"

  /** The status a connection starts with. */
  function InitialStatus(): ConnectionStatus {
    ConnectionStatus(false, Offline, 0)
  }

  /**
   * `#createSocket`: throws if a socket exists; otherwise the status becomes
   * `connecting` and a socket without a writer is installed.  The rest of
   * the setup happens later, in `SetupCreatedSocket`.
   */
  function CreateSocket(conn: Connection): (r: Outcome<Connection>)
    ensures conn.socket.Some? ==> r == Throw(HaveSocket)
    ensures conn.socket.None? ==>
      && r.Ok?
      && r.value.socket == Some(CS.NewClientSocket(conn.encapsulation))
      && r.value.status == conn.status.(connected := false, status := Connecting)
      && r.value.collections == conn.collections && r.value.desiredSubs == conn.desiredSubs
  {
    if conn.socket.Some? then Throw(HaveSocket)
    else Ok(conn.(socket := Some(CS.NewClientSocket(conn.encapsulation)),
                  status := conn.status.(connected := false, status := Connecting)))
  }

  /** The constructor: offline, unless `autoConnect` creates a socket at once. */
  function NewConnection(encapsulation: Encapsulation, autoConnect: bool): (r: Connection)
    ensures !autoConnect ==> r.status == InitialStatus() && r.socket.None?
    ensures autoConnect ==> r.status == ConnectionStatus(false, Connecting, 0) && r.socket.Some?
    ensures r.collections.keys == [] && r.desiredSubs.keys == []
  {
    var initial := Connection(encapsulation, OM.Empty(), OM.Empty(), None, InitialStatus());
    if autoConnect then CreateSocket(initial).value else initial
  }

  /** `status()`: a copy of the current status. */
  function CurrentStatus(conn: Connection): (r: ConnectionStatus)
    ensures r == conn.status
  {
    conn.status
  }

  datatype Grabbed = Grabbed(connection: Connection, collection: LC.LiveCollection)

  /** `grabCollection`: the store of that name, created empty on first use. */
  function GrabCollection(conn: Connection, name: string): (r: Grabbed)
    ensures name in r.connection.collections.entries
    ensures r.collection == r.connection.collections.entries[name]
    ensures name in conn.collections.entries ==> r.connection == conn && r.collection == conn.collections.entries[name]
    ensures name !in conn.collections.entries ==>
      && r.collection == LC.NewLiveCollection()
      && r.connection == conn.(collections := r.connection.collections)
      && r.connection.collections.keys == conn.collections.keys + [name]
    ensures forall n :: n != name ==> OM.Get(r.connection.collections, n) == OM.Get(conn.collections, n)
  {
    match OM.Get(conn.collections, name)
    case Some(coll) => Grabbed(conn, coll)
    case None =>
      var coll := LC.NewLiveCollection();
      Grabbed(conn.(collections := OM.Put(conn.collections, name, coll)), coll)
  }

  /** Grabbing by name always gives the same store, and a second grab changes nothing. */
  lemma GrabCollectionStable(conn: Connection, name: string)
    ensures var g := GrabCollection(conn, name);
      GrabCollection(g.connection, name) == g
  {
  }

  /** `callMethod`: throws without a socket; otherwise the socket's `callMethod`. */
  function CallMethod(conn: Connection, id: string, name: string, params: seq<Value>): (r: Outcome<Connection>)
    ensures conn.socket.None? ==> r == Throw(NotConnected)
    ensures conn.socket.Some? ==>
      match CS.CallMethod(conn.socket.value, id, name, params)
      case Ok(s) => r == Ok(conn.(socket := Some(s)))
      case Throw(m) => r == Throw(m)
  {
    if conn.socket.None? then Throw(NotConnected)
    else
      var s :- CS.CallMethod(conn.socket.value, id, name, params);
      Ok(conn.(socket := Some(s)))
  }

  /** `ping`: throws without a socket; otherwise the socket's `ping`. */
  function Ping(conn: Connection, id: string): (r: Outcome<Connection>)
    ensures conn.socket.None? ==> r == Throw(NotConnected)
    ensures conn.socket.Some? ==>
      match CS.Ping(conn.socket.value, id)
      case Ok(s) => r == Ok(conn.(socket := Some(s)))
      case Throw(m) => r == Throw(m)
  {
    if conn.socket.None? then Throw(NotConnected)
    else
      var s :- CS.Ping(conn.socket.value, id);
      Ok(conn.(socket := Some(s)))
  }

  /**
   * `subscribe`: throws without a socket, or when the socket refuses the id;
   * otherwise the subscription is recorded as desired and not yet ready.
   */
  function Subscribe(conn: Connection, id: string, name: string, params: seq<Value>): (r: Outcome<Connection>)
    ensures conn.socket.None? ==> r == Throw(NotConnected)
    ensures conn.socket.Some? && CS.Subscribe(conn.socket.value, id, name, params).Throw? ==> r == Throw(CS.DuplicatedSub)
    ensures r.Ok? <==> conn.socket.Some? && CS.Subscribe(conn.socket.value, id, name, params).Ok?
    ensures r.Ok? ==>
      && r.value.socket == Some(CS.Subscribe(conn.socket.value, id, name, params).value)
      && r.value.desiredSubs.entries == conn.desiredSubs.entries[id := DesiredSub(name, params, false)]
      && r.value.collections == conn.collections && r.value.status == conn.status
  {
    if conn.socket.None? then Throw(NotConnected)
    else
      var s :- CS.Subscribe(conn.socket.value, id, name, params);
      Ok(conn.(socket := Some(s), desiredSubs := OM.Put(conn.desiredSubs, id, DesiredSub(name, params, false))))
  }

  /**
   * The handle's `stop`: forgets the desired subscription and, only if it
   * was still desired, asks the socket (if any) to write `unsub`.  A write
   * that fails changes nothing more; its rejection is not observed.
   */
  function StopSub(conn: Connection, id: string): (r: Connection)
    ensures id !in r.desiredSubs.entries
    ensures r.desiredSubs == OM.Delete(conn.desiredSubs, id)
    ensures r.collections == conn.collections && r.status == conn.status
    ensures id !in conn.desiredSubs.entries ==> r == conn
    ensures id in conn.desiredSubs.entries && conn.socket.Some? && conn.socket.value.hasWriter ==>
      && r.socket.Some?
      && CS.SentPackets(r.socket.value.sent) == CS.SentPackets(conn.socket.value.sent) + [Unsub(id)]
    ensures conn.socket.None? || !conn.socket.value.hasWriter ==> r.socket == conn.socket
  {
    if id !in conn.desiredSubs.entries then conn
    else
      var forgotten := conn.(desiredSubs := OM.Delete(conn.desiredSubs, id));
      if conn.socket.None? then forgotten
      else
        match CS.SendMessage(conn.socket.value, Unsub(id))
        case Ok(s) =>
          CS.SendMessageCarriesPacket(conn.socket.value, Unsub(id));
          forgotten.(socket := Some(s))
        case Throw(_) => forgotten
  }

  /** `stop` writes `unsub` at most once: a second call changes nothing. */
  lemma StopSubIdempotent(conn: Connection, id: string)
    ensures StopSub(StopSub(conn, id), id) == StopSub(conn, id)
  {
  }

  /** Sets the ready flag of each listed id that is desired; other ids are ignored. */
  function MarkDesired(subs: OM.OMap<string, DesiredSub>, ids: seq<string>, ready: bool): (r: OM.OMap<string, DesiredSub>)
    ensures r.keys == subs.keys
    ensures forall x :: x in r.entries <==> x in subs.entries
    ensures forall x :: x in subs.entries ==>
      && r.entries[x].name == subs.entries[x].name
      && r.entries[x].params == subs.entries[x].params
      && r.entries[x].ready == (if x in ids then ready else subs.entries[x].ready)
    decreases |ids|
  {
    if ids == [] then subs
    else
      var x := ids[0];
      var next := if x in subs.entries then OM.Put(subs, x, subs.entries[x].(ready := ready)) else subs;
      assert forall y :: y in ids <==> y == x || y in ids[1..];
      MarkDesired(next, ids[1..], ready)
  }

  /** The outcome of routing one packet: the connection, and what the handling threw. */
  datatype Routed = Routed(connection: Connection, thrown: Option<string>)

  /** The store operation an unordered document packet asks for, with `fields` and `cleared` defaulting to none. */
  function ApplyChange(coll: LC.LiveCollection, change: DocumentChange): LC.Update
    requires !change.AddedBefore? && !change.MovedBefore?
  {
    match change
    case Added(id, fields) => LC.AddDocument(coll, id, fields.GetOr(map[]))
    case Changed(id, fields, cleared) => LC.ChangeDocument(coll, id, fields.GetOr(map[]), cleared.GetOr({}))
    case Removed(id) => LC.RemoveDocument(coll, id)
  }

  /**
   * Applies a document packet to the named collection's store, creating the
   * store first if need be; the store is kept as the operation left it,
   * even when the operation threw.
   */
  function InCollection(conn: Connection, name: string, change: DocumentChange): (r: Routed)
    requires !change.AddedBefore? && !change.MovedBefore?
    ensures var g := GrabCollection(conn, name);
      var u := ApplyChange(g.collection, change);
      && r.thrown == u.thrown
      && r.connection.collections.keys == g.connection.collections.keys
      && r.connection.collections.entries == g.connection.collections.entries[name := u.collection]
    ensures r.connection == conn.(collections := r.connection.collections)
    ensures name in r.connection.collections.entries
  {
    var g := GrabCollection(conn, name);
    var u := ApplyChange(g.collection, change);
    Routed(g.connection.(collections := OM.Put(g.connection.collections, name, u.collection)), u.thrown)
  }

  /**
   * `handleLivedataPacket`: document packets go to their collection's store
   * (created first, even when the operation then throws), with `fields`
   * defaulting to none and `cleared` to none; ordered document packets
   * throw; `ready` and `nosub` set the ready flags of desired
   * subscriptions; anything else is ignored.
   */
  function HandleLivedataPacket(conn: Connection, pkt: ServerPacket): (r: Routed)
    ensures r.connection.socket == conn.socket && r.connection.status == conn.status
    ensures !pkt.Doc? && !pkt.Ready? && !pkt.Nosub? ==> r == Routed(conn, None)
    ensures pkt.Ready? || pkt.Nosub? ==>
      && r.thrown.None?
      && r.connection.collections == conn.collections && r.connection.socket == conn.socket
      && r.connection.desiredSubs.keys == conn.desiredSubs.keys
    ensures pkt.Doc? && (pkt.change.AddedBefore? || pkt.change.MovedBefore?) ==>
      r == Routed(conn, Some(OrderingUnsupported))
    ensures pkt.Doc? && !pkt.change.AddedBefore? && !pkt.change.MovedBefore? ==>
      pkt.collection in r.connection.collections.entries
  {
    match pkt
    case Doc(name, change) =>
      if change.AddedBefore? || change.MovedBefore? then Routed(conn, Some(OrderingUnsupported))
      else InCollection(conn, name, change)
    case Ready(subs) => Routed(conn.(desiredSubs := MarkDesired(conn.desiredSubs, subs, true)), None)
    case Nosub(id, _) => Routed(conn.(desiredSubs := MarkDesired(conn.desiredSubs, [id], false)), None)
    case _ => Routed(conn, None)
  }

  /** `ready` raises the flag of every listed desired id and leaves the others as they were. */
  lemma ReadyRaisesListed(conn: Connection, subs: seq<string>)
    ensures var d := HandleLivedataPacket(conn, Ready(subs)).connection.desiredSubs;
      forall x :: x in conn.desiredSubs.entries ==>
        && x in d.entries
        && d.entries[x].ready == (x in subs || conn.desiredSubs.entries[x].ready)
  {
  }

  /** `nosub` lowers the flag of a desired id and leaves every other one as it was. */
  lemma NosubLowers(conn: Connection, id: string, err: Option<MeteorError>)
    ensures var d := HandleLivedataPacket(conn, Nosub(id, err)).connection.desiredSubs;
      && (forall x :: x in d.entries <==> x in conn.desiredSubs.entries)
      && (id in d.entries ==> !d.entries[id].ready)
      && (forall x :: x in d.entries && x != id ==> d.entries[x] == conn.desiredSubs.entries[x])
  {
    assert forall y :: y in [id] <==> y == id;
  }

  /** An `added` packet does to its collection's store what `addDocument` does, creating it empty if new. */
  lemma AddedRoutedToStore(conn: Connection, name: string, id: string, fields: Option<Fields>)
    ensures var before := GrabCollection(conn, name).collection;
      var r := HandleLivedataPacket(conn, Doc(name, Added(id, fields)));
      var u := LC.AddDocument(before, id, fields.GetOr(map[]));
      && r.thrown == u.thrown && r.connection.collections.entries[name] == u.collection
      && (id == "" || id in before.fields.entries ==> r.connection.collections.entries[name] == before)
  {
  }

  /** The packets of a read loop routed in order; what each handling throws is collected. */
  datatype Delivered = Delivered(connection: Connection, rejections: seq<string>)

  function RouteAll(conn: Connection, pkts: seq<ServerPacket>): (r: Delivered)
    ensures |r.rejections| <= |pkts|
    ensures r.connection.socket == conn.socket && r.connection.status == conn.status
    decreases |pkts|
  {
    if pkts == [] then Delivered(conn, [])
    else
      var h := HandleLivedataPacket(conn, pkts[0]);
      var rest := RouteAll(h.connection, pkts[1..]);
      Delivered(rest.connection, (if h.thrown.Some? then [h.thrown.value] else []) + rest.rejections)
  }

  /**
   * The read loop of the current socket over the chunks that follow the
   * handshake; what the socket hands on is routed to the collections and
   * the subscription flags.
   */
  function Receive(conn: Connection, chunks: seq<CS.Chunk>): (r: Delivered)
    ensures conn.socket.None? ==> r == Delivered(conn, [])
    ensures conn.socket.Some? ==>
      var end := CS.RunInboundLoop(conn.socket.value, chunks);
      && r.connection.socket == Some(end.socket)
      && r == RouteAll(conn.(socket := Some(end.socket)), end.forwarded)
  {
    if conn.socket.None? then Delivered(conn, [])
    else
      var end := CS.RunInboundLoop(conn.socket.value, chunks);
      RouteAll(conn.(socket := Some(end.socket)), end.forwarded)
  }

  /**
   * The rest of `#createSocket`'s setup once the stream has opened: the
   * handshake runs on the installed socket, and only if it succeeds is a
   * writer attached and the status set to `connected`.
   */
  function SetupCreatedSocket(conn: Connection, chunks: seq<CS.Chunk>): (r: Connection)
    ensures conn.socket.None? ==> r == conn
    ensures r.collections == conn.collections && r.desiredSubs == conn.desiredSubs
  {
    if conn.socket.None? then conn
    else
      var h := RunHandshake(conn.socket.value, chunks);
      if h.error.Some? then conn
      else conn.(socket := Some(CS.AttachWriter(h.socket)),
                 status := conn.status.(connected := true, status := Status.Connected))
  }

  /**
   * `#createSocket` runs the handshake before it attaches the writer, so the
   * handshake's `connect` cannot be written: the setup always fails, and
   * the status stays `connecting` whatever the server sends.
   */
  lemma CreatedSocketNeverConnects(conn: Connection, chunks: seq<CS.Chunk>)
    requires conn.socket.None?
    ensures var created := CreateSocket(conn).value;
      && RunHandshake(created.socket.value, chunks).error == Some(SendFailed(CS.NoWriter))
      && SetupCreatedSocket(created, chunks) == created
      && created.status.status == Connecting && !created.status.connected
  {
  }

  /** Why `connectToStreams` failed. */
  datatype ConnectFailure = SocketExists | HandshakeFailed(error: HandshakeError)

  /** What `connectToStreams` left behind: the connection, the failure if any, and the chunks the handshake read. */
  datatype Attempt = Attempt(connection: Connection, failure: Option<ConnectFailure>, consumed: nat)

  /**
   * `connectToStreams`: throws if a socket exists; otherwise the status
   * becomes `connecting`, a socket with a writer is installed and the
   * handshake runs; on success the status becomes `connected`, and on
   * failure it stays `connecting` with the socket installed.
   */
  function ConnectToStreams(conn: Connection, chunks: seq<CS.Chunk>): (r: Attempt)
    ensures conn.socket.Some? ==> r == Attempt(conn, Some(SocketExists), 0)
    ensures conn.socket.None? ==>
      && r.connection.socket.Some?
      && r.connection.collections == conn.collections && r.connection.desiredSubs == conn.desiredSubs
      && (r.failure.None? <==>
            if conn.encapsulation == SockJs then SockJsAccepts(chunks) else RawAccepts(chunks))
      && (r.failure.None? ==> r.connection.status == conn.status.(connected := true, status := Status.Connected))
      && (r.failure.Some? ==> r.connection.status == conn.status.(connected := false, status := Connecting))
      && r.consumed <= |chunks|
  {
    if conn.socket.Some? then Attempt(conn, Some(SocketExists), 0)
    else
      var s := CS.AttachWriter(CS.NewClientSocket(conn.encapsulation));
      var connecting := conn.(socket := Some(s), status := conn.status.(connected := false, status := Connecting));
      var h := RunHandshake(s, chunks);
      HandshakeSucceedsExactly(s, chunks);
      var installed := connecting.(socket := Some(h.socket));
      if h.error.Some? then Attempt(installed, Some(HandshakeFailed(h.error.value)), h.consumed)
      else Attempt(installed.(status := installed.status.(connected := true, status := Status.Connected)), None, h.consumed)
  }

  /** A connected socket has written exactly one packet by the time the handshake is over: `connect`. */
  lemma ConnectToStreamsWritesConnect(conn: Connection, chunks: seq<CS.Chunk>)
    requires conn.socket.None?
    ensures var r := ConnectToStreams(conn, chunks);
      CS.SentPackets(r.connection.socket.value.sent) == [ConnectPacket()]
  {
    var s := CS.AttachWriter(CS.NewClientSocket(conn.encapsulation));
    ConnectWrittenFirst(s, chunks);
  }
}

=== FILE: dispatch.dfy ===
/**
 * A server session answering its client (`DdpSession.handleClientPacket`),
 * the registration of a freshly connected session with the handler registry
 * (`registerSocket`, `startDefaultSub`), and the inbound side of the socket:
 * each delivered packet is handled in turn, and what one handling throws
 * does not stop the next.
 */
module Dispatch {
  import opened Wrappers
  import opened Values
  import opened Wire
  import OM = OrderedMaps
  import opened ServerSessions
  import Registry
  import opened Subscriptions

  /**
   * What only grows while packets are handled: frames, fired signals,
   * issued handles, universal subscriptions and connection announcements;
   * the session's identity, framing and flags stay.
   */
  ghost predicate Extends(s: Session, s': Session) {
    && s'.id == s.id
    && s'.encapsulation == s.encapsulation
    && s'.isSending == s.isSending
    && s'.closed == s.closed
    && s.written <= s'.written
    && s.aborted <= s'.aborted
    && s.nextHandle <= s'.nextHandle
    && s.universalSubs <= s'.universalSubs
    && s.announcedTo <= s'.announcedTo
  }

  lemma EvolvesExtends(s: Session, s': Session)
    requires Evolves(s, s')
    ensures Extends(s, s')
  {
  }

  lemma ExtendsTransitive(a: Session, b: Session, c: Session)
    requires Extends(a, b) && Extends(b, c)
    ensures Extends(a, c)
  {
  }

  /**
   * `startDefaultSub`: a universal subscription (empty id) joins the
   * session's universal set and its handler runs with no parameters.  A
   * rejection of the handler's promise becomes the subscription's `error`;
   * a synchronous handler's failure is thrown before the `catch` is
   * attached, so `error` never runs and the failure rejects
   * `startDefaultSub`'s own promise instead.
   */
  function StartDefaultSub(s: Session, pub: Registry.DefaultPublication): (r: Effect)
    ensures var sub := SubRef(s.nextHandle, "");
      var s1 := s.(nextHandle := s.nextHandle + 1, universalSubs := s.universalSubs + [s.nextHandle]);
      var run := pub.handler([]);
      var e := PerformAll(s1, sub, run.calls);
      && Evolves(s1, r.session)
      && (!run.synchronous ==> r == RunPublication(s1, sub, run))
      && (run.synchronous ==>
            && r.session == e.session
            && r.thrown == (if e.thrown.Some? then e.thrown else run.rejection))
    ensures Extends(s, r.session)
    ensures r.session.universalSubs == s.universalSubs + [s.nextHandle]
    ensures r.session.nextHandle == s.nextHandle + 1
  {
    var c := NewSubscription(s, "");
    var s1 := c.session.(universalSubs := s.universalSubs + [c.sub.handle]);
    var run := pub.handler([]);
    if run.synchronous then
      var e := PerformAll(s1, c.sub, run.calls);
      Effect(e.session, if e.thrown.Some? then e.thrown else run.rejection)
    else RunPublication(s1, c.sub, run)
  }

  /**
   * A default handler that throws at once: thrown synchronously, it leaves
   * its universal subscription's signal unfired and rejects
   * `startDefaultSub`; rejected asynchronously, it reaches `error`, which
   * fires the signal, and nothing escapes.
   */
  lemma SynchronousDefaultFailureEscapes(s: Session, name: string, m: string)
    requires s.nextHandle !in s.aborted
    ensures var direct := StartDefaultSub(s, Registry.DefaultPublication(name, (p: seq<Value>) => Registry.PublicationRun([], Some(m), true)));
      && direct.thrown == Some(m)
      && s.nextHandle !in direct.session.aborted
      && direct.session.written == s.written
    ensures var deferred := StartDefaultSub(s, Registry.DefaultPublication(name, (p: seq<Value>) => Registry.PublicationRun([], Some(m), false)));
      && deferred.thrown.None?
      && s.nextHandle in deferred.session.aborted
  {
  }

  /** The default publications started in order; none of their failures reaches the caller, which does not await them. */
  function StartDefaultSubs(s: Session, pubs: seq<Registry.DefaultPublication>): (r: Session)
    ensures Extends(s, r)
    ensures r.nextHandle == s.nextHandle + |pubs|
    ensures |r.universalSubs| == |s.universalSubs| + |pubs|
    ensures r.announcedTo == s.announcedTo
    decreases |pubs|
  {
    if pubs == [] then s
    else
      var e := StartDefaultSub(s, pubs[0]);
      var r := StartDefaultSubs(e.session, pubs[1..]);
      ExtendsTransitive(s, e.session, r);
      r
  }

  /** The callbacks told of a session, in order, and what the last of them threw, if it did. */
  datatype Announced = Announced(told: seq<nat>, thrown: Option<string>)

  /** Hands the session to each callback in order; the first that throws ends the loop. */
  function AnnounceAll(reg: Registry.Interface, id: string, cbs: seq<nat>): (r: Announced)
    ensures r.told <= cbs
    ensures r.thrown.None? <==> forall i :: 0 <= i < |cbs| ==> Registry.Announce(reg, cbs[i], id).None?
    ensures r.thrown.None? ==> r.told == cbs
    ensures r.thrown.Some? ==>
      && |r.told| > 0
      && r.thrown == Registry.Announce(reg, r.told[|r.told| - 1], id)
      && forall i :: 0 <= i < |r.told| - 1 ==> Registry.Announce(reg, r.told[i], id).None?
    decreases |cbs|
  {
    if cbs == [] then Announced([], None)
    else
      var here := Registry.Announce(reg, cbs[0], id);
      if here.Some? then Announced([cbs[0]], here)
      else
        var rest := AnnounceAll(reg, id, cbs[1..]);
        assert forall i :: 0 < i < |cbs| ==> cbs[i] == cbs[1..][i - 1];
        Announced([cbs[0]] + rest.told, rest.thrown)
  }

  /**
   * `registerSocket`: the session is handed to every connection callback in
   * registration order, then each default publication is started.  A
   * callback that throws ends it: later callbacks are not told, no default
   * publication starts, and the error escapes.
   */
  function RegisterSocket(reg: Registry.Interface, s: Session): (r: Effect)
    ensures Extends(s, r.session)
    ensures var a := AnnounceAll(reg, s.id, reg.connectionCbs);
      && r.thrown == a.thrown
      && r.session.announcedTo == s.announcedTo + a.told
    ensures r.thrown.None? ==>
      && |r.session.universalSubs| == |s.universalSubs| + |reg.defaultPubs|
      && r.session.nextHandle == s.nextHandle + |reg.defaultPubs|
    ensures r.thrown.Some? ==> r.session == s.(announcedTo := r.session.announcedTo)
  {
    var a := AnnounceAll(reg, s.id, reg.connectionCbs);
    var s1 := s.(announcedTo := s.announcedTo + a.told);
    if a.thrown.Some? then Effect(s1, a.thrown)
    else Effect(StartDefaultSubs(s1, reg.defaultPubs), None)
  }

  /** The random seed a method sees: a non-empty seed, or none. */
  function MethodSeed(seed: Option<string>): (r: Option<string>)
    ensures r.Some? <==> seed.Some? && seed.value != ""
    ensures r.Some? ==> r == seed
  {
    if seed.Some? && seed.value != "" then seed else None
  }

  /**
   * The packets answering a method: a result and its `updated` on success
   * (an undefined result is absent on the wire), and on failure a lone
   * result whose error carries the thrown message as code and message.
   */
  function MethodReply(id: string, outcome: Outcome<Value>): (r: seq<ServerPacket>)
    ensures outcome.Ok? ==>
      && |r| == 2 && r[1] == Updated([id])
      && r[0] == Result(id, Success(if outcome.value == Undefined then None else Some(outcome.value)))
    ensures outcome.Throw? ==> |r| == 1 && r[0].Result? && r[0].id == id && r[0].outcome.Failure?
    ensures outcome.Throw? ==>
      && r[0].outcome.error.error == Some(StrCode(outcome.message))
      && r[0].outcome.error.message == Some(outcome.message)
      && r[0].outcome.error.reason.None? && r[0].outcome.error.isClientSafe.None?
  {
    match outcome
    case Ok(v) => [Result(id, Success(if v == Undefined then None else Some(v))), Updated([id])]
    case Throw(m) => [Result(id, Failure(MeteorError(None, Some(StrCode(m)), None, Some(m), None, None)))]
  }

  /** What an unexpected client message throws. */
  function UnexpectedPacket(pkt: ClientPacket): string {
    "TODO: client sent unexpected packet " + ClientMsg(pkt)
  }

  /**
   * `handleClientPacket`.  `thrown` is the error the handling settles with;
   * a method whose reply cannot be sent settles without one.
   */
  function HandleClientPacket(reg: Registry.Interface, s: Session, pkt: ClientPacket): (r: Effect)
    ensures Extends(s, r.session)
    ensures pkt.Method? ==> r.thrown.None?
    ensures pkt.Unsub? && pkt.id !in s.namedSubs.entries ==> r == Effect(s, None)
    ensures pkt.ClientPong? ==> r == Effect(s, Some(UnexpectedPacket(pkt)))
  {
    match pkt
    case Connect(version, _) =>
      if version != "1" then
        (match Send(s, [Failed("1")])
         case Ok(s1) => Effect(s1, None)
         case Throw(m) => Effect(s, Some(m)))
      else
        (match Send(s, [Connected(s.id)])
         case Ok(s1) =>
           var e := RegisterSocket(reg, s1);
           ExtendsTransitive(s, s1, e.session);
           e
         case Throw(m) => Effect(s, Some(m)))
    case ClientPing(id) =>
      (match Send(s, [ServerPong(id)])
       case Ok(s1) => Effect(s1, None)
       case Throw(m) => Effect(s, Some(m)))
    case Sub(id, name, params) =>
      var c := NewSubscription(s, id);
      var s1 := c.session.(namedSubs := OM.Put(s.namedSubs, id, c.sub.handle));
      var e := match Registry.LookupPublication(reg, name)
        case Ok(handler) => RunPublication(s1, c.sub, handler(params))
        case Throw(m) => SubError(s1, c.sub, m);
      ExtendsTransitive(s, s1, e.session);
      e
    case Unsub(id) =>
      (match OM.Get(s.namedSubs, id)
       case Some(h) => SubStop(s, SubRef(h, id), None)
       case None => Effect(s, None))
    case Method(id, name, params, seed) =>
      var reply := MethodReply(id, Registry.CallMethod(reg, s.id, name, params, MethodSeed(seed)));
      (match Send(s, reply)
       case Ok(s1) => Effect(s1, None)
       case Throw(_) => Effect(s, None))
    case ClientPong(_) => Effect(s, Some(UnexpectedPacket(pkt)))
  }

  /** The session after a batch of inbound packets, and what each failing handling threw, in order. */
  datatype Delivery = Delivery(session: Session, failures: seq<string>)

  /**
   * The socket's `message` event: a raw frame carries one packet, a SockJS
   * frame an array of them; each is handled in order and failures are
   * collected rather than stopping the rest.
   */
  function Deliver(reg: Registry.Interface, s: Session, pkts: seq<ClientPacket>): (r: Delivery)
    ensures Extends(s, r.session)
    ensures |r.failures| <= |pkts|
    decreases |pkts|
  {
    if pkts == [] then Delivery(s, [])
    else
      var e := HandleClientPacket(reg, s, pkts[0]);
      var rest := Deliver(reg, e.session, pkts[1..]);
      ExtendsTransitive(s, e.session, rest.session);
      Delivery(rest.session, (if e.thrown.Some? then [e.thrown.value] else []) + rest.failures)
  }

  // ---------------------------------------------------------------------------
  // Properties

  lemma {:induction false} PacketsOfPrefix(a: seq<Frame>, b: seq<Frame>)
    requires a <= b
    ensures PacketsOf(a) <= PacketsOf(b)
  {
    assert b == a + b[|a|..];
    PacketsOfAppend(a, b[|a|..]);
  }

  /** A delivery of several batches is the delivery of their concatenation. */
  lemma {:induction false} DeliverAppend(reg: Registry.Interface, s: Session, a: seq<ClientPacket>, b: seq<ClientPacket>)
    ensures var d1 := Deliver(reg, s, a);
      var d2 := Deliver(reg, d1.session, b);
      Deliver(reg, s, a + b) == Delivery(d2.session, d1.failures + d2.failures)
    decreases |a|
  {
    if a == [] {
      assert a + b == b;
    } else {
      assert (a + b)[0] == a[0];
      assert (a + b)[1..] == a[1..] + b;
      var e := HandleClientPacket(reg, s, a[0]);
      var head := if e.thrown.Some? then [e.thrown.value] else [];
      var rest := Deliver(reg, e.session, a[1..] + b);
      assert Deliver(reg, s, a + b) == Delivery(rest.session, head + rest.failures);
      DeliverAppend(reg, e.session, a[1..], b);
      var d1 := Deliver(reg, e.session, a[1..]);
      assert Deliver(reg, s, a) == Delivery(d1.session, head + d1.failures);
      var d2 := Deliver(reg, d1.session, b);
      assert rest == Delivery(d2.session, d1.failures + d2.failures);
      OM.ConcatAssoc(head, d1.failures, d2.failures);
    }
  }

  /** A refused version is answered by `failed` naming version 1, and nothing is registered. */
  lemma ConnectRefused(reg: Registry.Interface, s: Session, version: string, support: seq<string>)
    requires version != "1" && !s.closed
    ensures var r := HandleClientPacket(reg, s, Connect(version, support));
      && r.thrown.None?
      && PacketsOf(r.session.written) == PacketsOf(s.written) + [Failed("1")]
      && r.session == s.(written := r.session.written)
  {
  }

  /**
   * Version 1 is answered by `connected` with the session id, and only then
   * are the connection callbacks told and the default publications started;
   * the handling throws exactly when a callback does.
   */
  lemma ConnectAccepted(reg: Registry.Interface, s: Session, support: seq<string>)
    requires !s.closed
    ensures var r := HandleClientPacket(reg, s, Connect("1", support));
      var a := AnnounceAll(reg, s.id, reg.connectionCbs);
      && r.thrown == a.thrown
      && PacketsOf(s.written) + [Connected(s.id)] <= PacketsOf(r.session.written)
      && r.session.announcedTo == s.announcedTo + a.told
      && (r.thrown.None? ==>
            && r.session.announcedTo == s.announcedTo + reg.connectionCbs
            && |r.session.universalSubs| == |s.universalSubs| + |reg.defaultPubs|)
  {
    var s1 := Send(s, [Connected(s.id)]).value;
    PacketsOfPrefix(s1.written, RegisterSocket(reg, s1).session.written);
  }

  /**
   * A connection callback that throws ends the `connect` handling with its
   * error after `connected` went out: the callbacks after it are not told
   * and no default publication starts.
   */
  lemma ThrowingCallbackStopsRegistration(reg: Registry.Interface, s: Session, support: seq<string>, m: string)
    requires !s.closed
    requires reg.connectionCbs != [] && Registry.Announce(reg, reg.connectionCbs[0], s.id) == Some(m)
    ensures var r := HandleClientPacket(reg, s, Connect("1", support));
      && r.thrown == Some(m)
      && PacketsOf(r.session.written) == PacketsOf(s.written) + [Connected(s.id)]
      && r.session.announcedTo == s.announcedTo + [reg.connectionCbs[0]]
      && r.session.universalSubs == s.universalSubs
      && r.session.nextHandle == s.nextHandle
  {
  }

  /** A ping is answered by a pong with the same (possibly absent) id, and nothing else changes. */
  lemma PingEchoed(reg: Registry.Interface, s: Session, id: Option<string>)
    ensures var r := HandleClientPacket(reg, s, ClientPing(id));
      && (!s.closed ==>
            && r.thrown.None? && r.session == s.(written := r.session.written)
            && PacketsOf(r.session.written) == PacketsOf(s.written) + [ServerPong(id)])
      && (s.closed ==> r == Effect(s, Some(s.abortReason)))
  {
  }

  /** A method that returns is answered by its result and then `updated` for its id. */
  lemma MethodSucceeded(reg: Registry.Interface, s: Session, id: string, name: string, params: seq<Value>, seed: Option<string>, v: Value)
    requires !s.closed
    requires Registry.CallMethod(reg, s.id, name, params, MethodSeed(seed)) == Ok(v)
    ensures var r := HandleClientPacket(reg, s, Method(id, name, params, seed));
      && r.thrown.None?
      && PacketsOf(r.session.written) == PacketsOf(s.written) +
           [Result(id, Success(if v == Undefined then None else Some(v))), Updated([id])]
  {
  }

  /**
   * A method that throws, or is not registered, is answered by one result
   * carrying the error and no `updated`.
   */
  lemma MethodFailed(reg: Registry.Interface, s: Session, id: string, name: string, params: seq<Value>, seed: Option<string>)
    requires !s.closed
    requires Registry.CallMethod(reg, s.id, name, params, MethodSeed(seed)).Throw?
    ensures var m := Registry.CallMethod(reg, s.id, name, params, MethodSeed(seed)).message;
      var r := HandleClientPacket(reg, s, Method(id, name, params, seed));
      && r.thrown.None?
      && PacketsOf(r.session.written) == PacketsOf(s.written) +
           [Result(id, Failure(MeteorError(None, Some(StrCode(m)), None, Some(m), None, None)))]
      && (name !in reg.methods ==> m == Registry.UnimplementedMethod(name))
  {
  }

  /** A method answered on a closed session leaves the session as it was, and the handling does not fail. */
  lemma MethodOnClosedSession(reg: Registry.Interface, s: Session, id: string, name: string, params: seq<Value>, seed: Option<string>)
    requires s.closed
    ensures HandleClientPacket(reg, s, Method(id, name, params, seed)) == Effect(s, None)
  {
  }

  /** `unsub` for an id with no subscription changes nothing. */
  lemma UnsubUnknownIgnored(reg: Registry.Interface, s: Session, id: string)
    requires id !in s.namedSubs.entries
    ensures HandleClientPacket(reg, s, Unsub(id)) == Effect(s, None)
  {
  }

  /**
   * A subscription to an unknown publication is registered, then fails:
   * it is unregistered again, its signal fires and `nosub` carries the
   * `unimplemented sub` error.
   */
  lemma SubToUnknownPublication(reg: Registry.Interface, s: Session, id: string, name: string, params: seq<Value>)
    requires name !in reg.publications && id != "" && !s.closed && s.nextHandle !in s.aborted
    ensures var r := HandleClientPacket(reg, s, Sub(id, name, params));
      && r.thrown.None?
      && id !in r.session.namedSubs.entries
      && s.nextHandle in r.session.aborted
      && var pkts := PacketsOf(r.session.written);
         |pkts| > 0 && pkts[|pkts| - 1] == Nosub(id, Some(ServerErrorFor(Registry.UnimplementedSub(name))))
  {
    var c := NewSubscription(s, id);
    var s1 := c.session.(namedSubs := OM.Put(s.namedSubs, id, c.sub.handle));
    assert Registry.LookupPublication(reg, name) == Throw(Registry.UnimplementedSub(name));
    assert HandleClientPacket(reg, s, Sub(id, name, params)) == SubError(s1, c.sub, Registry.UnimplementedSub(name));
    assert Named(c.sub) && c.sub.handle !in s1.aborted && id in s1.namedSubs.entries && !s1.closed;
    ErrorSendsNosub(s1, c.sub, Registry.UnimplementedSub(name));
  }

  /** A publication runs with its subscription already registered under the requested id. */
  lemma SubRegisteredBeforeRun(reg: Registry.Interface, s: Session, id: string, name: string, params: seq<Value>)
    requires name in reg.publications
    ensures var sub := SubRef(s.nextHandle, id);
      var s1 := s.(nextHandle := s.nextHandle + 1, namedSubs := OM.Put(s.namedSubs, id, s.nextHandle));
      && id in s1.namedSubs.entries && s1.namedSubs.entries[id] == sub.handle
      && HandleClientPacket(reg, s, Sub(id, name, params)) == RunPublication(s1, sub, reg.publications[name](params))
  {
  }

  /**
   * Once the session closes, every named subscription it had is silenced:
   * whatever it is asked to do, including stop, changes nothing.
   */
  lemma ClosedSessionSilencesSubs(s: Session, cause: CloseCause, id: string, call: Registry.SubCall)
    requires !s.closed && id != "" && id in s.namedSubs.entries
    ensures var c := Close(s, cause);
      Perform(c, SubRef(s.namedSubs.entries[id], id), call) == Effect(c, None)
  {
    var c := Close(s, cause);
    var sub := SubRef(s.namedSubs.entries[id], id);
    assert sub.handle in NamedHandles(s);
    if call.CallStop? {
      assert sub.subId !in c.namedSubs.entries;
    } else {
      StoppedIgnoresEverything(c, sub, call);
    }
  }

  /**
   * After the socket closes or errors, `ping` and `connect`, whose handling
   * sends a packet, fail with the reason the session was aborted for.
   */
  lemma ClosedSessionRefuses(reg: Registry.Interface, s: Session, cause: CloseCause)
    requires !s.closed
    ensures var c := Close(s, cause);
      && HandleClientPacket(reg, c, ClientPing(None)).thrown == Some(AbortReason(cause))
      && HandleClientPacket(reg, c, Connect("1", [])).thrown == Some(AbortReason(cause))
      && HandleClientPacket(reg, c, Connect("0", [])).thrown == Some(AbortReason(cause))
  {
  }

  /** A client `pong` is not expected by the server: its handling fails and changes nothing. */
  lemma PongUnexpected(reg: Registry.Interface, s: Session, id: Option<string>)
    ensures HandleClientPacket(reg, s, ClientPong(id)) == Effect(s, Some("TODO: client sent unexpected packet pong"))
  {
    assert ClientMsg(ClientPong(id)) == "pong";
    assert "TODO: client sent unexpected packet " + "pong" == "TODO: client sent unexpected packet pong";
  }
}

=== FILE: documents.dfy ===
/**
 * The documents a client-side query hands out (`makeReturnDoc`): a copy of
 * the stored fields shaped by the `fields` option, and carrying `_id`.
 */
module Documents {
  import opened Wrappers
  import opened Values

  /** Find options: the `fields` specifier, field name to `true`/`1`/`false`/`0`/anything. */
  datatype FindOpts = FindOpts(fields: Option<map<string, Value>>)

  /** A specifier entry that includes its field. */
  predicate Includes(v: Value) {
    v == Bool(true) || v == Num(1)
  }

  /**
   * Whether `name` is a member of `Object.prototype`, which `in` finds on
   * every plain object whether or not it has it as an own key.
   */
  predicate Inherited(name: string) {
    name in {
      "constructor", "hasOwnProperty", "isPrototypeOf", "propertyIsEnumerable", "toLocaleString",
      "toString", "valueOf", "__proto__", "__defineGetter__", "__defineSetter__",
      "__lookupGetter__", "__lookupSetter__"}
  }

  /** The fields of `doc` whose names are not inherited by every plain object. */
  function OwnFields(doc: Fields): (r: Fields)
    ensures forall k :: k in r <==> k in doc && !Inherited(k)
    ensures forall k :: k in r ==> r[k] == doc[k]
  {
    map k | k in doc && !Inherited(k) :: doc[k]
  }

  /** `name in spec` on a specifier object: its own names, and the inherited ones. */
  predicate InSpec(name: string, spec: map<string, Value>) {
    name in spec || Inherited(name)
  }

  /** A specifier is in inclusion mode as soon as one entry includes its field. */
  predicate InclusionMode(spec: map<string, Value>) {
    exists k :: k in spec && Includes(spec[k])
  }

  /**
   * `makeReturnDoc`.  In inclusion mode the result holds exactly the
   * included names that are `_id` or present in the original; otherwise it
   * holds the original's fields the specifier does not name, plus `_id`
   * unless the specifier names `_id`.  The specifier is a plain object, so
   * in the second case it also "names" every member of `Object.prototype`,
   * and a field called, say, `constructor` is left out.  `_id` is always
   * the given id, and every other value is the original's.
   */
  function MakeReturnDoc(id: string, original: Fields, opts: FindOpts): (r: Fields)
    ensures var spec := opts.fields.GetOr(map[]);
      InclusionMode(spec) ==>
        forall k :: k in r <==> k in spec && Includes(spec[k]) && (k == "_id" || k in original)
    ensures var spec := opts.fields.GetOr(map[]);
      !InclusionMode(spec) ==>
        forall k :: k in r <==> (k in original && !InSpec(k, spec)) || (k == "_id" && "_id" !in spec)
    ensures "_id" in r ==> r["_id"] == Str(id)
    ensures forall k :: k in r && k != "_id" ==> k in original && r[k] == original[k]
  {
    var spec := opts.fields.GetOr(map[]);
    if InclusionMode(spec) then
      map k | k in spec && Includes(spec[k]) && (k == "_id" || k in original) ::
        if k == "_id" then Str(id) else original[k]
    else
      var others := map k | k in original && !InSpec(k, spec) :: original[k];
      if "_id" in spec then others else others["_id" := Str(id)]
  }

  /**
   * With no specifier a query hands out every field but those named after
   * members of `Object.prototype`, plus `_id`.
   */
  lemma NoSpecKeepsOwnFields(id: string, original: Fields)
    ensures MakeReturnDoc(id, original, FindOpts(None)) == OwnFields(original)["_id" := Str(id)]
    ensures MakeReturnDoc(id, original, FindOpts(Some(map[]))) == OwnFields(original)["_id" := Str(id)]
  {
    assert !InclusionMode(map[]);
    assert !Inherited("_id");
  }

  /** Shaping a document stored without its `_id` and putting the id back gives the document shaped. */
  lemma OwnFieldsRestoreId(doc: Fields, id: string)
    requires "_id" in doc && doc["_id"] == Str(id)
    ensures OwnFields(doc - {"_id"})["_id" := Str(id)] == OwnFields(doc)
  {
    assert !Inherited("_id");
  }

  /** A stored field called `constructor` never reaches a query without a specifier. */
  lemma ConstructorFieldDropped(id: string, v: Value)
    ensures MakeReturnDoc(id, map["constructor" := v], FindOpts(None)) == map["_id" := Str(id)]
  {
    NoSpecKeepsOwnFields(id, map["constructor" := v]);
    assert Inherited("constructor");
    assert OwnFields(map["constructor" := v]) == map[];
  }

  /** In inclusion mode nothing outside the included names appears, and `_id` only when included. */
  lemma InclusionKeepsOnlyIncluded(id: string, original: Fields, spec: map<string, Value>)
    requires InclusionMode(spec)
    ensures var r := MakeReturnDoc(id, original, FindOpts(Some(spec)));
      && (forall k :: k in r ==> k in spec && Includes(spec[k]))
      && ("_id" in r <==> "_id" in spec && Includes(spec["_id"]))
      && (forall k :: k in spec && Includes(spec[k]) && k != "_id" && k !in original ==> k !in r)
  {
  }

  /** Shaping is idempotent: shaping a handed-out document again with the same options changes nothing. */
  lemma MakeReturnDocIdempotent(id: string, original: Fields, opts: FindOpts)
    ensures var r := MakeReturnDoc(id, original, opts);
      MakeReturnDoc(id, r, opts) == r
  {
    var r := MakeReturnDoc(id, original, opts);
    var r2 := MakeReturnDoc(id, r, opts);
    assert forall k :: k in r2 <==> k in r;
    assert forall k :: k in r2 ==> r2[k] == r[k];
  }

  /** The `_id` a callback gets, and the remaining fields, as `({_id, ...fields})` splits a document. */
  function SplitId(doc: Fields): (r: (Value, Fields))
    ensures r.0 == (if "_id" in doc then doc["_id"] else Undefined)
    ensures r.1.Keys == doc.Keys - {"_id"}
    ensures forall k :: k in r.1 ==> r.1[k] == doc[k]
  {
    (if "_id" in doc then doc["_id"] else Undefined, doc - {"_id"})
  }

  /** Splitting a handed-out document recovers the id and the shaped fields, without `_id`. */
  lemma SplitReturnDoc(id: string, original: Fields)
    ensures SplitId(MakeReturnDoc(id, original, FindOpts(None))) == (Str(id), OwnFields(original - {"_id"}))
  {
    NoSpecKeepsOwnFields(id, original);
    assert OwnFields(original)["_id" := Str(id)] - {"_id"} == OwnFields(original - {"_id"});
  }
}

=== FILE: facades.dfy ===
/**
 * The `Collection` and `Cursor` facades: they complete a partial backing
 * implementation, delegating to what it provides, falling back to its
 * iterator where one exists, and throwing "not implemented" otherwise.
 * Only the synchronous paths are modelled.  A backing implementation is
 * described by which members it has and what each gives.
 */
module Facades {
  import opened Wrappers
  import opened Values
  import opened Documents
  import opened LiveCollections

  function CallbackUnsupported(): string { "callback functions are not implemented by this DDP library" }

  function IteratorMissing(): string { "Method [Symbol.iterator] not implemented." }

  datatype Mutation = InsertDoc | UpdateDocs | UpsertDocs | RemoveDocs

  function MutationName(m: Mutation): string {
    match m
    case InsertDoc => "insert"
    case UpdateDocs => "update"
    case UpsertDocs => "upsert"
    case RemoveDocs => "remove"
  }

  function MutationMissing(m: Mutation): string { "Method '" + MutationName(m) + "' not implemented." }

  /**
   * `insert`/`update`/`upsert`/`remove`: a callback argument throws, a
   * backing member is delegated to (given here as what it gives), and a
   * missing one throws.
   */
  function Mutate<T>(m: Mutation, hasCallback: bool, backing: Option<Outcome<T>>): (r: Outcome<T>)
    ensures hasCallback ==> r == Throw(CallbackUnsupported())
    ensures !hasCallback && backing.None? ==> r == Throw(MutationMissing(m))
    ensures r.Ok? <==> !hasCallback && backing.Some? && backing.value.Ok?
    ensures r.Ok? ==> r == backing.value
  {
    if hasCallback then Throw(CallbackUnsupported())
    else if backing.Some? then backing.value
    else Throw(MutationMissing(m))
  }

  /**
   * A backing cursor: the members it has and what each gives.  `items`
   * is what iterating it yields; `forEach` is the visits a backing
   * `forEach` makes; `hasMap` says whether it has `map`.
   */
  datatype CursorBacking = CursorBacking(
    count: Option<nat>,
    fetch: Option<seq<Fields>>,
    forEach: Option<seq<(Fields, nat)>>,
    hasMap: bool,
    observe: bool,
    observeChanges: bool,
    items: Option<seq<Fields>>)

  function Missing(member: string): string { "Method " + member + " not implemented." }

  /** The backing's members agree with its iterator wherever both exist. */
  predicate Consistent(b: CursorBacking) {
    && (b.count.Some? && b.items.Some? ==> b.count.value == |b.items.value|)
    && (b.fetch.Some? && b.items.Some? ==> b.fetch.value == b.items.value)
    && (b.count.Some? && b.fetch.Some? ==> b.count.value == |b.fetch.value|)
  }

  /** `Cursor.fetch`: the backing's, else everything the iterator yields, else a throw. */
  function Fetch(b: CursorBacking): (r: Outcome<seq<Fields>>)
    ensures r.Throw? <==> b.fetch.None? && b.items.None?
    ensures r.Throw? ==> r.message == Missing("fetch")
    ensures Consistent(b) && b.items.Some? ==> r == Ok(b.items.value)
  {
    if b.fetch.Some? then Ok(b.fetch.value)
    else if b.items.Some? then Ok(b.items.value)
    else Throw(Missing("fetch"))
  }

  /**
   * `Cursor.count`: the backing's, else a count of what the iterator
   * yields (the loop only counts), else a throw.
   */
  function Count(b: CursorBacking): (r: Outcome<nat>)
    ensures r.Throw? <==> b.count.None? && b.items.None?
    ensures r.Throw? ==> r.message == Missing("count")
    ensures b.count.Some? ==> r == Ok(b.count.value)
    ensures b.count.None? && b.items.Some? ==> r == Ok(|b.items.value|)
    ensures Consistent(b) && r.Ok? && Fetch(b).Ok? ==> r.value == |Fetch(b).value|
  {
    if b.count.Some? then Ok(b.count.value)
    else if b.items.Some? then Ok(|b.items.value|)
    else Throw(Missing("count"))
  }

  /** What a `forEach` call did: the (document, index) pairs visited, and what it threw. */
  datatype ForEachRun = ForEachRun(visited: seq<(Fields, nat)>, thrown: Option<string>)

  /**
   * `Cursor.forEach`: the backing's, else the iterator fallback, which
   * visits every item with its index and then throws "not implemented"
   * all the same.
   */
  function ForEach(b: CursorBacking): (r: ForEachRun)
    ensures b.forEach.Some? ==> r.visited == b.forEach.value && r.thrown.None?
    ensures b.forEach.None? ==> r.thrown == Some(Missing("forEach"))
    ensures b.forEach.None? && b.items.Some? ==>
      && |r.visited| == |b.items.value|
      && forall i :: 0 <= i < |r.visited| ==> r.visited[i] == (b.items.value[i], i)
    ensures b.forEach.None? && b.items.None? ==> r.visited == []
  {
    if b.forEach.Some? then ForEachRun(b.forEach.value, None)
    else
      var items := b.items.GetOr([]);
      ForEachRun(seq(|items|, i requires 0 <= i < |items| => (items[i], i)), Some(Missing("forEach")))
  }

  /** Without a backing `forEach`, a visit to every item never spares the caller the throw. */
  lemma ForEachFallbackVisitsThenThrows(items: seq<Fields>)
    ensures var r := ForEach(CursorBacking(None, None, None, false, false, false, Some(items)));
      |r.visited| == |items| && r.thrown.Some?
  {
  }

  /**
   * `Cursor.map`: the backing's result (given), else the callback's results
   * over the iterator in order, with indices 0..n-1, else a throw.
   */
  method Map<M>(b: CursorBacking, delegated: seq<M>, f: (Fields, nat) -> M) returns (r: Outcome<seq<M>>)
    ensures b.hasMap ==> r == Ok(delegated)
    ensures !b.hasMap && b.items.None? ==> r == Throw(Missing("map"))
    ensures !b.hasMap && b.items.Some? ==>
      && r.Ok? && |r.value| == |b.items.value|
      && forall i :: 0 <= i < |r.value| ==> r.value[i] == f(b.items.value[i], i)
  {
    if b.hasMap {
      return Ok(delegated);
    }
    if b.items.None? {
      return Throw(Missing("map"));
    }
    var items := b.items.value;
    var resp: seq<M> := [];
    var idx := 0;
    while idx < |items|
      invariant 0 <= idx <= |items|
      invariant |resp| == idx
      invariant forall i :: 0 <= i < idx ==> resp[i] == f(items[i], i)
    {
      resp := resp + [f(items[idx], idx)];
      idx := idx + 1;
    }
    return Ok(resp);
  }

  /** `Collection.findOne`: the backing's (given), else the first item iterated from `find`, else none. */
  function FindOneVia(backing: Option<Option<Fields>>, cursor: CursorBacking): (r: Outcome<Option<Fields>>)
    ensures backing.Some? ==> r == Ok(backing.value)
    ensures backing.None? && cursor.items.None? ==> r == Throw(IteratorMissing())
    ensures backing.None? && cursor.items.Some? ==>
      && r.Ok?
      && (r.value.None? <==> cursor.items.value == [])
      && (r.value.Some? ==> r.value.value == cursor.items.value[0])
  {
    if backing.Some? then Ok(backing.value)
    else if cursor.items.None? then Throw(IteratorMissing())
    else if cursor.items.value == [] then Ok(None)
    else Ok(Some(cursor.items.value[0]))
  }

  /** An `observeChanges` callback for `added` or `changed`: given the id and the fields, what it throws. */
  type FieldsHandler = (Value, Fields) -> Option<string>

  /** An `observeChanges` callback for `removed`: given the id, what it throws. */
  type IdHandler = Value -> Option<string>

  /** The change callbacks the application supplied. */
  datatype ChangesObserver = ChangesObserver(added: Option<FieldsHandler>, changed: Option<FieldsHandler>,
                                             removed: Option<IdHandler>)

  /**
   * `observeCbsToChanges`: the document callbacks built from change
   * callbacks exist exactly where those do; each splits `_id` out of the
   * document it receives, hands the change callback the pieces, and throws
   * what that throws.
   */
  function ObserveCbsToChanges(cbs: ChangesObserver): (r: Observer)
    ensures r.added.Some? <==> cbs.added.Some?
    ensures r.changed.Some? <==> cbs.changed.Some?
    ensures r.removed.Some? <==> cbs.removed.Some?
    ensures cbs.added.Some? ==> forall doc :: r.added.value(doc) == cbs.added.value(SplitId(doc).0, SplitId(doc).1)
    ensures cbs.changed.Some? ==> forall doc :: r.changed.value(doc) == cbs.changed.value(SplitId(doc).0, SplitId(doc).1)
    ensures cbs.removed.Some? ==> forall doc :: r.removed.value(doc) == cbs.removed.value(SplitId(doc).0)
  {
    Observer(
      match cbs.added
      case Some(f) => Some((doc: Fields) => f(SplitId(doc).0, SplitId(doc).1))
      case None => None,
      match cbs.changed
      case Some(f) => Some((doc: Fields) => f(SplitId(doc).0, SplitId(doc).1))
      case None => None,
      match cbs.removed
      case Some(f) => Some((doc: Fields) => f(SplitId(doc).0))
      case None => None)
  }

  /** Which backing member an `observeChanges` call reaches. */
  datatype ObserveRoute = ChangesDelegated | ThroughObserve(cbs: Observer)

  /** `Cursor.observeChanges`: the backing's, else `observe` with converted callbacks, else a throw. */
  function ObserveChanges(b: CursorBacking, cbs: ChangesObserver): (r: Outcome<ObserveRoute>)
    ensures b.observeChanges ==> r == Ok(ChangesDelegated)
    ensures !b.observeChanges && b.observe ==>
      && r.Ok? && r.value.ThroughObserve?
      && r.value.cbs == ObserveCbsToChanges(cbs)
    ensures !b.observeChanges && !b.observe ==> r == Throw(Missing("observeChanges"))
  {
    if b.observeChanges then Ok(ChangesDelegated)
    else if b.observe then Ok(ThroughObserve(ObserveCbsToChanges(cbs)))
    else Throw(Missing("observeChanges"))
  }

  /** `Cursor.observe`: the backing's, else a throw. */
  function Observe(b: CursorBacking): (r: Outcome<()>)
    ensures r.Ok? <==> b.observe
    ensures r.Throw? ==> r.message == Missing("observe")
  {
    if b.observe then Ok(()) else Throw(Missing("observe"))
  }

  /** A cursor over the live store, as `LiveCursor` provides: `count`, `fetch`, `observe` and iteration. */
  function LiveBacking(c: LiveCollection, selector: Selector, opts: FindOpts): (r: CursorBacking)
    ensures Consistent(r)
    ensures r.items == Some(Find(c, selector, opts))
  {
    var found := Find(c, selector, opts);
    CursorBacking(Some(|found|), Some(found), None, false, true, false, Some(found))
  }

  /** Over the live store, `findOne` gives the same document whether the backing's is used or the fallback. */
  lemma FindOneFallbackAgrees(c: LiveCollection, selector: Selector, opts: FindOpts)
    ensures FindOneVia(None, LiveBacking(c, selector, opts))
         == FindOneVia(Some(LiveCollections.FindOne(c, selector, opts)), LiveBacking(c, selector, opts))
  {
  }

  /**
   * With no field specifier, `observeChanges` through `observe` hands the
   * change callbacks the stored id and the stored fields without `_id` (nor
   * those named after members of `Object.prototype`), and
   * the store sees whatever they throw.
   */
  lemma ObserveChangesSplitsStoredDocument(cbs: ChangesObserver, q: LiveQuery, id: string, fields: Fields, removal: bool)
    requires q.opts == FindOpts(None) && q.cbs == ObserveCbsToChanges(cbs)
    ensures Answer(q, id, fields, removal)
         == if removal then (if cbs.removed.Some? then cbs.removed.value(Str(id)) else None)
            else (if cbs.added.Some? then cbs.added.value(Str(id), OwnFields(fields - {"_id"})) else None)
  {
    SplitReturnDoc(id, fields);
  }
}

=== FILE: handshake.dfy ===
/**
 * The client's opening handshake (`runHandshake`): it writes `connect`
 * before reading anything, then checks the server's first chunks.  In
 * SockJS mode the first chunk must be the bare open frame `o` and the
 * second an array frame whose first message is `connected`; in raw mode the
 * single chunk must be an encoded packet that is `connected`.  The stream's
 * reader is released only when the handshake succeeds.
 */
module Handshakes {
  import opened Wrappers
  import opened Values
  import opened Wire
  import opened ClientSockets

  /**
   * Why a handshake failed: the `connect` could not be written; the SockJS
   * banner was not `o` (or the stream ended); the reply chunk did not start
   * as expected (or the stream ended); it started as expected but is not
   * JSON; the reply array was empty, so there was no message to decode; the
   * first message was `null`, so reading its `msg` threw; or the first
   * message was not `connected`.
   */
  datatype HandshakeError =
    | SendFailed(message: string)
    | UnexpectedBanner(chunk: Option<Chunk>)
    | UnexpectedResponse(chunk: Option<Chunk>)
    | Unparsable(unparsed: Chunk)
    | EmptyResponse
    | NullResponse
    | UnexpectedMessage(received: Received)

  /**
   * After a handshake: the socket (with `connect` written, if it could be),
   * how many chunks were read, whether the reader was released, and the
   * error, if any.
   */
  datatype Handshake = Handshake(socket: ClientSocket, consumed: nat, released: bool, error: Option<HandshakeError>)

  /** The packet the client opens with: version "1", supporting only "1". */
  function ConnectPacket(): ClientPacket {
    Connect("1", ["1"])
  }

  /** The chunk at `i`, or none once the stream has ended. */
  function ChunkAt(chunks: seq<Chunk>, i: nat): (r: Option<Chunk>)
    ensures r.Some? <==> i < |chunks|
    ensures r.Some? ==> r.value == chunks[i]
  {
    if i < |chunks| then Some(chunks[i]) else None
  }

  function Failed(c: ClientSocket, consumed: nat, e: HandshakeError): Handshake {
    Handshake(c, consumed, false, Some(e))
  }

  /** Whether a chunk's text starts with `first`. */
  predicate StartsWith(chunk: Chunk, first: char) {
    match chunk
    case OpenChunk(_) => first == 'o'
    case ArrayChunk(_) => first == 'a'
    case CloseChunk(_, _) => first == 'c'
    case PacketChunk(_) => first == '{'
    case ForeignChunk(v) => first == '{' && v.Obj?
    case OtherChunk(text) => text != [] && text[0] == first
  }

  /** The check on the first message of the reply. */
  function CheckConnected(c: ClientSocket, consumed: nat, m: Received): (r: Handshake)
    ensures r.error.None? <==> m.Known? && m.packet.Connected?
  {
    if m.Known? && m.packet.Connected? then Handshake(c, consumed, true, None)
    else if m == Foreign(Null) then Failed(c, consumed, NullResponse)
    else Failed(c, consumed, UnexpectedMessage(m))
  }

  /** `runHandshake` over the chunks the stream would deliver. */
  function RunHandshake(c: ClientSocket, chunks: seq<Chunk>): (r: Handshake)
    ensures r.released <==> r.error.None?
    ensures r.consumed <= |chunks|
    ensures !c.hasWriter ==> r == Failed(c, 0, SendFailed(NoWriter))
    ensures c.hasWriter ==> r.socket == SendMessage(c, ConnectPacket()).value
  {
    match SendMessage(c, ConnectPacket())
    case Throw(m) => Failed(c, 0, SendFailed(m))
    case Ok(c1) =>
      match c1.encapsulation
      case SockJs =>
        var banner := ChunkAt(chunks, 0);
        if banner != Some(OpenChunk("")) then Failed(c1, if banner.Some? then 1 else 0, UnexpectedBanner(banner))
        else
          var resp := ChunkAt(chunks, 1);
          if resp.None? || !StartsWith(resp.value, 'a') then Failed(c1, if resp.Some? then 2 else 1, UnexpectedResponse(resp))
          else if !resp.value.ArrayChunk? then Failed(c1, 2, Unparsable(resp.value))
          else if resp.value.entries == [] then Failed(c1, 2, EmptyResponse)
          else CheckConnected(c1, 2, resp.value.entries[0])
      case Raw =>
        var resp := ChunkAt(chunks, 0);
        if resp.None? || !StartsWith(resp.value, '{') then Failed(c1, if resp.Some? then 1 else 0, UnexpectedResponse(resp))
        else if !Decodes(resp.value) then Failed(c1, 1, Unparsable(resp.value))
        else CheckConnected(c1, 1, ReceivedOf(resp.value))
  }

  /** Whether the chunks open a SockJS session: `o`, then an array whose first message is `connected`. */
  predicate SockJsAccepts(chunks: seq<Chunk>) {
    && |chunks| >= 2
    && chunks[0] == OpenChunk("")
    && chunks[1].ArrayChunk?
    && |chunks[1].entries| > 0
    && chunks[1].entries[0].Known?
    && chunks[1].entries[0].packet.Connected?
  }

  /** Whether the chunks open a raw session: an encoded `connected` packet. */
  predicate RawAccepts(chunks: seq<Chunk>) {
    |chunks| >= 1 && chunks[0].PacketChunk? && chunks[0].packet.Connected?
  }

  /**
   * The handshake succeeds exactly when the socket can write and the
   * chunks are an acceptable opening for its encapsulation; what follows the
   * opening chunks is never read.
   */
  lemma HandshakeSucceedsExactly(c: ClientSocket, chunks: seq<Chunk>)
    ensures var r := RunHandshake(c, chunks);
      r.error.None? <==>
        c.hasWriter && (if c.encapsulation == SockJs then SockJsAccepts(chunks) else RawAccepts(chunks))
    ensures var r := RunHandshake(c, chunks);
      r.error.None? ==> r.consumed == (if c.encapsulation == SockJs then 2 else 1)
  {
  }

  /**
   * In raw mode JSON that is no known packet fails the handshake: an object
   * gets as far as the `msg` check, anything else fails the first-character
   * check.
   */
  lemma RawHandshakeRejectsForeign(c: ClientSocket, v: Value, later: seq<Chunk>)
    requires c.hasWriter && c.encapsulation == Raw
    ensures var r := RunHandshake(c, [ForeignChunk(v)] + later);
      && r.consumed == 1 && !r.released
      && r.error == Some(if v.Obj? then UnexpectedMessage(Foreign(v)) else UnexpectedResponse(Some(ForeignChunk(v))))
  {
    assert ([ForeignChunk(v)] + later)[0] == ForeignChunk(v);
  }

  /** In SockJS mode a reply array whose first message is `null` fails when its `msg` is read. */
  lemma SockJsHandshakeNullMessage(c: ClientSocket, entries: seq<Received>, later: seq<Chunk>)
    requires c.hasWriter && c.encapsulation == SockJs
    ensures var r := RunHandshake(c, [OpenChunk(""), ArrayChunk([Foreign(Null)] + entries)] + later);
      && r.consumed == 2 && !r.released && r.error == Some(NullResponse)
  {
    var chunks := [OpenChunk(""), ArrayChunk([Foreign(Null)] + entries)] + later;
    assert chunks[0] == OpenChunk("") && chunks[1] == ArrayChunk([Foreign(Null)] + entries);
  }

  /** `connect` is written before anything is read, whatever the server then sends. */
  lemma ConnectWrittenFirst(c: ClientSocket, chunks: seq<Chunk>)
    requires c.hasWriter
    ensures var r := RunHandshake(c, chunks);
      SentPackets(r.socket.sent) == SentPackets(c.sent) + [ConnectPacket()]
  {
    SendMessageCarriesPacket(c, ConnectPacket());
  }

  /** The handshake reads only the opening: later chunks do not change its outcome. */
  lemma HandshakeIgnoresLaterChunks(c: ClientSocket, chunks: seq<Chunk>, later: seq<Chunk>)
    requires |chunks| >= 2
    ensures RunHandshake(c, chunks + later) == RunHandshake(c, chunks)
  {
    assert (chunks + later)[0] == chunks[0];
    assert (chunks + later)[1] == chunks[1];
  }
}

=== FILE: live_collection.dfy ===
/**
 * The client's local document store (`LiveCollection`): documents by id in
 * insertion order, the live queries observing them, and the callbacks those
 * queries receive, recorded in the order they happen.  A compiled selector
 * is any predicate on a document object.
 */
module LiveCollections {
  import opened Wrappers
  import opened Values
  import OM = OrderedMaps
  import opened Documents

  /** A compiled selector: whether a document object matches. */
  type Selector = Fields -> bool

  /** The selector of an empty query object, which matches every document. */
  function MatchAll(): Selector {
    _ => true
  }

  /** An observe callback handed a document: what it throws, if anything. */
  type DocHandler = Fields -> Option<string>

  /** The observe callbacks the application supplied; the store never calls `changed`. */
  datatype Observer = Observer(added: Option<DocHandler>, changed: Option<DocHandler>, removed: Option<DocHandler>)

  /** A live query; `dirty` starts false and nothing in the store sets it. */
  datatype LiveQuery = LiveQuery(selector: Selector, opts: FindOpts, cbs: Observer, dirty: bool)

  /** One callback invocation: the query it went to and the document it carried. */
  datatype QueryEvent = QueryAdded(query: nat, doc: Fields) | QueryRemoved(query: nat, doc: Fields)

  /**
   * The store.  Queries form a set in insertion order; each is identified
   * by the handle it was given when created, and `nextQuery` is the handle
   * the next one gets.
   */
  datatype LiveCollection = LiveCollection(
    fields: OM.OMap<string, Fields>,
    queries: OM.OMap<nat, LiveQuery>,
    nextQuery: nat,
    events: seq<QueryEvent>)

  function NewLiveCollection(): (r: LiveCollection)
    ensures r.fields.keys == [] && r.queries.keys == [] && r.events == []
  {
    LiveCollection(OM.Empty(), OM.Empty(), 0, [])
  }

  /** Every live query has a handle below `nextQuery`, so a new handle is unused. */
  ghost predicate Valid(c: LiveCollection) {
    forall h :: h in c.queries.entries ==> h < c.nextQuery
  }

  /** The object a new document is matched as: `{id, ...fields}`. */
  function AddedObject(id: string, fields: Fields): (r: Fields)
    ensures "id" in r
    ensures forall k :: k in fields ==> k in r && r[k] == fields[k]
  {
    map["id" := Str(id)] + fields
  }

  /** The object a stored document is matched as: `{_id, ...fields}`. */
  function IdObject(id: string, fields: Fields): (r: Fields)
    ensures "_id" in r
    ensures forall k :: k in fields ==> k in r && r[k] == fields[k]
    ensures "_id" !in fields ==> r["_id"] == Str(id)
  {
    map["_id" := Str(id)] + fields
  }

  /** The callback a query has for an addition, or for a removal. */
  function Handler(q: LiveQuery, removal: bool): Option<DocHandler> {
    if removal then q.cbs.removed else q.cbs.added
  }

  /** Whether a query gets a callback for a document matched as `obj`. */
  predicate Fires(q: LiveQuery, obj: Fields, removal: bool) {
    && !q.dirty
    && q.selector(obj)
    && Handler(q, removal).Some?
  }

  /** What the query's callback throws when handed the document `id` shaped for it. */
  function Answer(q: LiveQuery, id: string, fields: Fields, removal: bool): Option<string> {
    var f := Handler(q, removal);
    if f.Some? then f.value(MakeReturnDoc(id, fields, q.opts)) else None
  }

  function EventFor(h: nat, q: LiveQuery, id: string, fields: Fields, removal: bool): QueryEvent {
    var doc := MakeReturnDoc(id, fields, q.opts);
    if removal then QueryRemoved(h, doc) else QueryAdded(h, doc)
  }

  /** The callbacks a notification loop reached, in order, and what escaped from the last one. */
  datatype Heard = Heard(events: seq<QueryEvent>, thrown: Option<string>)

  /**
   * What notifying the queries listed in `keys` of the document `id`,
   * matched as `obj`, amounts to: only queries that fire get a callback,
   * each with the document shaped for it; every callback reached but the
   * last returned, and the last threw exactly what escaped; and when
   * nothing escaped, every query that fires got its callback.
   */
  ghost predicate Delivered(keys: seq<nat>, queries: map<nat, LiveQuery>, obj: Fields, id: string,
                            fields: Fields, removal: bool, heard: Heard) {
    && (forall h :: h in keys ==> h in queries)
    && (forall i :: 0 <= i < |heard.events| ==>
          && heard.events[i].query in keys
          && Fires(queries[heard.events[i].query], obj, removal)
          && heard.events[i] == EventFor(heard.events[i].query, queries[heard.events[i].query], id, fields, removal))
    && (forall i :: 0 <= i < |heard.events| - 1 ==>
          Answer(queries[heard.events[i].query], id, fields, removal).None?)
    && (heard.thrown.Some? ==>
          && |heard.events| > 0
          && Answer(queries[heard.events[|heard.events| - 1].query], id, fields, removal) == heard.thrown)
    && (heard.thrown.None? <==>
          forall h :: h in keys && Fires(queries[h], obj, removal) ==> Answer(queries[h], id, fields, removal).None?)
    && (heard.thrown.None? ==>
          forall h :: h in keys && Fires(queries[h], obj, removal) ==> EventFor(h, queries[h], id, fields, removal) in heard.events)
  }

  /**
   * The loop over the queries listed in `keys`, in that order: each query
   * that fires gets its callback, and the first callback that throws ends
   * the loop, its error escaping.
   */
  function Notify(keys: seq<nat>, queries: map<nat, LiveQuery>, obj: Fields, id: string,
                  fields: Fields, removal: bool): (r: Heard)
    requires forall h :: h in keys ==> h in queries
    ensures |r.events| <= |keys|
    ensures Delivered(keys, queries, obj, id, fields, removal, r)
    decreases |keys|
  {
    if keys == [] then Heard([], None)
    else
      var h := keys[0];
      if !Fires(queries[h], obj, removal) then
        var rest := Notify(keys[1..], queries, obj, id, fields, removal);
        DeliveredSkip(keys, queries, obj, id, fields, removal, rest);
        rest
      else
        var e := EventFor(h, queries[h], id, fields, removal);
        var answer := Answer(queries[h], id, fields, removal);
        if answer.Some? then
          DeliveredThrow(keys, queries, obj, id, fields, removal);
          Heard([e], answer)
        else
          var rest := Notify(keys[1..], queries, obj, id, fields, removal);
          DeliveredCons(keys, queries, obj, id, fields, removal, rest);
          Heard([e] + rest.events, rest.thrown)
  }

  /** A query that does not fire adds nothing to the loop over the others. */
  lemma DeliveredSkip(keys: seq<nat>, queries: map<nat, LiveQuery>, obj: Fields, id: string,
                      fields: Fields, removal: bool, rest: Heard)
    requires keys != [] && keys[0] in queries && !Fires(queries[keys[0]], obj, removal)
    requires Delivered(keys[1..], queries, obj, id, fields, removal, rest)
    ensures Delivered(keys, queries, obj, id, fields, removal, rest)
  {
    assert forall x :: x in keys <==> x == keys[0] || x in keys[1..];
  }

  /** A first query whose callback throws ends the loop there. */
  lemma DeliveredThrow(keys: seq<nat>, queries: map<nat, LiveQuery>, obj: Fields, id: string,
                       fields: Fields, removal: bool)
    requires keys != [] && (forall h :: h in keys ==> h in queries)
    requires Fires(queries[keys[0]], obj, removal) && Answer(queries[keys[0]], id, fields, removal).Some?
    ensures Delivered(keys, queries, obj, id, fields, removal,
                      Heard([EventFor(keys[0], queries[keys[0]], id, fields, removal)],
                            Answer(queries[keys[0]], id, fields, removal)))
  {
  }

  /** A first query whose callback returns is heard before the loop over the others. */
  lemma DeliveredCons(keys: seq<nat>, queries: map<nat, LiveQuery>, obj: Fields, id: string,
                      fields: Fields, removal: bool, rest: Heard)
    requires keys != [] && keys[0] in queries
    requires Fires(queries[keys[0]], obj, removal) && Answer(queries[keys[0]], id, fields, removal).None?
    requires Delivered(keys[1..], queries, obj, id, fields, removal, rest)
    ensures Delivered(keys, queries, obj, id, fields, removal,
                      Heard([EventFor(keys[0], queries[keys[0]], id, fields, removal)] + rest.events, rest.thrown))
  {
    var h := keys[0];
    var r := Heard([EventFor(h, queries[h], id, fields, removal)] + rest.events, rest.thrown);
    assert forall x :: x in keys <==> x == h || x in keys[1..];
    assert forall i :: 0 < i < |r.events| ==> r.events[i] == rest.events[i - 1];
  }

  /** A store operation's outcome: the store afterwards, and what it threw. */
  datatype Update = Update(collection: LiveCollection, thrown: Option<string>)

  function FalseyAdd(): string { "BUG: tried adding document with falsey id" }
  function FalseyChange(): string { "BUG: tried changing document with falsey id" }
  function DuplicateId(id: string): string { "BUG: ID \"" + id + "\" already exists" }
  function MissingFields(id: string): string { "BUG: removeDocument " + id + " without existing fields" }

  /**
   * `addDocument`: an empty or present id throws and the store is left as
   * it was; otherwise the fields are stored at the end of the order, and
   * only then are the queries that fire notified with `added`, so a
   * callback that throws leaves the document stored.  Queries see the
   * document as `{id, ...fields}`.
   */
  function AddDocument(c: LiveCollection, id: string, fields: Fields): (r: Update)
    ensures id == "" ==> r == Update(c, Some(FalseyAdd()))
    ensures id != "" && id in c.fields.entries ==> r == Update(c, Some(DuplicateId(id)))
    ensures |c.events| <= |r.collection.events| && r.collection.events[..|c.events|] == c.events
    ensures id != "" && id !in c.fields.entries ==>
      && r.collection.fields.entries == c.fields.entries[id := fields]
      && r.collection.fields.keys == c.fields.keys + [id]
      && r.collection.queries == c.queries && r.collection.nextQuery == c.nextQuery
      && Delivered(c.queries.keys, c.queries.entries, AddedObject(id, fields), id, fields, false,
                   Heard(r.collection.events[|c.events|..], r.thrown))
  {
    if id == "" then Update(c, Some(FalseyAdd()))
    else if id in c.fields.entries then Update(c, Some(DuplicateId(id)))
    else
      var heard := Notify(c.queries.keys, c.queries.entries, AddedObject(id, fields), id, fields, false);
      var r := c.(fields := OM.Put(c.fields, id, fields), events := c.events + heard.events);
      assert r.events[|c.events|..] == heard.events;
      Update(r, heard.thrown)
  }

  /**
   * `changeDocument`: an empty id throws; otherwise the stored fields (none
   * if absent) are overlaid with the given ones, and then the index keys
   * `"0"`, `"1"`, … of the cleared list, one per cleared name, are set to
   * undefined.  No query hears of it.
   */
  function ChangeDocument(c: LiveCollection, id: string, fields: Fields, cleared: set<string>): (r: Update)
    ensures id == "" ==> r == Update(c, Some(FalseyChange()))
    ensures r.thrown.None? <==> id != ""
    ensures id != "" ==>
      && id in r.collection.fields.entries
      && (forall x :: x != id ==> OM.Get(r.collection.fields, x) == OM.Get(c.fields, x))
      && (id in c.fields.entries ==> r.collection.fields.keys == c.fields.keys)
      && (id !in c.fields.entries ==> r.collection.fields.keys == c.fields.keys + [id])
      && r.collection.queries == c.queries && r.collection.nextQuery == c.nextQuery
      && r.collection.events == c.events
  {
    if id == "" then Update(c, Some(FalseyChange()))
    else
      var prev := OM.Get(c.fields, id).GetOr(map[]);
      var merged := prev + fields + map k | k in IndexKeys(|cleared|) :: Undefined;
      Update(c.(fields := OM.Put(c.fields, id, merged)), None)
  }

  /** The fields `changeDocument` stores, key by key. */
  lemma ChangeDocumentFields(c: LiveCollection, id: string, fields: Fields, cleared: set<string>)
    requires id != ""
    ensures var stored := ChangeDocument(c, id, fields, cleared).collection.fields.entries[id];
      var prev := if id in c.fields.entries then c.fields.entries[id] else map[];
      && stored.Keys == prev.Keys + fields.Keys + IndexKeys(|cleared|)
      && (forall k :: k in IndexKeys(|cleared|) ==> stored[k] == Undefined)
      && (forall k :: k in fields && k !in IndexKeys(|cleared|) ==> stored[k] == fields[k])
      && (forall k :: k in prev && k !in fields && k !in IndexKeys(|cleared|) ==> stored[k] == prev[k])
  {
  }

  /** A change with no fields and nothing cleared leaves a stored document, and the store, as they were. */
  lemma EmptyChangeKeepsStore(c: LiveCollection, id: string)
    requires id in c.fields.entries && id != ""
    ensures ChangeDocument(c, id, map[], {}) == Update(c, None)
  {
    assert IndexKeys(0) == {};
    var doc := c.fields.entries[id];
    assert doc + map[] + (map k | k in IndexKeys(0) :: Undefined) == doc;
    assert c.fields.entries[id := doc] == c.fields.entries;
  }

  /** A change that clears nothing overlays the given fields on the stored ones (none if absent). */
  lemma ChangeClearingNothing(c: LiveCollection, id: string, fields: Fields)
    requires id != ""
    ensures ChangeDocument(c, id, fields, {})
      == Update(c.(fields := OM.Put(c.fields, id, OM.Get(c.fields, id).GetOr(map[]) + fields)), None)
  {
    var none: Fields := map k | k in IndexKeys(0) :: Undefined;
    assert none == map[] by {
      assert IndexKeys(0) == {};
    }
    assert OM.Get(c.fields, id).GetOr(map[]) + fields + none == OM.Get(c.fields, id).GetOr(map[]) + fields;
  }

  /** A change that clears nothing, made after another, overlays both field sets in order. */
  lemma ChangeAfterChange(c: LiveCollection, id: string, first: Fields, second: Fields)
    requires id != ""
    ensures var prev := OM.Get(c.fields, id).GetOr(map[]);
      ChangeDocument(ChangeDocument(c, id, first, {}).collection, id, second, {})
        == Update(c.(fields := OM.Put(c.fields, id, (prev + first) + second)), None)
  {
    var prev := OM.Get(c.fields, id).GetOr(map[]);
    ChangeClearingNothing(c, id, first);
    var c1 := ChangeDocument(c, id, first, {}).collection;
    ChangeClearingNothing(c1, id, second);
    assert OM.Get(c1.fields, id).GetOr(map[]) == prev + first;
    OM.PutTwice(c.fields, id, prev + first, (prev + first) + second);
  }

  /** Two changes of one document that clear nothing are one change with the later fields overlaid. */
  lemma ChangesCompose(c: LiveCollection, id: string, first: Fields, second: Fields)
    requires id != ""
    ensures ChangeDocument(ChangeDocument(c, id, first, {}).collection, id, second, {})
      == ChangeDocument(c, id, first + second, {})
  {
    var prev := OM.Get(c.fields, id).GetOr(map[]);
    ChangeAfterChange(c, id, first, second);
    ChangeClearingNothing(c, id, first + second);
    OverlayAssoc(prev, first, second);
  }

  /** Overlaying fields is associative. */
  lemma OverlayAssoc(a: Fields, b: Fields, d: Fields)
    ensures (a + b) + d == a + (b + d)
  {
    assert forall k :: k in (a + b) + d <==> k in a + (b + d);
  }


  /**
   * `removeDocument`: an absent id throws and the store is left as it was;
   * otherwise the document leaves the store, and only then are the queries
   * that fire notified with `removed` and the previous fields, so a
   * callback that throws leaves the document removed.  Queries see the
   * document as `{_id, ...fields}`.
   */
  function RemoveDocument(c: LiveCollection, id: string): (r: Update)
    ensures id !in c.fields.entries ==> r == Update(c, Some(MissingFields(id)))
    ensures |c.events| <= |r.collection.events| && r.collection.events[..|c.events|] == c.events
    ensures id in c.fields.entries ==>
      var prev := c.fields.entries[id];
      && r.collection.fields.entries == c.fields.entries - {id}
      && r.collection.fields.keys == OM.Without(c.fields.keys, id)
      && r.collection.queries == c.queries && r.collection.nextQuery == c.nextQuery
      && Delivered(c.queries.keys, c.queries.entries, IdObject(id, prev), id, prev, true,
                   Heard(r.collection.events[|c.events|..], r.thrown))
  {
    match OM.Get(c.fields, id)
    case None => Update(c, Some(MissingFields(id)))
    case Some(prev) =>
      var heard := Notify(c.queries.keys, c.queries.entries, IdObject(id, prev), id, prev, true);
      var r := c.(fields := OM.Delete(c.fields, id), events := c.events + heard.events);
      assert r.events[|c.events|..] == heard.events;
      Update(r, heard.thrown)
  }

  /** `a` is `b` with some elements left out, the rest in their order. */
  predicate Subsequence<T(==)>(a: seq<T>, b: seq<T>)
    decreases |b|
  {
    a == [] ||
    (b != [] &&
      ((a[|a| - 1] == b[|b| - 1] && Subsequence(a[..|a| - 1], b[..|b| - 1])) || Subsequence(a, b[..|b| - 1])))
  }

  /** The ids among `keys` whose documents match, in order. */
  function MatchingIds(keys: seq<string>, entries: map<string, Fields>, selector: Selector): (r: seq<string>)
    requires forall k :: k in keys ==> k in entries
    ensures |r| <= |keys|
    ensures Subsequence(r, keys)
    ensures forall x :: x in r <==> x in keys && selector(IdObject(x, entries[x]))
    decreases |keys|
  {
    if keys == [] then []
    else
      var last := keys[|keys| - 1];
      var pre := MatchingIds(keys[..|keys| - 1], entries, selector);
      assert forall x :: x in keys <==> x in keys[..|keys| - 1] || x == last;
      if selector(IdObject(last, entries[last])) then
        assert (pre + [last])[..|pre|] == pre;
        pre + [last]
      else pre
  }

  /**
   * `findGenerator`: the matching documents in insertion order, each shaped
   * by the options.  Documents are matched as `{_id, ...fields}`.
   */
  function Find(c: LiveCollection, selector: Selector, opts: FindOpts): (r: seq<Fields>)
    ensures var ids := MatchingIds(c.fields.keys, c.fields.entries, selector);
      && Subsequence(ids, c.fields.keys)
      && |r| == |ids|
      && forall i :: 0 <= i < |r| ==> r[i] == MakeReturnDoc(ids[i], c.fields.entries[ids[i]], opts)
  {
    var ids := MatchingIds(c.fields.keys, c.fields.entries, selector);
    seq(|ids|, i requires 0 <= i < |ids| => MakeReturnDoc(ids[i], c.fields.entries[ids[i]], opts))
  }

  /** `LiveCollectionApi.findOne`: the first document the generator yields, if any. */
  function FindOne(c: LiveCollection, selector: Selector, opts: FindOpts): (r: Option<Fields>)
    ensures r.None? <==> Find(c, selector, opts) == []
    ensures r.Some? ==> r.value == Find(c, selector, opts)[0]
  {
    var found := Find(c, selector, opts);
    if found == [] then None else Some(found[0])
  }

  /** Extending the keys by one extends the matches by that key exactly when it matches. */
  lemma MatchingIdsSnoc(keys: seq<string>, k: string, entries: map<string, Fields>, selector: Selector)
    requires forall x :: x in keys ==> x in entries
    requires k in entries
    ensures MatchingIds(keys + [k], entries, selector) ==
      MatchingIds(keys, entries, selector) + (if selector(IdObject(k, entries[k])) then [k] else [])
  {
    assert (keys + [k])[..|keys|] == keys;
  }

  /** The matches among the first `i + 1` keys are those among the first `i`, and then the next key if it matches. */
  lemma MatchingIdsPrefix(keys: seq<string>, i: nat, entries: map<string, Fields>, selector: Selector)
    requires i < |keys|
    requires forall x :: x in keys ==> x in entries
    ensures MatchingIds(keys[..i + 1], entries, selector) ==
      MatchingIds(keys[..i], entries, selector) + (if selector(IdObject(keys[i], entries[keys[i]])) then [keys[i]] else [])
  {
    assert keys[..i + 1] == keys[..i] + [keys[i]];
    MatchingIdsSnoc(keys[..i], keys[i], entries, selector);
  }

  /** `LiveCursor.count`: iterates the generator and counts what it yields. */
  method Count(c: LiveCollection, selector: Selector) returns (n: nat)
    ensures n == |MatchingIds(c.fields.keys, c.fields.entries, selector)|
    ensures forall opts: FindOpts :: n == |Find(c, selector, opts)|
  {
    var keys := c.fields.keys;
    n := 0;
    var i := 0;
    while i < |keys|
      invariant 0 <= i <= |keys|
      invariant n == |MatchingIds(keys[..i], c.fields.entries, selector)|
    {
      MatchingIdsPrefix(keys, i, c.fields.entries, selector);
      if selector(IdObject(keys[i], c.fields.entries[keys[i]])) {
        n := n + 1;
      }
      i := i + 1;
    }
    assert keys[..i] == keys;
  }

  /** The empty selector finds every stored document, in insertion order. */
  lemma {:induction false} MatchAllFindsAll(keys: seq<string>, entries: map<string, Fields>)
    requires forall k :: k in keys ==> k in entries
    ensures MatchingIds(keys, entries, MatchAll()) == keys
    decreases |keys|
  {
    if keys != [] {
      MatchAllFindsAll(keys[..|keys| - 1], entries);
      assert keys[..|keys| - 1] + [keys[|keys| - 1]] == keys;
    }
  }

  /**
   * The initial `added` calls of a new query `h`, one per document in
   * order, up to and including the first that throws.
   */
  function InitialAdds(h: nat, docs: seq<Fields>, added: DocHandler): (r: Heard)
    ensures |r.events| <= |docs|
    ensures forall i :: 0 <= i < |r.events| ==> r.events[i] == QueryAdded(h, docs[i])
    ensures forall i :: 0 <= i < |r.events| - 1 ==> added(docs[i]).None?
    ensures r.thrown.None? <==> forall i :: 0 <= i < |docs| ==> added(docs[i]).None?
    ensures r.thrown.None? ==> |r.events| == |docs|
    ensures r.thrown.Some? ==> |r.events| > 0 && added(docs[|r.events| - 1]) == r.thrown
    decreases |docs|
  {
    if docs == [] then Heard([], None)
    else if added(docs[0]).Some? then Heard([QueryAdded(h, docs[0])], added(docs[0]))
    else
      var rest := InitialAdds(h, docs[1..], added);
      assert forall i :: 0 < i < |docs| ==> docs[i] == docs[1..][i - 1];
      Heard([QueryAdded(h, docs[0])] + rest.events, rest.thrown)
  }

  /** A store after `observe`, and the handle of the new query, or what the constructor threw. */
  datatype Observed = Observed(collection: LiveCollection, handle: Outcome<nat>)

  /**
   * `LiveCursor.observe`, through the `LiveQuery` constructor: every current
   * match is delivered to `added` first, in `find` order, and only then is
   * the query registered, under a new handle.  An `added` that throws ends
   * the delivery and the error escapes the constructor, so the query is
   * never registered; the calls made are recorded under the handle it
   * would have had.
   */
  function Observe(c: LiveCollection, selector: Selector, opts: FindOpts, cbs: Observer): (r: Observed)
    requires Valid(c)
    ensures Valid(r.collection)
    ensures r.collection.fields == c.fields
    ensures |c.events| <= |r.collection.events| && r.collection.events[..|c.events|] == c.events
    ensures var found := Find(c, selector, opts);
      r.handle.Ok? <==> cbs.added.None? || forall i :: 0 <= i < |found| ==> cbs.added.value(found[i]).None?
    ensures r.handle.Ok? ==>
      var h := r.handle.value;
      && h == c.nextQuery && h !in c.queries.entries
      && r.collection.queries.entries == c.queries.entries[h := LiveQuery(selector, opts, cbs, false)]
      && r.collection.queries.keys == c.queries.keys + [h]
    ensures r.handle.Throw? ==> r.collection.queries == c.queries && r.collection.nextQuery == c.nextQuery
    ensures var found := Find(c, selector, opts);
      var initial := r.collection.events[|c.events|..];
      && (cbs.added.None? ==> initial == [])
      && |initial| <= |found|
      && (forall i :: 0 <= i < |initial| ==> initial[i] == QueryAdded(c.nextQuery, found[i]))
      && (r.handle.Ok? && cbs.added.Some? ==> |initial| == |found|)
      && (r.handle.Throw? ==> |initial| > 0 && cbs.added.value(found[|initial| - 1]) == Some(r.handle.message))
  {
    var h := c.nextQuery;
    var found := Find(c, selector, opts);
    var heard := if cbs.added.Some? then InitialAdds(h, found, cbs.added.value) else Heard([], None);
    var c1 := c.(events := c.events + heard.events);
    assert c1.events[|c.events|..] == heard.events;
    if heard.thrown.Some? then Observed(c1, Throw(heard.thrown.value))
    else
      var c' := c1.(queries := OM.Put(c.queries, h, LiveQuery(selector, opts, cbs, false)), nextQuery := h + 1);
      Observed(c', Ok(h))
  }

  /** The handle's `stop`: the query leaves the set (a second stop changes nothing). */
  function StopQuery(c: LiveCollection, h: nat): (r: LiveCollection)
    ensures h !in r.queries.entries && h !in r.queries.keys
    ensures forall x :: x != h ==> OM.Get(r.queries, x) == OM.Get(c.queries, x)
    ensures r.fields == c.fields && r.nextQuery == c.nextQuery && r.events == c.events
    ensures Valid(c) ==> Valid(r)
  {
    c.(queries := OM.Delete(c.queries, h))
  }

  /** Stopping is idempotent. */
  lemma StopQueryIdempotent(c: LiveCollection, h: nat)
    ensures StopQuery(StopQuery(c, h), h) == StopQuery(c, h)
  {
  }

  /** A stopped query gets no callback from later additions or removals. */
  lemma StoppedQueryHearsNothing(c: LiveCollection, h: nat, id: string, fields: Fields)
    ensures var s := StopQuery(c, h);
      && (forall e :: e in AddDocument(s, id, fields).collection.events[|s.events|..] ==> e.query != h)
      && (forall e :: e in RemoveDocument(s, id).collection.events[|s.events|..] ==> e.query != h)
  {
  }

  /**
   * Once the callback of the query listed at `i` throws, no query listed
   * after it hears of the document.
   */
  lemma {:induction false} NotifyStopsAtThrow(keys: seq<nat>, queries: map<nat, LiveQuery>, obj: Fields, id: string,
                                              fields: Fields, removal: bool, i: nat, j: nat)
    requires forall h :: h in keys ==> h in queries
    requires i < j < |keys| && keys[j] !in keys[..j]
    requires Fires(queries[keys[i]], obj, removal) && Answer(queries[keys[i]], id, fields, removal).Some?
    ensures forall e :: e in Notify(keys, queries, obj, id, fields, removal).events ==> e.query != keys[j]
    decreases i
  {
    assert keys[0] in keys[..j];
    if i > 0 && (!Fires(queries[keys[0]], obj, removal) || Answer(queries[keys[0]], id, fields, removal).None?) {
      assert keys[1..][j - 1] == keys[j] && keys[1..][i - 1] == keys[i];
      assert keys[1..][..j - 1] == keys[1..j];
      NotifyStopsAtThrow(keys[1..], queries, obj, id, fields, removal, i - 1, j - 1);
    }
  }

  /**
   * A matching query's `added` callback that throws leaves the new document
   * stored, the error escapes, and the queries after it hear nothing.
   */
  lemma ThrowingAddedSilencesLater(c: LiveCollection, id: string, fields: Fields, i: nat, j: nat)
    requires id != "" && id !in c.fields.entries
    requires i < j < |c.queries.keys|
    requires Fires(c.queries.entries[c.queries.keys[i]], AddedObject(id, fields), false)
    requires Answer(c.queries.entries[c.queries.keys[i]], id, fields, false).Some?
    ensures var r := AddDocument(c, id, fields);
      && r.thrown.Some?
      && r.collection.fields.entries == c.fields.entries[id := fields]
      && forall e :: e in r.collection.events[|c.events|..] ==> e.query != c.queries.keys[j]
  {
    var keys := c.queries.keys;
    assert keys[j] !in keys[..j];
    NotifyStopsAtThrow(keys, c.queries.entries, AddedObject(id, fields), id, fields, false, i, j);
  }

  /** Adding a new document and removing it again restores the stored documents and their order. */
  lemma AddThenRemove(c: LiveCollection, id: string, fields: Fields)
    requires id != "" && id !in c.fields.entries
    ensures var added := AddDocument(c, id, fields).collection;
      RemoveDocument(added, id).collection.fields == c.fields
  {
    var added := AddDocument(c, id, fields).collection;
    OM.WithoutAppended(c.fields.keys, id);
    assert c.fields.entries[id := fields] - {id} == c.fields.entries;
  }

  /** A selector that matches exactly the objects carrying `_id`. */
  ghost predicate SelectsOnId(selector: Selector) {
    forall doc: Fields :: selector(doc) == ("_id" in doc)
  }

  /**
   * Adding matches `{id, ...}` but finding and removing match `{_id, ...}`:
   * a query on the presence of `_id` hears nothing when a document without
   * an `_id` field arrives ...
   */
  lemma AddMissesIdSelector(c: LiveCollection, h: nat, id: string, fields: Fields)
    requires h in c.queries.entries && SelectsOnId(c.queries.entries[h].selector)
    requires id != "" && id !in c.fields.entries && "_id" !in fields
    ensures forall e :: e in AddDocument(c, id, fields).collection.events[|c.events|..] ==> e.query != h
  {
    assert "_id" !in AddedObject(id, fields);
  }

  /** ... yet its selector finds that document ... */
  lemma FindSeesIdSelector(c: LiveCollection, h: nat, id: string, fields: Fields)
    requires h in c.queries.entries && SelectsOnId(c.queries.entries[h].selector)
    requires id != "" && id !in c.fields.entries
    ensures var added := AddDocument(c, id, fields).collection;
      id in MatchingIds(added.fields.keys, added.fields.entries, c.queries.entries[h].selector)
  {
    assert c.queries.entries[h].selector(IdObject(id, fields));
  }

  /** ... and the query hears of the document's removal, unless a callback before it threw. */
  lemma RemoveHitsIdSelector(c: LiveCollection, h: nat, id: string)
    requires h in c.queries.entries && SelectsOnId(c.queries.entries[h].selector)
    requires id in c.fields.entries
    requires !c.queries.entries[h].dirty && c.queries.entries[h].cbs.removed.Some?
    ensures var r := RemoveDocument(c, id);
      r.thrown.None? ==>
        QueryRemoved(h, MakeReturnDoc(id, c.fields.entries[id], c.queries.entries[h].opts))
          in r.collection.events[|c.events|..]
  {
    assert c.queries.entries[h].selector(IdObject(id, c.fields.entries[id]));
  }

  /** `changeDocument` treats the cleared names as a count: a cleared field keeps its value. */
  lemma ClearedNameSurvives(c: LiveCollection, id: string)
    requires id != "" && id in c.fields.entries && "name" in c.fields.entries[id]
    ensures var stored := ChangeDocument(c, id, map[], {"name"}).collection.fields.entries[id];
      && stored["name"] == c.fields.entries[id]["name"]
      && "0" in stored && stored["0"] == Undefined
  {
    ChangeDocumentFields(c, id, map[], {"name"});
    assert DecimalString(0) == "0";
    assert "name" !in IndexKeys(1) by {
      assert IndexKeys(1) == {"0"};
    }
  }
}

=== FILE: live_variable.dfy ===
/**
 * `LiveVariable`: a value with a set of change callbacks.  Setting the value
 * stores it first and then runs every callback in subscription order; a
 * throwing callback does not stop the others, and what the last thrower
 * threw is rethrown afterwards if it is truthy.  Callbacks are identified
 * by number; what each does when run is a parameter (it returns, or throws
 * a value).
 */
module LiveVariables {
  import opened Wrappers
  import opened Values
  import OM = OrderedMaps

  /** One run of a callback, with the snapshot it could observe while running. */
  datatype Run<T> = Run(callback: nat, seen: T)

  datatype LiveVariable<T> = LiveVariable(value: T, subscriptions: OM.DistinctSeq<nat>, runs: seq<Run<T>>)

  /** What a callback does when run: `None` returns normally, `Some(v)` throws `v`. */
  type Behaviour = nat -> Option<Value>

  function NewLiveVariable<T>(initial: T): (r: LiveVariable<T>)
    ensures GetSnapshot(r) == initial && r.subscriptions == [] && r.runs == []
  {
    LiveVariable(initial, [], [])
  }

  function GetSnapshot<T>(lv: LiveVariable<T>): T {
    lv.value
  }

  /** `subscribe`: adds the callback to the set (a present one keeps its place). */
  function Subscribe<T>(lv: LiveVariable<T>, cb: nat): (r: LiveVariable<T>)
    ensures cb in r.subscriptions
    ensures forall x :: x in r.subscriptions <==> x in lv.subscriptions || x == cb
    ensures cb !in lv.subscriptions ==> r.subscriptions == lv.subscriptions + [cb]
    ensures r.value == lv.value && r.runs == lv.runs
  {
    if cb in lv.subscriptions then lv
    else lv.(subscriptions := OM.Push(lv.subscriptions, cb))
  }

  /** The function `subscribe` returns: deletes the callback from the set. */
  function Unsubscribe<T>(lv: LiveVariable<T>, cb: nat): (r: LiveVariable<T>)
    ensures cb !in r.subscriptions
    ensures forall x :: x != cb ==> (x in r.subscriptions <==> x in lv.subscriptions)
    ensures r.value == lv.value && r.runs == lv.runs
  {
    lv.(subscriptions := OM.Without(lv.subscriptions, cb))
  }

  /** The runs a `setSnapshot` makes: every subscription, in order, each seeing the new value. */
  function RunsOf<T>(subs: seq<nat>, v: T): (r: seq<Run<T>>)
    ensures |r| == |subs|
    ensures forall i :: 0 <= i < |r| ==> r[i] == Run(subs[i], v)
  {
    seq(|subs|, i requires 0 <= i < |subs| => Run(subs[i], v))
  }

  /**
   * The value `caught` holds after running `subs`: `null` until a callback
   * throws, then whatever the latest thrower threw.
   */
  function LastThrown(subs: seq<nat>, behaviour: Behaviour): (r: Value)
    ensures (forall i :: 0 <= i < |subs| ==> behaviour(subs[i]).None?) ==> r == Null
    ensures r == Null || exists i :: 0 <= i < |subs| && behaviour(subs[i]) == Some(r)
    ensures |subs| > 0 && behaviour(subs[|subs| - 1]).Some? ==> r == behaviour(subs[|subs| - 1]).value
    decreases |subs|
  {
    if subs == [] then Null
    else
      var pre := subs[..|subs| - 1];
      var last := subs[|subs| - 1];
      match behaviour(last)
      case Some(v) => v
      case None => LastThrown(pre, behaviour)
  }

  /** `setSnapshot`: stores the value, runs every callback, then rethrows a truthy catch. */
  method SetSnapshot<T>(lv: LiveVariable<T>, newValue: T, behaviour: Behaviour)
    returns (r: LiveVariable<T>, thrown: Option<Value>)
    ensures GetSnapshot(r) == newValue
    ensures r.subscriptions == lv.subscriptions
    ensures r.runs == lv.runs + RunsOf(lv.subscriptions, newValue)
    ensures thrown == (var c := LastThrown(lv.subscriptions, behaviour); if Truthy(c) then Some(c) else None)
  {
    r := lv.(value := newValue);
    var subs := lv.subscriptions;
    var caught := Null;
    var i := 0;
    while i < |subs|
      invariant 0 <= i <= |subs|
      invariant r.value == newValue && r.subscriptions == subs
      invariant r.runs == lv.runs + RunsOf(subs[..i], newValue)
      invariant caught == LastThrown(subs[..i], behaviour)
    {
      assert subs[..i + 1][..i] == subs[..i];
      r := r.(runs := r.runs + [Run(subs[i], r.value)]);
      if behaviour(subs[i]).Some? {
        caught := behaviour(subs[i]).value;
      }
      i := i + 1;
    }
    assert subs[..i] == subs;
    thrown := if Truthy(caught) then Some(caught) else None;
  }

  /** A callback that has been unsubscribed is not run by any later `setSnapshot`. */
  lemma UnsubscribedNotRun<T>(lv: LiveVariable<T>, cb: nat, v: T)
    ensures forall run :: run in RunsOf(Unsubscribe(lv, cb).subscriptions, v) ==> run.callback != cb
  {
  }

  /** Subscribing twice is subscribing once: a callback runs once per `setSnapshot`. */
  lemma SubscribeIdempotent<T>(lv: LiveVariable<T>, cb: nat)
    ensures Subscribe(Subscribe(lv, cb), cb) == Subscribe(lv, cb)
  {
  }

  /**
   * What is rethrown is the last catch, not the last truthy one: a later
   * callback throwing `null` cancels an earlier callback's error.
   */
  lemma LaterFalsyThrowCancels(a: nat, b: nat, behaviour: Behaviour)
    requires a != b
    requires behaviour(a) == Some(Str("boom")) && behaviour(b) == Some(Null)
    ensures LastThrown([a, b], behaviour) == Null
    ensures LastThrown([a], behaviour) == Str("boom")
  {
  }
}

=== FILE: omap.dfy ===
/**
 * Insertion-ordered maps: the semantics of a JavaScript `Map`, whose iteration
 * order is the order in which keys were first inserted.  Re-setting a present
 * key keeps its position; deleting a key removes it from the order.
 */
module OrderedMaps {
  import opened Wrappers

  datatype RawMap<K, V> = RawMap(keys: seq<K>, entries: map<K, V>)

  ghost predicate Distinct<K>(s: seq<K>) {
    forall i, j :: 0 <= i < j < |s| ==> s[i] != s[j]
  }

  ghost predicate WellFormed<K, V>(m: RawMap<K, V>) {
    && Distinct(m.keys)
    && (forall k :: k in m.entries ==> k in m.keys)
    && (forall k :: k in m.keys ==> k in m.entries)
  }

  /** A sequence without repetitions: a JavaScript `Set` in insertion order. */
  type DistinctSeq<K> = s: seq<K> | Distinct(s) witness []

  /** `Set.add` of an element not yet present: it goes to the end. */
  function Push<K>(s: DistinctSeq<K>, k: K): (r: DistinctSeq<K>)
    requires k !in s
    ensures r == s + [k]
  {
    var r := s + [k];
    assert Distinct(r) by {
      forall i, j | 0 <= i < j < |r| ensures r[i] != r[j] {
        if j == |r| - 1 {
          assert r[i] in s;
        }
      }
    }
    r
  }

  /** An ordered map: its order lists each key of its entries exactly once. */
  type OMap<K, V> = m: RawMap<K, V> | WellFormed(m) witness RawMap([], map[])

  function Empty<K, V>(): (r: OMap<K, V>)
    ensures r.entries == map[] && r.keys == []
  {
    RawMap([], map[])
  }

  /** `Map.get`. */
  function Get<K, V>(m: OMap<K, V>, k: K): (r: Option<V>)
    ensures r.Some? <==> k in m.entries
    ensures r.Some? ==> r.value == m.entries[k]
  {
    if k in m.entries then Some(m.entries[k]) else None
  }

  /** `Map.set`: a new key goes to the end, a present key keeps its place. */
  function Put<K, V>(m: OMap<K, V>, k: K, v: V): (r: OMap<K, V>)
    ensures r.entries == m.entries[k := v]
    ensures k in m.entries ==> r.keys == m.keys
    ensures k !in m.entries ==> r.keys == m.keys + [k]
  {
    if k in m.entries then RawMap(m.keys, m.entries[k := v])
    else RawMap(m.keys + [k], m.entries[k := v])
  }

  /** A second `set` of the same key overrides the first and keeps the key's place. */
  lemma PutTwice<K, V>(m: OMap<K, V>, k: K, a: V, b: V)
    ensures Put(Put(m, k, a), k, b) == Put(m, k, b)
  {
    assert m.entries[k := a][k := b] == m.entries[k := b];
  }

  /** The sequence `s` without the element `k`. */
  function Without<K(==)>(s: seq<K>, k: K): (r: seq<K>)
    ensures forall x :: x in r ==> x in s && x != k
    ensures forall x :: x in s && x != k ==> x in r
    ensures Distinct(s) ==> Distinct(r)
    ensures k !in s ==> r == s
    ensures |r| <= |s|
  {
    if |s| == 0 then []
    else if s[0] == k then Without(s[1..], k)
    else
      var rest := Without(s[1..], k);
      assert Distinct(s) ==> Distinct(s[1..]) && s[0] !in s[1..] by {
        if Distinct(s) {
          forall i | 0 <= i < |s[1..]| ensures s[1..][i] != s[0] {
            assert s[1..][i] == s[i + 1];
          }
        }
      }
      [s[0]] + rest
  }

  /** Removing an element just appended is the same as removing it before the append. */
  lemma {:induction false} WithoutAppended<K>(s: seq<K>, x: K)
    ensures Without(s + [x], x) == Without(s, x)
    decreases |s|
  {
    if s == [] {
      assert Without([x], x) == Without([x][1..], x);
    } else {
      assert (s + [x])[0] == s[0];
      assert (s + [x])[1..] == s[1..] + [x];
      WithoutAppended(s[1..], x);
    }
  }

  /**
   * Regrouping a concatenation of three sequences, stated once so that
   * proofs about logs built in several steps need not re-derive it.
   */
  lemma ConcatAssoc<T>(x: seq<T>, y: seq<T>, z: seq<T>)
    ensures (x + y) + z == x + (y + z)
  {
  }

  /** `Map.delete`: removes the key from the entries and from the order. */
  function Delete<K(==), V>(m: OMap<K, V>, k: K): (r: OMap<K, V>)
    ensures r.entries == m.entries - {k}
    ensures r.keys == Without(m.keys, k)
    ensures k !in m.entries ==> r == m
  {
    RawMap(Without(m.keys, k), m.entries - {k})
  }

  /** The values in iteration order. */
  function Values<K, V>(m: OMap<K, V>): (r: seq<V>)
    ensures |r| == |m.keys|
    ensures forall i :: 0 <= i < |r| ==> r[i] == m.entries[m.keys[i]]
  {
    seq(|m.keys|, i requires 0 <= i < |m.keys| => m.entries[m.keys[i]])
  }

  /** A well-formed order has as many keys as the map has entries. */
  lemma {:induction false} KeysCount<K, V>(m: OMap<K, V>)
    ensures |m.keys| == |m.entries|
  {
    SeqSetCount(m.keys);
    assert m.entries.Keys == set k | k in m.keys;
  }

  lemma {:induction false} SeqSetCount<K>(s: seq<K>)
    requires Distinct(s)
    ensures |set k | k in s| == |s|
  {
    if |s| > 0 {
      var t := s[..|s| - 1];
      assert Distinct(t);
      SeqSetCount(t);
      assert (set k | k in s) == (set k | k in t) + {s[|s| - 1]};
      assert s[|s| - 1] !in t;
    }
  }
}

=== FILE: publishing.dfy ===
/**
 * The server's per-session merge engine for one collection (`PresentedCollection`).
 * Each document records, per contributing subscription, the fields that
 * subscription presents, together with the merged view the client holds.
 * Every operation returns the new engine state and the document packets it
 * sends (each packet is sent on its own).
 */
module Publishing {
  import opened Wrappers
  import opened Values
  import opened Wire
  import OM = OrderedMaps

  /** One document: each subscriber's contribution, and the merged client view. */
  datatype PresentedDocument = PresentedDocument(presentedFields: map<string, Fields>, clientView: Fields)

  type DocumentCache = OM.OMap<string, PresentedDocument>

  datatype PresentedCollection = PresentedCollection(
    collection: string,
    documentCache: DocumentCache,
    isSending: bool,
    beforeView: DocumentCache)

  /** The state after an operation, and the packets it sent. */
  datatype Step = Step(coll: PresentedCollection, sent: seq<ServerPacket>)

  /** A fresh engine: empty, sending, no snapshot. */
  function NewCollection(name: string): (r: PresentedCollection)
    ensures r.collection == name && r.isSending
    ensures r.documentCache.entries == map[] && r.beforeView.entries == map[]
  {
    PresentedCollection(name, OM.Empty(), true, OM.Empty())
  }

  /** A document packet for this collection, sent only while sending is on. */
  function ConsiderSending(c: PresentedCollection, change: DocumentChange): (r: seq<ServerPacket>)
    ensures |r| <= 1
    ensures r != [] <==> c.isSending
    ensures forall p :: p in r ==> p == Doc(c.collection, change)
  {
    if c.isSending then [Doc(c.collection, change)] else []
  }

  /** Every key some remaining subscriber still presents. */
  function BackedKeys(presented: map<string, Fields>): (r: set<string>)
    ensures forall s, k :: s in presented && k in presented[s] ==> k in r
    ensures forall k :: k in r ==> exists s :: s in presented && k in presented[s]
  {
    set s, k | s in presented && k in presented[s] :: k
  }

  /** `added`: a subscriber starts presenting a document. */
  function Add(c: PresentedCollection, subId: string, docId: string, fields: Fields): (r: Outcome<Step>)
    ensures r.Throw? <==> docId in c.documentCache.entries && subId in c.documentCache.entries[docId].presentedFields
    ensures r.Ok? ==> r.value.coll == c.(documentCache := r.value.coll.documentCache)
    // A document new to the collection: sole presenter, view = fields, one `added`.
    ensures r.Ok? && docId !in c.documentCache.entries ==>
      && r.value.coll.documentCache.entries == c.documentCache.entries[docId := PresentedDocument(map[subId := fields], fields)]
      && r.value.coll.documentCache.keys == c.documentCache.keys + [docId]
      && r.value.sent == ConsiderSending(c, Added(docId, Some(fields)))
    // A document another subscriber already presents: `changed` with the fields, never a second `added`.
    ensures r.Ok? && docId in c.documentCache.entries ==>
      var doc := c.documentCache.entries[docId];
      && r.value.coll.documentCache.entries == c.documentCache.entries[docId :=
           PresentedDocument(doc.presentedFields[subId := fields], doc.clientView + fields)]
      && r.value.coll.documentCache.keys == c.documentCache.keys
      && r.value.sent == ConsiderSending(c, Changed(docId, Some(fields), None))
  {
    match OM.Get(c.documentCache, docId)
    case Some(doc) =>
      if subId in doc.presentedFields then
        Throw("TODO: given 'added' for document that was already added")
      else
        var doc' := PresentedDocument(doc.presentedFields[subId := fields], doc.clientView + fields);
        Ok(Step(c.(documentCache := OM.Put(c.documentCache, docId, doc')),
                ConsiderSending(c, Changed(docId, Some(fields), None))))
    case None =>
      var doc := PresentedDocument(map[subId := fields], fields);
      Ok(Step(c.(documentCache := OM.Put(c.documentCache, docId, doc)),
              ConsiderSending(c, Added(docId, Some(fields)))))
  }

  /** The names in `fields` whose value is `undefined`. */
  function UndefinedKeys(fields: Fields): (r: set<string>)
    ensures forall k :: k in r <==> k in fields && fields[k] == Undefined
  {
    set k | k in fields && fields[k] == Undefined
  }

  /** The entries of `fields` whose value is not `undefined`. */
  function DefinedFields(fields: Fields): (r: Fields)
    ensures forall k :: k in r <==> k in fields && fields[k] != Undefined
    ensures forall k :: k in r ==> r[k] == fields[k]
  {
    map k | k in fields && fields[k] != Undefined :: fields[k]
  }

  /**
   * `changed`: a presenting subscriber updates fields.  `undefined` values
   * clear the field from the client view (the subscriber's own record keeps
   * it); other values are written to both.
   */
  function Change(c: PresentedCollection, subId: string, docId: string, fields: Fields): (r: Outcome<Step>)
    ensures docId !in c.documentCache.entries ==> r == Throw("BUG: got changed for unknown doc")
    ensures docId in c.documentCache.entries && subId !in c.documentCache.entries[docId].presentedFields ==>
      r == Throw("BUG: got changed for unpresented doc")
    ensures r.Ok? <==> docId in c.documentCache.entries && subId in c.documentCache.entries[docId].presentedFields
    ensures r.Ok? && fields == map[] ==> r.value == Step(c, [])
    ensures r.Ok? ==> docId in r.value.coll.documentCache.entries
    ensures r.Ok? && fields != map[] ==>
      var doc := c.documentCache.entries[docId];
      var doc' := r.value.coll.documentCache.entries[docId];
      && r.value.coll == c.(documentCache := r.value.coll.documentCache)
      && r.value.coll.documentCache.keys == c.documentCache.keys
      && r.value.coll.documentCache.entries == c.documentCache.entries[docId := doc']
      && doc'.presentedFields == doc.presentedFields[subId := doc.presentedFields[subId] + DefinedFields(fields)]
      && (forall k :: k in doc'.clientView <==> (k in doc.clientView || k in fields) && !(k in fields && fields[k] == Undefined))
      && (forall k :: k in doc'.clientView ==> doc'.clientView[k] == if k in fields then fields[k] else doc.clientView[k])
      && r.value.sent == ConsiderSending(c, Changed(docId, Some(fields),
           if UndefinedKeys(fields) == {} then None else Some(UndefinedKeys(fields))))
  {
    match OM.Get(c.documentCache, docId)
    case None => Throw("BUG: got changed for unknown doc")
    case Some(doc) =>
      if subId !in doc.presentedFields then Throw("BUG: got changed for unpresented doc")
      else if |fields| == 0 then Ok(Step(c, []))
      else
        var cleared := UndefinedKeys(fields);
        var written := DefinedFields(fields);
        var doc' := PresentedDocument(
          doc.presentedFields[subId := doc.presentedFields[subId] + written],
          (doc.clientView - cleared) + written);
        Ok(Step(c.(documentCache := OM.Put(c.documentCache, docId, doc')),
                ConsiderSending(c, Changed(docId, Some(fields), if cleared == {} then None else Some(cleared)))))
  }

  /** `removed` once its lookups succeeded. */
  function RemovePresent(c: PresentedCollection, subId: string, docId: string): (r: Step)
    requires docId in c.documentCache.entries && subId in c.documentCache.entries[docId].presentedFields
    ensures r.coll == c.(documentCache := r.coll.documentCache)
    ensures forall d :: d != docId ==> (d in r.coll.documentCache.entries <==> d in c.documentCache.entries)
    ensures forall d :: d != docId && d in c.documentCache.entries ==>
      r.coll.documentCache.entries[d] == c.documentCache.entries[d]
    // The last presenter: the document goes, with one `removed`.
    ensures c.documentCache.entries[docId].presentedFields - {subId} == map[] ==>
      && docId !in r.coll.documentCache.entries
      && r.coll.documentCache.keys == OM.Without(c.documentCache.keys, docId)
      && r.sent == ConsiderSending(c, Removed(docId))
    // Presenters remain: clear exactly the leaver's keys nobody else backs.
    ensures c.documentCache.entries[docId].presentedFields - {subId} != map[] ==>
      var doc := c.documentCache.entries[docId];
      var rest := doc.presentedFields - {subId};
      var gone := set k | k in doc.presentedFields[subId] && (forall s :: s in rest ==> k !in rest[s]);
      && docId in r.coll.documentCache.entries
      && r.coll.documentCache.keys == c.documentCache.keys
      && r.coll.documentCache.entries[docId] == PresentedDocument(rest, doc.clientView - gone)
      && r.sent == (if gone == {} then [] else ConsiderSending(c, Changed(docId, None, Some(gone))))
  {
    var doc := c.documentCache.entries[docId];
    var existing := doc.presentedFields[subId];
    var rest := doc.presentedFields - {subId};
    if |rest| == 0 then
      Step(c.(documentCache := OM.Delete(c.documentCache, docId)), ConsiderSending(c, Removed(docId)))
    else
      var remaining := BackedKeys(rest);
      var gone := existing.Keys - remaining;
      assert gone == set k | k in existing && (forall s :: s in rest ==> k !in rest[s]);
      var doc' := PresentedDocument(rest, doc.clientView - gone);
      Step(c.(documentCache := OM.Put(c.documentCache, docId, doc')),
           if |gone| > 0 then ConsiderSending(c, Changed(docId, None, Some(gone))) else [])
  }

  /** `removed`: a subscriber stops presenting a document. */
  function Remove(c: PresentedCollection, subId: string, docId: string): (r: Outcome<Step>)
    ensures docId !in c.documentCache.entries ==> r == Throw("BUG: got removed for unknown doc")
    ensures docId in c.documentCache.entries && subId !in c.documentCache.entries[docId].presentedFields ==>
      r == Throw("BUG: got removed for unpresented doc")
    ensures r.Ok? <==> docId in c.documentCache.entries && subId in c.documentCache.entries[docId].presentedFields
    ensures r.Ok? ==> r.value == RemovePresent(c, subId, docId)
  {
    match OM.Get(c.documentCache, docId)
    case None => Throw("BUG: got removed for unknown doc")
    case Some(doc) =>
      if subId !in doc.presentedFields then Throw("BUG: got removed for unpresented doc")
      else Ok(RemovePresent(c, subId, docId))
  }

  /** Visits `keys` in order, removing `subId` from each document it presents. */
  function DropSubVisit(c: PresentedCollection, subId: string, keys: seq<string>): (r: Step)
    ensures r.coll == c.(documentCache := r.coll.documentCache)
    decreases |keys|
  {
    if keys == [] then Step(c, [])
    else
      var d := keys[0];
      var first :=
        if d in c.documentCache.entries && subId in c.documentCache.entries[d].presentedFields
        then RemovePresent(c, subId, d) else Step(c, []);
      var rest := DropSubVisit(first.coll, subId, keys[1..]);
      Step(rest.coll, first.sent + rest.sent)
  }

  /** `dropSub`: `removed` for every document the subscriber presents, in cache order. */
  function DropSub(c: PresentedCollection, subId: string): (r: Step)
    ensures r.coll == c.(documentCache := r.coll.documentCache)
  {
    DropSubVisit(c, subId, c.documentCache.keys)
  }

  /*
   * A send throws once the connection is closed.  The engine sends from the
   * middle of an operation, so a throwing send leaves the engine as the
   * operation had changed it up to that send.  `changed` and `removed` with
   * presenters left send last; `added` and `removed` by the last presenter
   * do not.
   */

  /**
   * `added` halted at its send: a new presenter is recorded, the client view
   * is not yet merged.  A suspended engine sends nothing and so completes.
   */
  function AddHalted(c: PresentedCollection, subId: string, docId: string, fields: Fields): (r: PresentedCollection)
    requires Add(c, subId, docId, fields).Ok?
    ensures r == c.(documentCache := r.documentCache)
    ensures docId !in c.documentCache.entries || !c.isSending ==> r == Add(c, subId, docId, fields).value.coll
    ensures docId in c.documentCache.entries && c.isSending ==>
      var done := Add(c, subId, docId, fields).value.coll.documentCache;
      && r.documentCache.keys == done.keys
      && r.documentCache.entries == done.entries[docId :=
           done.entries[docId].(clientView := c.documentCache.entries[docId].clientView)]
  {
    match OM.Get(c.documentCache, docId)
    case Some(doc) =>
      if !c.isSending then Add(c, subId, docId, fields).value.coll
      else c.(documentCache := OM.Put(c.documentCache, docId, doc.(presentedFields := doc.presentedFields[subId := fields])))
    case None =>
      Add(c, subId, docId, fields).value.coll
  }

  /**
   * `removed` halted at its send: the last presenter's document stays cached
   * with no presenter.  A suspended engine sends nothing and so completes.
   */
  function RemoveHalted(c: PresentedCollection, subId: string, docId: string): (r: PresentedCollection)
    requires docId in c.documentCache.entries && subId in c.documentCache.entries[docId].presentedFields
    ensures r == c.(documentCache := r.documentCache)
    ensures c.documentCache.entries[docId].presentedFields - {subId} != map[] || !c.isSending ==>
      r == RemovePresent(c, subId, docId).coll
    ensures c.documentCache.entries[docId].presentedFields - {subId} == map[] && c.isSending ==>
      && r.documentCache.keys == c.documentCache.keys
      && r.documentCache.entries == RemovePresent(c, subId, docId).coll.documentCache.entries[docId :=
           PresentedDocument(map[], c.documentCache.entries[docId].clientView)]
  {
    var doc := c.documentCache.entries[docId];
    var rest := doc.presentedFields - {subId};
    if |rest| == 0 && c.isSending then c.(documentCache := OM.Put(c.documentCache, docId, doc.(presentedFields := rest)))
    else RemovePresent(c, subId, docId).coll
  }

  /** `dropSub` halted at its first send: the removals before it completed, that one halted. */
  function DropSubVisitHalted(c: PresentedCollection, subId: string, keys: seq<string>): (r: PresentedCollection)
    ensures r == c.(documentCache := r.documentCache)
    ensures DropSubVisit(c, subId, keys).sent == [] ==> r == DropSubVisit(c, subId, keys).coll
    decreases |keys|
  {
    if keys == [] then c
    else
      var d := keys[0];
      if d in c.documentCache.entries && subId in c.documentCache.entries[d].presentedFields then
        var first := RemovePresent(c, subId, d);
        if first.sent != [] then RemoveHalted(c, subId, d)
        else DropSubVisitHalted(first.coll, subId, keys[1..])
      else DropSubVisitHalted(c, subId, keys[1..])
  }

  function DropSubHalted(c: PresentedCollection, subId: string): (r: PresentedCollection)
    ensures r == c.(documentCache := r.documentCache)
    ensures DropSub(c, subId).sent == [] ==> r == DropSub(c, subId).coll
  {
    DropSubVisitHalted(c, subId, c.documentCache.keys)
  }

  /** `startRerun`: suspend sending and move the cache aside as the "before" snapshot. */
  function StartRerun(c: PresentedCollection): (r: PresentedCollection)
    ensures !r.isSending && r.collection == c.collection
    ensures r.beforeView == c.documentCache
    ensures r.documentCache.entries == map[]
  {
    c.(isSending := false, beforeView := c.documentCache, documentCache := OM.Empty())
  }

  /**
   * The packet for a document both before and after a rerun, as written: it
   * keeps the after-fields that are new or EQUAL to before (dropping changed
   * ones), and computes the cleared names against the array indices of the
   * after-entries rather than their names.
   */
  function DiffBoth(collection: string, docId: string, before: Fields, after: Fields): (r: seq<ServerPacket>)
    ensures |r| <= 1
    ensures forall p :: p in r ==> p.Doc? && p.collection == collection && p.change.Changed? && p.change.id == docId
  {
    var kept := map k | k in after && (k !in before || before[k] == Undefined || before[k] == after[k]) :: after[k];
    var cleared := before.Keys - IndexKeys(|after|);
    if |kept| > 0 || |cleared| > 0 then
      [Doc(collection, Changed(docId, Some(kept), if |cleared| > 0 then Some(cleared) else None))]
    else []
  }

  /** `diffMaps`' first pass: every key of the left map, in order. */
  function DiffLeft(collection: string, left: DocumentCache, right: DocumentCache, keys: seq<string>): (r: seq<ServerPacket>)
    requires forall k :: k in keys ==> k in left.entries
    ensures forall p :: p in r ==> p.Doc? && p.collection == collection && p.change.id in keys
    ensures forall p :: p in r ==> !p.change.Added?
    ensures forall d :: Doc(collection, Removed(d)) in r <==> d in keys && d !in right.entries
    decreases |keys|
  {
    if keys == [] then []
    else
      var k := keys[0];
      var here :=
        if k in right.entries
        then DiffBoth(collection, k, left.entries[k].clientView, right.entries[k].clientView)
        else [Doc(collection, Removed(k))];
      here + DiffLeft(collection, left, right, keys[1..])
  }

  /** `diffMaps`' second pass: the keys only the right map has, in order. */
  function DiffRight(collection: string, left: DocumentCache, right: DocumentCache, keys: seq<string>): (r: seq<ServerPacket>)
    requires forall k :: k in keys ==> k in right.entries
    ensures forall p :: p in r ==> p.Doc? && p.collection == collection && p.change.id in keys && p.change.id !in left.entries
    ensures forall p :: p in r ==> p.change == Added(p.change.id, Some(right.entries[p.change.id].clientView))
    ensures forall d :: d in keys && d !in left.entries ==> Doc(collection, Added(d, Some(right.entries[d].clientView))) in r
    decreases |keys|
  {
    if keys == [] then []
    else
      var k := keys[0];
      var here := if k in left.entries then [] else [Doc(collection, Added(k, Some(right.entries[k].clientView)))];
      here + DiffRight(collection, left, right, keys[1..])
  }

  /** `flushRerun`: resume sending, diff the snapshot against the rebuilt cache, drop the snapshot. */
  function FlushRerun(c: PresentedCollection): (r: Step)
    ensures r.coll.isSending
    ensures r.coll.beforeView.entries == map[]
    ensures r.coll.documentCache == c.documentCache && r.coll.collection == c.collection
    ensures forall p :: p in r.sent ==> p.Doc? && p.collection == c.collection
    // Documents only in the snapshot are removed; documents only in the rebuilt cache are added whole.
    ensures forall d :: Doc(c.collection, Removed(d)) in r.sent <==>
      d in c.beforeView.entries && d !in c.documentCache.entries
    ensures forall d, f :: Doc(c.collection, Added(d, f)) in r.sent <==>
      d in c.documentCache.entries && d !in c.beforeView.entries && f == Some(c.documentCache.entries[d].clientView)
  {
    var before := c.beforeView;
    var after := c.documentCache;
    var sent := DiffLeft(c.collection, before, after, before.keys) + DiffRight(c.collection, before, after, after.keys);
    Step(c.(isSending := true, beforeView := OM.Empty()), sent)
  }
}

=== FILE: publishing_props.dfy ===
/**
 * Properties of the merge engine: the presenter invariant it keeps, that a
 * suspended engine still updates its state, what `dropSub` and `flushRerun`
 * leave behind, and that its packets keep a DDP client's copy of the
 * collection equal to the merged view.
 */
module PublishingProps {
  import opened Wrappers
  import opened Values
  import opened Wire
  import OM = OrderedMaps
  import opened Publishing

  /** Every document has a presenter, and every field in its view is backed by one. */
  ghost predicate DocValid(d: PresentedDocument) {
    && d.presentedFields != map[]
    && d.clientView.Keys <= BackedKeys(d.presentedFields)
  }

  ghost predicate CacheValid(m: DocumentCache) {
    forall d :: d in m.entries ==> DocValid(m.entries[d])
  }

  ghost predicate Valid(c: PresentedCollection) {
    CacheValid(c.documentCache) && CacheValid(c.beforeView)
  }

  lemma NewCollectionValid(name: string)
    ensures Valid(NewCollection(name))
  {
  }

  lemma AddPreservesValid(c: PresentedCollection, subId: string, docId: string, fields: Fields)
    requires Valid(c)
    requires Add(c, subId, docId, fields).Ok?
    ensures Valid(Add(c, subId, docId, fields).value.coll)
  {
    var r := Add(c, subId, docId, fields).value.coll;
    var doc' := r.documentCache.entries[docId];
    forall k | k in doc'.clientView ensures k in BackedKeys(doc'.presentedFields) {
      if k in fields {
        assert k in doc'.presentedFields[subId];
      } else {
        var doc := c.documentCache.entries[docId];
        assert k in doc.clientView;
        var s :| s in doc.presentedFields && k in doc.presentedFields[s];
        assert s != subId;
        assert k in doc'.presentedFields[s];
      }
    }
    assert subId in doc'.presentedFields;
    assert DocValid(doc');
    forall d | d in r.documentCache.entries ensures DocValid(r.documentCache.entries[d]) {
      if d != docId {
        assert r.documentCache.entries[d] == c.documentCache.entries[d];
      }
    }
  }

  lemma ChangePreservesValid(c: PresentedCollection, subId: string, docId: string, fields: Fields)
    requires Valid(c)
    requires Change(c, subId, docId, fields).Ok?
    ensures Valid(Change(c, subId, docId, fields).value.coll)
  {
    var r := Change(c, subId, docId, fields).value.coll;
    if fields != map[] {
      var doc := c.documentCache.entries[docId];
      var doc' := r.documentCache.entries[docId];
      forall k | k in doc'.clientView ensures k in BackedKeys(doc'.presentedFields) {
        if k in fields {
          assert k in DefinedFields(fields);
          assert k in doc'.presentedFields[subId];
        } else {
          var s :| s in doc.presentedFields && k in doc.presentedFields[s];
          assert k in doc'.presentedFields[s];
        }
      }
    }
  }

  lemma RemovePresentPreservesValid(c: PresentedCollection, subId: string, docId: string)
    requires Valid(c)
    requires docId in c.documentCache.entries && subId in c.documentCache.entries[docId].presentedFields
    ensures Valid(RemovePresent(c, subId, docId).coll)
  {
    var r := RemovePresent(c, subId, docId).coll;
    var doc := c.documentCache.entries[docId];
    var rest := doc.presentedFields - {subId};
    if rest != map[] {
      var gone := set k | k in doc.presentedFields[subId] && (forall s :: s in rest ==> k !in rest[s]);
      var doc' := r.documentCache.entries[docId];
      assert doc' == PresentedDocument(rest, doc.clientView - gone);
      forall k | k in doc'.clientView ensures k in BackedKeys(rest) {
        assert k in doc.clientView && k !in gone;
        KeptKeyBacked(doc, subId, rest, gone, k);
      }
      assert DocValid(doc');
    }
    forall d | d in r.documentCache.entries ensures DocValid(r.documentCache.entries[d]) {
      if d != docId {
        assert r.documentCache.entries[d] == c.documentCache.entries[d];
      }
    }
  }

  /** A view field that `removed` does not clear is still backed by a remaining presenter. */
  lemma KeptKeyBacked(doc: PresentedDocument, subId: string, rest: map<string, Fields>, gone: set<string>, k: string)
    requires DocValid(doc) && subId in doc.presentedFields
    requires rest == doc.presentedFields - {subId}
    requires gone == set k | k in doc.presentedFields[subId] && (forall s :: s in rest ==> k !in rest[s])
    requires k in doc.clientView && k !in gone
    ensures k in BackedKeys(rest)
  {
    var s :| s in doc.presentedFields && k in doc.presentedFields[s];
    if s != subId {
      assert k in rest[s];
    } else {
      var s' :| s' in rest && k in rest[s'];
    }
  }

  lemma {:induction false} DropSubVisitPreservesValid(c: PresentedCollection, subId: string, keys: seq<string>)
    requires Valid(c)
    ensures Valid(DropSubVisit(c, subId, keys).coll)
    decreases |keys|
  {
    if keys != [] {
      var d := keys[0];
      if d in c.documentCache.entries && subId in c.documentCache.entries[d].presentedFields {
        RemovePresentPreservesValid(c, subId, d);
        DropSubVisitPreservesValid(RemovePresent(c, subId, d).coll, subId, keys[1..]);
      } else {
        DropSubVisitPreservesValid(c, subId, keys[1..]);
      }
    }
  }

  lemma DropSubPreservesValid(c: PresentedCollection, subId: string)
    requires Valid(c)
    ensures Valid(DropSub(c, subId).coll)
  {
    DropSubVisitPreservesValid(c, subId, c.documentCache.keys);
  }

  lemma RerunPreservesValid(c: PresentedCollection)
    requires Valid(c)
    ensures Valid(StartRerun(c))
    ensures Valid(FlushRerun(c).coll)
  {
  }

  /** Documents outside `keys` are untouched by the visit. */
  lemma {:induction false} DropSubVisitLeavesOthers(c: PresentedCollection, subId: string, keys: seq<string>)
    ensures var r := DropSubVisit(c, subId, keys).coll.documentCache;
      forall d :: d !in keys ==>
        && (d in r.entries <==> d in c.documentCache.entries)
        && (d in r.entries ==> r.entries[d] == c.documentCache.entries[d])
    decreases |keys|
  {
    if keys != [] {
      var d := keys[0];
      var first :=
        if d in c.documentCache.entries && subId in c.documentCache.entries[d].presentedFields
        then RemovePresent(c, subId, d) else Step(c, []);
      assert DropSubVisit(c, subId, keys).coll == DropSubVisit(first.coll, subId, keys[1..]).coll;
      DropSubVisitLeavesOthers(first.coll, subId, keys[1..]);
    }
  }

  /** `d` in `after` is `d` in `before` with `subId`'s contribution gone, and gone itself if that was all. */
  ghost predicate Dropped(before: DocumentCache, after: DocumentCache, subId: string, d: string) {
    && (d in after.entries <==>
          d in before.entries && before.entries[d].presentedFields - {subId} != map[])
    && (d in after.entries ==>
          after.entries[d].presentedFields == before.entries[d].presentedFields - {subId})
  }

  /**
   * A visited document loses `subId`, and goes exactly when nobody else
   * presents it.
   */
  lemma {:induction false} DropSubVisitEffect(c: PresentedCollection, subId: string, keys: seq<string>)
    requires Valid(c)
    requires OM.Distinct(keys)
    ensures forall d :: d in keys ==> Dropped(c.documentCache, DropSubVisit(c, subId, keys).coll.documentCache, subId, d)
    decreases |keys|, 1
  {
    if keys != [] {
      var k := keys[0];
      if k in c.documentCache.entries && subId in c.documentCache.entries[k].presentedFields {
        DropSubVisitEffectPresented(c, subId, keys);
      } else {
        DropSubVisitEffectSkipped(c, subId, keys);
      }
    }
  }

  lemma {:induction false} DropSubVisitEffectPresented(c: PresentedCollection, subId: string, keys: seq<string>)
    requires Valid(c)
    requires OM.Distinct(keys)
    requires keys != [] && keys[0] in c.documentCache.entries
    requires subId in c.documentCache.entries[keys[0]].presentedFields
    ensures forall d :: d in keys ==> Dropped(c.documentCache, DropSubVisit(c, subId, keys).coll.documentCache, subId, d)
    decreases |keys|, 0
  {
    var k := keys[0];
    assert k !in keys[1..];
    var first := RemovePresent(c, subId, k);
    RemovePresentPreservesValid(c, subId, k);
    var r := DropSubVisit(c, subId, keys).coll.documentCache;
    assert r == DropSubVisit(first.coll, subId, keys[1..]).coll.documentCache;
    DropSubVisitEffect(first.coll, subId, keys[1..]);
    DropSubVisitLeavesOthers(first.coll, subId, keys[1..]);
    forall d | d in keys ensures Dropped(c.documentCache, r, subId, d) {
      if d != k {
        assert d in keys[1..];
        assert Dropped(first.coll.documentCache, r, subId, d);
      }
    }
  }

  lemma {:induction false} DropSubVisitEffectSkipped(c: PresentedCollection, subId: string, keys: seq<string>)
    requires Valid(c)
    requires OM.Distinct(keys)
    requires keys != []
    requires !(keys[0] in c.documentCache.entries && subId in c.documentCache.entries[keys[0]].presentedFields)
    ensures forall d :: d in keys ==> Dropped(c.documentCache, DropSubVisit(c, subId, keys).coll.documentCache, subId, d)
    decreases |keys|, 0
  {
    var k := keys[0];
    assert k !in keys[1..];
    var r := DropSubVisit(c, subId, keys).coll.documentCache;
    assert r == DropSubVisit(c, subId, keys[1..]).coll.documentCache;
    DropSubVisitEffect(c, subId, keys[1..]);
    DropSubVisitLeavesOthers(c, subId, keys[1..]);
    if k in c.documentCache.entries {
      assert DocValid(c.documentCache.entries[k]);
      assert c.documentCache.entries[k].presentedFields - {subId} == c.documentCache.entries[k].presentedFields;
    }
    forall d | d in keys ensures Dropped(c.documentCache, r, subId, d) {
      if d != k {
        assert d in keys[1..];
      }
    }
  }

  /** `dropSub` leaves no document presented by the subscriber, and leaves every other contribution alone. */
  lemma DropSubEffect(c: PresentedCollection, subId: string)
    requires Valid(c)
    ensures var r := DropSub(c, subId).coll.documentCache;
      && (forall d :: d in r.entries ==> subId !in r.entries[d].presentedFields)
      && (forall d :: d in r.entries <==>
            d in c.documentCache.entries && c.documentCache.entries[d].presentedFields - {subId} != map[])
      && (forall d :: d in r.entries ==>
            r.entries[d].presentedFields == c.documentCache.entries[d].presentedFields - {subId})
  {
    var r := DropSub(c, subId).coll.documentCache;
    DropSubVisitEffect(c, subId, c.documentCache.keys);
    DropSubVisitLeavesOthers(c, subId, c.documentCache.keys);
    assert OM.WellFormed(c.documentCache);
    forall d ensures Dropped(c.documentCache, r, subId, d) {
      if d !in c.documentCache.keys {
        assert d !in c.documentCache.entries;
      }
    }
  }

  // ---------------------------------------------------------------------------
  // Suspended sending

  /** While suspended, `dropSub` sends nothing yet updates the state as if sending. */
  lemma {:induction false} DropSubVisitSuspended(c: PresentedCollection, subId: string, keys: seq<string>)
    requires !c.isSending
    ensures DropSubVisit(c, subId, keys).sent == []
    ensures DropSubVisit(c.(isSending := true), subId, keys).coll ==
            DropSubVisit(c, subId, keys).coll.(isSending := true)
    decreases |keys|
  {
    if keys != [] {
      var d := keys[0];
      if d in c.documentCache.entries && subId in c.documentCache.entries[d].presentedFields {
        var next := RemovePresent(c, subId, d).coll;
        assert RemovePresent(c.(isSending := true), subId, d).coll == next.(isSending := true);
        DropSubVisitSuspended(next, subId, keys[1..]);
      } else {
        DropSubVisitSuspended(c, subId, keys[1..]);
      }
    }
  }

  /** While suspended, `added` sends nothing and updates the state as if sending. */
  lemma SuspendedAdd(c: PresentedCollection, subId: string, docId: string, fields: Fields)
    requires !c.isSending
    requires Add(c, subId, docId, fields).Ok?
    ensures Add(c, subId, docId, fields).value.sent == []
    ensures Add(c.(isSending := true), subId, docId, fields).value.coll ==
            Add(c, subId, docId, fields).value.coll.(isSending := true)
  {
  }

  /** While suspended, `changed` sends nothing and updates the state as if sending. */
  lemma SuspendedChange(c: PresentedCollection, subId: string, docId: string, fields: Fields)
    requires !c.isSending
    requires Change(c, subId, docId, fields).Ok?
    ensures Change(c, subId, docId, fields).value.sent == []
    ensures Change(c.(isSending := true), subId, docId, fields).value.coll ==
            Change(c, subId, docId, fields).value.coll.(isSending := true)
  {
  }

  /** While suspended, `removed` sends nothing and updates the state as if sending. */
  lemma SuspendedRemove(c: PresentedCollection, subId: string, docId: string)
    requires !c.isSending
    requires Remove(c, subId, docId).Ok?
    ensures Remove(c, subId, docId).value.sent == []
    ensures Remove(c.(isSending := true), subId, docId).value.coll ==
            Remove(c, subId, docId).value.coll.(isSending := true)
  {
  }

  /** While suspended, `dropSub` sends nothing and updates the state as if sending. */
  lemma SuspendedDropSub(c: PresentedCollection, subId: string)
    requires !c.isSending
    ensures DropSub(c, subId).sent == []
    ensures DropSub(c.(isSending := true), subId).coll == DropSub(c, subId).coll.(isSending := true)
  {
    DropSubVisitSuspended(c, subId, c.documentCache.keys);
  }

  // ---------------------------------------------------------------------------
  // The client's copy of the collection

  /** How a DDP client applies a document packet to its copy of a collection. */
  function ApplyChange(mirror: map<string, Fields>, change: DocumentChange): map<string, Fields> {
    match change
    case Added(id, f) => mirror[id := f.GetOr(map[])]
    case Changed(id, f, cleared) =>
      if id in mirror then mirror[id := (mirror[id] + f.GetOr(map[])) - cleared.GetOr({})] else mirror
    case Removed(id) => mirror - {id}
    case AddedBefore(_, _, _) => mirror
    case MovedBefore(_, _) => mirror
  }

  /** The client's copy after receiving `packets` in order. */
  function Replay(mirror: map<string, Fields>, packets: seq<ServerPacket>): map<string, Fields>
    decreases |packets|
  {
    if packets == [] then mirror
    else
      var next := if packets[0].Doc? then ApplyChange(mirror, packets[0].change) else mirror;
      Replay(next, packets[1..])
  }

  lemma {:induction false} ReplayAppend(mirror: map<string, Fields>, a: seq<ServerPacket>, b: seq<ServerPacket>)
    ensures Replay(mirror, a + b) == Replay(Replay(mirror, a), b)
    decreases |a|
  {
    if a == [] {
      assert a + b == b;
    } else {
      assert (a + b)[0] == a[0];
      assert (a + b)[1..] == a[1..] + b;
      var next := if a[0].Doc? then ApplyChange(mirror, a[0].change) else mirror;
      ReplayAppend(next, a[1..], b);
      calc {
        Replay(mirror, a + b);
        Replay(next, (a + b)[1..]);
        Replay(next, a[1..] + b);
        Replay(Replay(next, a[1..]), b);
        Replay(Replay(mirror, a), b);
      }
    }
  }

  /** The merged views: what a client in sync with the engine holds. */
  function MirrorOf(cache: DocumentCache): map<string, Fields> {
    map d | d in cache.entries :: cache.entries[d].clientView
  }

  lemma ReplayOne(mirror: map<string, Fields>, p: ServerPacket)
    ensures Replay(mirror, [p]) == if p.Doc? then ApplyChange(mirror, p.change) else mirror
  {
    assert [p][1..] == [];
  }

  /** Replacing one document changes one entry of the mirror. */
  lemma MirrorPut(cache: DocumentCache, cache': DocumentCache, docId: string)
    requires docId in cache'.entries
    requires forall d :: d != docId ==> (d in cache'.entries <==> d in cache.entries)
    requires forall d :: d != docId && d in cache.entries ==> cache'.entries[d] == cache.entries[d]
    ensures MirrorOf(cache') == MirrorOf(cache)[docId := cache'.entries[docId].clientView]
  {
  }

  /** Dropping one document drops one entry of the mirror. */
  lemma MirrorDelete(cache: DocumentCache, cache': DocumentCache, docId: string)
    requires docId !in cache'.entries
    requires forall d :: d != docId ==> (d in cache'.entries <==> d in cache.entries)
    requires forall d :: d != docId && d in cache.entries ==> cache'.entries[d] == cache.entries[d]
    ensures MirrorOf(cache') == MirrorOf(cache) - {docId}
  {
  }

  /** A sending `added` brings an in-sync client to the new merged view. */
  lemma AddKeepsClientInSync(c: PresentedCollection, subId: string, docId: string, fields: Fields)
    requires c.isSending
    requires Add(c, subId, docId, fields).Ok?
    ensures var r := Add(c, subId, docId, fields).value;
      Replay(MirrorOf(c.documentCache), r.sent) == MirrorOf(r.coll.documentCache)
  {
    var r := Add(c, subId, docId, fields).value;
    var m := MirrorOf(c.documentCache);
    ReplayOne(m, r.sent[0]);
    assert r.sent == [r.sent[0]];
    MirrorPut(c.documentCache, r.coll.documentCache, docId);
    if docId in c.documentCache.entries {
      assert (m[docId] + fields) - {} == m[docId] + fields;
    }
  }

  /** Writing `fields` then clearing their `undefined` names is the engine's merge. */
  lemma MergeThenClear(view: Fields, view': Fields, fields: Fields)
    requires forall k :: k in view' <==> (k in view || k in fields) && !(k in fields && fields[k] == Undefined)
    requires forall k :: k in view' ==> view'[k] == if k in fields then fields[k] else view[k]
    ensures (view + fields) - UndefinedKeys(fields) == view'
  {
  }

  /** A sending `changed` brings an in-sync client to the new merged view. */
  lemma ChangeKeepsClientInSync(c: PresentedCollection, subId: string, docId: string, fields: Fields)
    requires c.isSending
    requires Change(c, subId, docId, fields).Ok?
    ensures var r := Change(c, subId, docId, fields).value;
      Replay(MirrorOf(c.documentCache), r.sent) == MirrorOf(r.coll.documentCache)
  {
    var r := Change(c, subId, docId, fields).value;
    if fields != map[] {
      ChangedPacketSyncs(c.documentCache, r.coll.documentCache, docId, fields, r.sent);
    }
  }

  /** The step of `ChangeKeepsClientInSync` for non-empty fields, stated over the two caches. */
  lemma ChangedPacketSyncs(cache: DocumentCache, cache': DocumentCache, docId: string, fields: Fields, sent: seq<ServerPacket>)
    requires docId in cache.entries && docId in cache'.entries
    requires forall d :: d != docId ==> (d in cache'.entries <==> d in cache.entries)
    requires forall d :: d != docId && d in cache.entries ==> cache'.entries[d] == cache.entries[d]
    requires var view := cache.entries[docId].clientView;
      var view' := cache'.entries[docId].clientView;
      && (forall k :: k in view' <==> (k in view || k in fields) && !(k in fields && fields[k] == Undefined))
      && (forall k :: k in view' ==> view'[k] == if k in fields then fields[k] else view[k])
    requires |sent| == 1 && sent[0].Doc?
    requires sent[0].change == Changed(docId, Some(fields), if UndefinedKeys(fields) == {} then None else Some(UndefinedKeys(fields)))
    ensures Replay(MirrorOf(cache), sent) == MirrorOf(cache')
  {
    var m := MirrorOf(cache);
    assert sent == [sent[0]];
    ReplayOne(m, sent[0]);
    var view := cache.entries[docId].clientView;
    var view' := cache'.entries[docId].clientView;
    MergeThenClear(view, view', fields);
    assert docId in m && m[docId] == view;
    assert ApplyChange(m, sent[0].change) == m[docId := view'];
    MirrorPut(cache, cache', docId);
  }


  /** A sending `removed` by the last presenter brings an in-sync client to the new merged view. */
  lemma RemoveLastKeepsClientInSync(c: PresentedCollection, subId: string, docId: string)
    requires c.isSending
    requires docId in c.documentCache.entries && subId in c.documentCache.entries[docId].presentedFields
    requires c.documentCache.entries[docId].presentedFields - {subId} == map[]
    ensures var r := RemovePresent(c, subId, docId);
      Replay(MirrorOf(c.documentCache), r.sent) == MirrorOf(r.coll.documentCache)
  {
    var r := RemovePresent(c, subId, docId);
    MirrorDelete(c.documentCache, r.coll.documentCache, docId);
    assert r.sent == [Doc(c.collection, Removed(docId))];
    ReplayOne(MirrorOf(c.documentCache), r.sent[0]);
  }

  /**
   * Removing no names from, and merging no fields into, a view leaves it as
   * it was.  Kept apart so that the map equalities are not re-derived inside
   * the larger proofs below.
   */
  lemma EmptyEditsChangeNothing(m: Fields)
    ensures m - {} == m && m + map[] == m
  {
  }

  /** A sending `removed` while others present brings an in-sync client to the new merged view. */
  lemma RemoveSomeKeepsClientInSync(c: PresentedCollection, subId: string, docId: string)
    requires c.isSending
    requires docId in c.documentCache.entries && subId in c.documentCache.entries[docId].presentedFields
    requires c.documentCache.entries[docId].presentedFields - {subId} != map[]
    ensures var r := RemovePresent(c, subId, docId);
      Replay(MirrorOf(c.documentCache), r.sent) == MirrorOf(r.coll.documentCache)
  {
    var r := RemovePresent(c, subId, docId);
    var m := MirrorOf(c.documentCache);
    var doc := c.documentCache.entries[docId];
    var rest := doc.presentedFields - {subId};
    var gone := set k | k in doc.presentedFields[subId] && (forall s :: s in rest ==> k !in rest[s]);
    assert r.coll.documentCache.entries[docId] == PresentedDocument(rest, doc.clientView - gone);
    MirrorPut(c.documentCache, r.coll.documentCache, docId);
    assert MirrorOf(r.coll.documentCache) == m[docId := doc.clientView - gone];
    assert docId in m && m[docId] == doc.clientView;
    if gone == {} {
      assert r.sent == [];
      EmptyEditsChangeNothing(doc.clientView);
      assert m[docId := doc.clientView] == m;
    } else {
      var p := Doc(c.collection, Changed(docId, None, Some(gone)));
      assert r.sent == [p];
      ReplayOne(m, p);
      EmptyEditsChangeNothing(doc.clientView);
      assert ApplyChange(m, p.change) == m[docId := doc.clientView - gone];
    }
  }

  /** A sending `removed` brings an in-sync client to the new merged view. */
  lemma RemoveKeepsClientInSync(c: PresentedCollection, subId: string, docId: string)
    requires c.isSending
    requires docId in c.documentCache.entries && subId in c.documentCache.entries[docId].presentedFields
    ensures var r := RemovePresent(c, subId, docId);
      Replay(MirrorOf(c.documentCache), r.sent) == MirrorOf(r.coll.documentCache)
  {
    if c.documentCache.entries[docId].presentedFields - {subId} == map[] {
      RemoveLastKeepsClientInSync(c, subId, docId);
    } else {
      RemoveSomeKeepsClientInSync(c, subId, docId);
    }
  }

  lemma {:induction false} DropSubVisitKeepsClientInSync(c: PresentedCollection, subId: string, keys: seq<string>)
    requires c.isSending
    ensures var r := DropSubVisit(c, subId, keys);
      Replay(MirrorOf(c.documentCache), r.sent) == MirrorOf(r.coll.documentCache)
    decreases |keys|
  {
    if keys != [] {
      var d := keys[0];
      var first :=
        if d in c.documentCache.entries && subId in c.documentCache.entries[d].presentedFields
        then RemovePresent(c, subId, d) else Step(c, []);
      if d in c.documentCache.entries && subId in c.documentCache.entries[d].presentedFields {
        RemoveKeepsClientInSync(c, subId, d);
      }
      var rest := DropSubVisit(first.coll, subId, keys[1..]);
      DropSubVisitKeepsClientInSync(first.coll, subId, keys[1..]);
      ReplayAppend(MirrorOf(c.documentCache), first.sent, rest.sent);
    }
  }

  /** A sending `dropSub` brings an in-sync client to the new merged view. */
  lemma DropSubKeepsClientInSync(c: PresentedCollection, subId: string)
    requires c.isSending
    ensures var r := DropSub(c, subId);
      Replay(MirrorOf(c.documentCache), r.sent) == MirrorOf(r.coll.documentCache)
  {
    DropSubVisitKeepsClientInSync(c, subId, c.documentCache.keys);
  }

  // ---------------------------------------------------------------------------
  // Rerun diffs

  /** Packets that only touch document `k`, and leave its presence alone. */
  lemma {:induction false} ReplayChangedOnly(m: map<string, Fields>, ps: seq<ServerPacket>, k: string)
    requires forall p :: p in ps ==> p.Doc? && p.change.Changed? && p.change.id == k
    ensures var r := Replay(m, ps);
      && r.Keys == m.Keys
      && forall d :: d != k && d in m ==> r[d] == m[d]
    decreases |ps|
  {
    if ps != [] {
      assert ps[0] in ps;
      var next := ApplyChange(m, ps[0].change);
      assert forall p :: p in ps[1..] ==> p in ps;
      ReplayChangedOnly(next, ps[1..], k);
    }
  }

  /** Replaying the first diff pass: documents gone from `right` leave the copy, the rest keep their place. */
  lemma {:induction false} ReplayDiffLeft(m: map<string, Fields>, collection: string, left: DocumentCache, right: DocumentCache, keys: seq<string>)
    requires forall k :: k in keys ==> k in left.entries
    requires OM.Distinct(keys)
    ensures var r := Replay(m, DiffLeft(collection, left, right, keys));
      && (forall d :: d in r <==> d in m && !(d in keys && d !in right.entries))
      && (forall d :: d !in keys && d in m ==> r[d] == m[d])
    decreases |keys|
  {
    if keys == [] {
      assert DiffLeft(collection, left, right, keys) == [];
    } else {
      var k := keys[0];
      assert k !in keys[1..];
      var here :=
        if k in right.entries
        then DiffBoth(collection, k, left.entries[k].clientView, right.entries[k].clientView)
        else [Doc(collection, Removed(k))];
      var rest := DiffLeft(collection, left, right, keys[1..]);
      assert DiffLeft(collection, left, right, keys) == here + rest;
      ReplayAppend(m, here, rest);
      var m1 := Replay(m, here);
      if k in right.entries {
        ReplayChangedOnly(m, here, k);
      } else {
        ReplayOne(m, Doc(collection, Removed(k)));
      }
      ReplayDiffLeft(m1, collection, left, right, keys[1..]);
    }
  }

  /** Replaying the second diff pass: documents new in `right` arrive whole. */
  lemma {:induction false} ReplayDiffRight(m: map<string, Fields>, collection: string, left: DocumentCache, right: DocumentCache, keys: seq<string>)
    requires forall k :: k in keys ==> k in right.entries
    ensures var r := Replay(m, DiffRight(collection, left, right, keys));
      && (forall d :: d in r <==> d in m || (d in keys && d !in left.entries))
      && (forall d :: d in keys && d !in left.entries ==> r[d] == right.entries[d].clientView)
      && (forall d :: !(d in keys && d !in left.entries) && d in m ==> r[d] == m[d])
    decreases |keys|
  {
    if keys == [] {
      assert DiffRight(collection, left, right, keys) == [];
    } else {
      var k := keys[0];
      var here := if k in left.entries then [] else [Doc(collection, Added(k, Some(right.entries[k].clientView)))];
      var rest := DiffRight(collection, left, right, keys[1..]);
      assert DiffRight(collection, left, right, keys) == here + rest;
      ReplayAppend(m, here, rest);
      if k !in left.entries {
        ReplayOne(m, here[0]);
      }
      ReplayDiffRight(Replay(m, here), collection, left, right, keys[1..]);
    }
  }

  /**
   * After `flushRerun` a client that held the snapshot holds exactly the
   * rebuilt documents, and every newly arrived one in full.
   */
  lemma FlushRerunRebuildsDocumentSet(c: PresentedCollection)
    ensures var r := Replay(MirrorOf(c.beforeView), FlushRerun(c).sent);
      && r.Keys == c.documentCache.entries.Keys
      && forall d :: d in c.documentCache.entries && d !in c.beforeView.entries ==>
           r[d] == c.documentCache.entries[d].clientView
  {
    var before := c.beforeView;
    var after := c.documentCache;
    var m := MirrorOf(before);
    var left := DiffLeft(c.collection, before, after, before.keys);
    var right := DiffRight(c.collection, before, after, after.keys);
    assert FlushRerun(c).sent == left + right;
    ReplayAppend(m, left, right);
    ReplayDiffLeft(m, c.collection, before, after, before.keys);
    ReplayDiffRight(Replay(m, left), c.collection, before, after, after.keys);
    assert OM.WellFormed(before) && OM.WellFormed(after);
  }

  /** No two packets in `ps` are about the same document. */
  ghost predicate OncePerDocument(ps: seq<ServerPacket>) {
    forall i, j :: 0 <= i < j < |ps| && ps[i].Doc? && ps[j].Doc? ==> ps[i].change.id != ps[j].change.id
  }

  lemma OncePerDocumentAppend(a: seq<ServerPacket>, b: seq<ServerPacket>)
    requires OncePerDocument(a) && OncePerDocument(b)
    requires forall p, q :: p in a && q in b && p.Doc? && q.Doc? ==> p.change.id != q.change.id
    ensures OncePerDocument(a + b)
  {
    forall i, j | 0 <= i < j < |a + b| && (a + b)[i].Doc? && (a + b)[j].Doc?
      ensures (a + b)[i].change.id != (a + b)[j].change.id
    {
      if j < |a| {
        assert (a + b)[i] == a[i] && (a + b)[j] == a[j];
      } else if i < |a| {
        assert (a + b)[i] in a && (a + b)[j] == b[j - |a|];
      } else {
        assert (a + b)[i] == b[i - |a|] && (a + b)[j] == b[j - |a|];
      }
    }
  }

  lemma {:induction false} DiffLeftOncePerDocument(collection: string, left: DocumentCache, right: DocumentCache, keys: seq<string>)
    requires forall k :: k in keys ==> k in left.entries
    requires OM.Distinct(keys)
    ensures OncePerDocument(DiffLeft(collection, left, right, keys))
    decreases |keys|
  {
    if keys != [] {
      var k := keys[0];
      assert k !in keys[1..];
      var here :=
        if k in right.entries
        then DiffBoth(collection, k, left.entries[k].clientView, right.entries[k].clientView)
        else [Doc(collection, Removed(k))];
      var rest := DiffLeft(collection, left, right, keys[1..]);
      DiffLeftOncePerDocument(collection, left, right, keys[1..]);
      OncePerDocumentAppend(here, rest);
    }
  }

  lemma {:induction false} DiffRightOncePerDocument(collection: string, left: DocumentCache, right: DocumentCache, keys: seq<string>)
    requires forall k :: k in keys ==> k in right.entries
    requires OM.Distinct(keys)
    ensures OncePerDocument(DiffRight(collection, left, right, keys))
    decreases |keys|
  {
    if keys != [] {
      var k := keys[0];
      assert k !in keys[1..];
      var here := if k in left.entries then [] else [Doc(collection, Added(k, Some(right.entries[k].clientView)))];
      var rest := DiffRight(collection, left, right, keys[1..]);
      DiffRightOncePerDocument(collection, left, right, keys[1..]);
      OncePerDocumentAppend(here, rest);
    }
  }

  /** `flushRerun` sends at most one packet per document. */
  lemma FlushRerunOncePerDocument(c: PresentedCollection)
    ensures OncePerDocument(FlushRerun(c).sent)
  {
    var before := c.beforeView;
    var after := c.documentCache;
    var left := DiffLeft(c.collection, before, after, before.keys);
    var right := DiffRight(c.collection, before, after, after.keys);
    DiffLeftOncePerDocument(c.collection, before, after, before.keys);
    DiffRightOncePerDocument(c.collection, before, after, after.keys);
    assert OM.WellFormed(before);
    OncePerDocumentAppend(left, right);
  }

  // ---------------------------------------------------------------------------
  // Behaviour a client can observe that the merged view does not explain

  /** A collection whose snapshot and rebuilt cache each hold document "d" with one field. */
  function RerunOf(before: Fields, after: Fields): (r: PresentedCollection)
    ensures r.beforeView.entries == map["d" := PresentedDocument(map["s" := before], before)]
    ensures r.documentCache.entries == map["d" := PresentedDocument(map["s" := after], after)]
  {
    PresentedCollection("c",
      OM.RawMap(["d"], map["d" := PresentedDocument(map["s" := after], after)]),
      false,
      OM.RawMap(["d"], map["d" := PresentedDocument(map["s" := before], before)]))
  }

  /** The rerun packet for a document whose single field "a" went from `x` to `y`. */
  lemma DiffBothSingleField(x: Value, y: Value)
    requires x != Undefined
    ensures DiffBoth("c", "d", map["a" := x], map["a" := y]) ==
      [Doc("c", Changed("d", Some(if x == y then map["a" := y] else map[]), Some({"a"})))]
  {
    var before := map["a" := x];
    var after := map["a" := y];
    KeptSingleField(x, y);
    ClearedSingleField(x, y);
    var kept := map k | k in after && (k !in before || before[k] == Undefined || before[k] == after[k]) :: after[k];
    var cleared := before.Keys - IndexKeys(|after|);
    assert |cleared| > 0;
  }

  /** The fields a one-field rerun keeps: the field exactly when its value is unchanged. */
  lemma KeptSingleField(x: Value, y: Value)
    requires x != Undefined
    ensures var before := map["a" := x];
      var after := map["a" := y];
      (map k | k in after && (k !in before || before[k] == Undefined || before[k] == after[k]) :: after[k])
        == if x == y then map["a" := y] else map[]
  {
    var before := map["a" := x];
    var after := map["a" := y];
    var kept := map k | k in after && (k !in before || before[k] == Undefined || before[k] == after[k]) :: after[k];
    if x == y {
      assert kept == after;
    } else {
      assert kept.Keys == {};
    }
  }

  /** The names a one-field rerun clears: the field itself, which is not an index key. */
  lemma ClearedSingleField(x: Value, y: Value)
    ensures var before := map["a" := x];
      var after := map["a" := y];
      before.Keys - IndexKeys(|after|) == {"a"} && |before.Keys - IndexKeys(|after|)| == 1
  {
    var after := map["a" := y];
    assert after.Keys == {"a"};
    assert |after| == 1;
    assert DecimalString(0) == "0";
    assert "a" !in IndexKeys(1);
  }


  lemma FlushRerunSingleField(x: Value, y: Value)
    requires x != Undefined
    ensures FlushRerun(RerunOf(map["a" := x], map["a" := y])).sent ==
      [Doc("c", Changed("d", Some(if x == y then map["a" := y] else map[]), Some({"a"})))]
  {
    var c := RerunOf(map["a" := x], map["a" := y]);
    DiffBothSingleField(x, y);
    assert ["d"][1..] == [];
    assert DiffLeft("c", c.beforeView, c.documentCache, ["d"]) == DiffBoth("c", "d", map["a" := x], map["a" := y]);
    assert DiffRight("c", c.beforeView, c.documentCache, ["d"]) == [];
  }

  lemma SnapshotMirror(before: Fields, after: Fields)
    ensures MirrorOf(RerunOf(before, after).beforeView) == map["d" := before]
  {
  }

  /** Writing then clearing "a" leaves nothing of a one-field document. */
  lemma ReplayClearsField(x: Value, fields: Fields)
    requires fields.Keys <= {"a"}
    ensures Replay(map["d" := map["a" := x]], [Doc("c", Changed("d", Some(fields), Some({"a"})))]) == map["d" := map[]]
  {
    var p := Doc("c", Changed("d", Some(fields), Some({"a"})));
    ReplayOne(map["d" := map["a" := x]], p);
    assert (map["a" := x] + fields) - {"a"} == map[];
  }

  /**
   * A field whose value changed across a rerun is cleared on the client
   * instead of updated: the diff keeps only unchanged fields, and clears every
   * field name that is not an array index of the new field list.
   */
  lemma FlushRerunClearsChangedField()
    ensures var c := RerunOf(map["a" := Num(1)], map["a" := Num(2)]);
      var r := FlushRerun(c);
      && r.sent == [Doc("c", Changed("d", Some(map[]), Some({"a"})))]
      && Replay(MirrorOf(c.beforeView), r.sent) == map["d" := map[]]
      && c.documentCache.entries["d"].clientView == map["a" := Num(2)]
  {
    var c := RerunOf(map["a" := Num(1)], map["a" := Num(2)]);
    FlushRerunSingleField(Num(1), Num(2));
    var p := Doc("c", Changed("d", Some(map[]), Some({"a"})));
    SnapshotMirror(map["a" := Num(1)], c.documentCache.entries["d"].clientView);
    ReplayClearsField(Num(1), map[]);
  }

  /**
   * An unchanged field is both resent and cleared in the same packet, so a
   * client that applies `fields` and then `cleared` loses it.
   */
  lemma FlushRerunClearsUnchangedField()
    ensures var c := RerunOf(map["a" := Num(1)], map["a" := Num(1)]);
      var r := FlushRerun(c);
      && r.sent == [Doc("c", Changed("d", Some(map["a" := Num(1)]), Some({"a"})))]
      && Replay(MirrorOf(c.beforeView), r.sent) == map["d" := map[]]
  {
    var c := RerunOf(map["a" := Num(1)], map["a" := Num(1)]);
    FlushRerunSingleField(Num(1), Num(1));
    var p := Doc("c", Changed("d", Some(map["a" := Num(1)]), Some({"a"})));
    SnapshotMirror(map["a" := Num(1)], c.documentCache.entries["d"].clientView);
    ReplayClearsField(Num(1), map["a" := Num(1)]);
  }

  /**
   * When two subscribers present the same field, the view keeps the value of
   * whichever wrote last, even after that subscriber leaves.
   */
  lemma RemoveKeepsLeaversValue()
    ensures var c0 := NewCollection("c");
      var c1 := Add(c0, "A", "d", map["x" := Num(1)]).value.coll;
      var c2 := Add(c1, "B", "d", map["x" := Num(2)]).value.coll;
      var r := Remove(c2, "B", "d");
      && r.Ok?
      && r.value.sent == []
      && r.value.coll.documentCache.entries["d"].presentedFields == map["A" := map["x" := Num(1)]]
      && r.value.coll.documentCache.entries["d"].clientView == map["x" := Num(2)]
  {
    var x1: Fields := map["x" := Num(1)];
    var x2: Fields := map["x" := Num(2)];
    var c0 := NewCollection("c");
    var c1 := Add(c0, "A", "d", x1).value.coll;
    assert c1.documentCache.entries == map["d" := PresentedDocument(map["A" := x1], x1)];
    var c2 := Add(c1, "B", "d", x2).value.coll;
    assert x1 + x2 == x2;
    assert c2.documentCache.entries == map["d" := PresentedDocument(map["A" := x1, "B" := x2], x2)];
    SharedFieldSurvivesLeaver(c2);
  }

  /** The removal step of `RemoveKeepsLeaversValue`, on the state the two adds leave. */
  lemma SharedFieldSurvivesLeaver(c: PresentedCollection)
    requires c.documentCache.entries == map["d" := PresentedDocument(map["A" := map["x" := Num(1)], "B" := map["x" := Num(2)]], map["x" := Num(2)])]
    ensures var r := Remove(c, "B", "d");
      && r.Ok?
      && r.value.sent == []
      && r.value.coll.documentCache.entries["d"].presentedFields == map["A" := map["x" := Num(1)]]
      && r.value.coll.documentCache.entries["d"].clientView == map["x" := Num(2)]
  {
    var x1: Fields := map["x" := Num(1)];
    var x2: Fields := map["x" := Num(2)];
    var pf := map["A" := x1, "B" := x2];
    var rest := pf - {"B"};
    assert rest == map["A" := x1];
    assert "A" in rest;
    var gone := set k | k in pf["B"] && (forall s :: s in rest ==> k !in rest[s]);
    assert "x" in rest["A"];
    assert gone == {};
    assert x2 - {} == x2;
    var r := RemovePresent(c, "B", "d");
    assert r.coll.documentCache.entries["d"] == PresentedDocument(rest, x2 - gone);
  }

  // ---------------------------------------------------------------------------
  // Operations halted by a send that throws

  /** `added` halted at its send still leaves every document presented and backed. */
  lemma AddHaltedPreservesValid(c: PresentedCollection, subId: string, docId: string, fields: Fields)
    requires Valid(c)
    requires Add(c, subId, docId, fields).Ok?
    ensures Valid(AddHalted(c, subId, docId, fields))
  {
    var r := AddHalted(c, subId, docId, fields);
    if docId in c.documentCache.entries && c.isSending {
      var doc := c.documentCache.entries[docId];
      var doc' := r.documentCache.entries[docId];
      forall k | k in doc'.clientView ensures k in BackedKeys(doc'.presentedFields) {
        var s :| s in doc.presentedFields && k in doc.presentedFields[s];
        assert s != subId;
        assert k in doc'.presentedFields[s];
      }
      assert subId in doc'.presentedFields;
      assert DocValid(doc');
      forall d | d in r.documentCache.entries ensures DocValid(r.documentCache.entries[d]) {
        if d != docId {
          assert r.documentCache.entries[d] == c.documentCache.entries[d];
        }
      }
    } else {
      AddPreservesValid(c, subId, docId, fields);
    }
  }

  /** `added` to a cached document, halted at its send, leaves the merged views as the client holds them. */
  lemma AddHaltedKeepsViews(c: PresentedCollection, subId: string, docId: string, fields: Fields)
    requires c.isSending
    requires Add(c, subId, docId, fields).Ok?
    requires docId in c.documentCache.entries
    ensures MirrorOf(AddHalted(c, subId, docId, fields).documentCache) == MirrorOf(c.documentCache)
  {
    var r := AddHalted(c, subId, docId, fields);
    MirrorPut(c.documentCache, r.documentCache, docId);
  }

  /**
   * `removed` by the last presenter, halted at its send, breaks the presenter
   * invariant: the document stays cached, keeps the view the client holds,
   * and has no presenter left.
   */
  lemma RemoveHaltedOrphans(c: PresentedCollection, subId: string, docId: string)
    requires c.isSending
    requires docId in c.documentCache.entries
    requires c.documentCache.entries[docId].presentedFields.Keys == {subId}
    ensures var r := RemoveHalted(c, subId, docId);
      && !Valid(r)
      && docId in r.documentCache.entries
      && r.documentCache.entries[docId].presentedFields == map[]
      && MirrorOf(r.documentCache) == MirrorOf(c.documentCache)
  {
    var doc := c.documentCache.entries[docId];
    assert doc.presentedFields - {subId} == map[];
    var r := RemoveHalted(c, subId, docId);
    assert r.documentCache == OM.Put(c.documentCache, docId, PresentedDocument(map[], doc.clientView));
    MirrorPut(c.documentCache, r.documentCache, docId);
    assert !DocValid(r.documentCache.entries[docId]);
  }

}

=== FILE: registry.dfy ===
/**
 * The server's handler registry (`DdpInterface`): connection callbacks,
 * methods, publications and default publications.  Handlers are the
 * application's code; a handler is modelled by what it returns for its
 * arguments, and a publication handler by the calls it makes on its
 * subscription.
 */
module Registry {
  import opened Wrappers
  import opened Values
  import opened Wire
  import OM = OrderedMaps

  /** How a method handler settles. */
  datatype HandlerResult = Returned(value: Value) | Threw(message: string)

  /** One call a publication handler makes on its subscription. */
  datatype SubCall =
    | CallAdded(collection: string, id: string, fields: Fields)
    | CallChanged(collection: string, id: string, fields: Fields)
    | CallRemoved(collection: string, id: string)
    | CallReady
    | CallError(message: string)
    | CallStop(error: Option<MeteorError>)

  /**
   * A publication handler's run: its calls in order, then it resolves, or
   * fails with a message.  A `synchronous` handler returns without a
   * promise, so a failure of it (a call that throws, or its own throw) is
   * thrown out of the handler call itself; an asynchronous one rejects its
   * promise instead.
   */
  datatype PublicationRun = PublicationRun(calls: seq<SubCall>, rejection: Option<string>, synchronous: bool)

  /** A method handler, given the session id, the parameters and the random seed. */
  type MethodHandler = (string, seq<Value>, Option<string>) -> HandlerResult

  /** A publication handler, given the subscription's parameters. */
  type PublicationHandler = seq<Value> -> PublicationRun

  datatype DefaultPublication = DefaultPublication(pubLabel: string, handler: PublicationHandler)

  /**
   * A connection callback, given the session's id: it returns (`None`) or
   * throws a message.
   */
  type ConnectionHandler = string -> Option<string>

  /**
   * Connection callbacks are identified by number, standing for the
   * function's identity; they form a set kept in insertion order.
   */
  type Callbacks = OM.DistinctSeq<nat>

  /** The registry; `handlers` holds the behaviour of each registered callback. */
  datatype Interface = Interface(
    connectionCbs: Callbacks,
    handlers: map<nat, ConnectionHandler>,
    methods: map<string, MethodHandler>,
    defaultPubs: seq<DefaultPublication>,
    publications: map<string, PublicationHandler>)

  function NewInterface(): (r: Interface)
    ensures r.connectionCbs == [] && r.defaultPubs == []
    ensures r.handlers == map[] && r.methods == map[] && r.publications == map[]
  {
    Interface([], map[], map[], [], map[])
  }

  /** What callback `cb` does when handed the session `id`; one without recorded behaviour returns. */
  function Announce(reg: Interface, cb: nat, id: string): (r: Option<string>)
    ensures cb !in reg.handlers ==> r.None?
    ensures cb in reg.handlers ==> r == reg.handlers[cb](id)
  {
    if cb in reg.handlers then reg.handlers[cb](id) else None
  }

  /** `onConnection`: adds the callback to the set (a present one keeps its place and its behaviour). */
  function OnConnection(reg: Interface, cb: nat, handler: ConnectionHandler): (r: Interface)
    ensures cb in r.connectionCbs
    ensures forall x :: x in reg.connectionCbs ==> x in r.connectionCbs
    ensures forall x :: x in r.connectionCbs ==> x in reg.connectionCbs || x == cb
    ensures cb !in reg.connectionCbs ==> r.connectionCbs == reg.connectionCbs + [cb]
    ensures cb !in reg.connectionCbs ==> r.handlers == reg.handlers[cb := handler]
    ensures cb in reg.connectionCbs ==> r == reg
    ensures r == reg.(connectionCbs := r.connectionCbs, handlers := r.handlers)
  {
    if cb in reg.connectionCbs then reg
    else reg.(connectionCbs := OM.Push(reg.connectionCbs, cb), handlers := reg.handlers[cb := handler])
  }

  /** The `stop` of the handle `onConnection` returns: deletes the callback from the set. */
  function StopConnection(reg: Interface, cb: nat): (r: Interface)
    ensures cb !in r.connectionCbs && cb !in r.handlers
    ensures forall x :: x != cb ==> (x in r.connectionCbs <==> x in reg.connectionCbs)
    ensures r.handlers == reg.handlers - {cb}
    ensures r == reg.(connectionCbs := r.connectionCbs, handlers := r.handlers)
  {
    reg.(connectionCbs := OM.Without(reg.connectionCbs, cb), handlers := reg.handlers - {cb})
  }

  /**
   * Stopping a registration undoes it: the other callbacks keep their order,
   * and a fresh callback leaves the registry exactly as it was.
   */
  lemma OnConnectionThenStop(reg: Interface, cb: nat, handler: ConnectionHandler)
    ensures StopConnection(OnConnection(reg, cb, handler), cb).connectionCbs == OM.Without(reg.connectionCbs, cb)
    ensures cb !in reg.connectionCbs && cb !in reg.handlers ==> StopConnection(OnConnection(reg, cb, handler), cb) == reg
  {
    if cb !in reg.connectionCbs {
      OM.WithoutAppended(reg.connectionCbs, cb);
    }
  }

  /** `addMethod`: registers the handler, replacing one of the same name. */
  function AddMethod(reg: Interface, name: string, handler: MethodHandler): (r: Interface)
    ensures name in r.methods && r.methods[name] == handler
    ensures forall n :: n != name ==> (n in r.methods <==> n in reg.methods)
    ensures forall n :: n != name && n in reg.methods ==> r.methods[n] == reg.methods[n]
    ensures r == reg.(methods := r.methods)
  {
    reg.(methods := reg.methods[name := handler])
  }

  /** `addPublication`: registers the handler, replacing one of the same name. */
  function AddPublication(reg: Interface, name: string, handler: PublicationHandler): (r: Interface)
    ensures name in r.publications && r.publications[name] == handler
    ensures forall n :: n != name ==> (n in r.publications <==> n in reg.publications)
    ensures forall n :: n != name && n in reg.publications ==> r.publications[n] == reg.publications[n]
    ensures r == reg.(publications := r.publications)
  {
    reg.(publications := reg.publications[name := handler])
  }

  /** `addDefaultPublication`: appends, so default publications start in registration order. */
  function AddDefaultPublication(reg: Interface, pubLabel: string, handler: PublicationHandler): (r: Interface)
    ensures |r.defaultPubs| == |reg.defaultPubs| + 1
    ensures r.defaultPubs[..|reg.defaultPubs|] == reg.defaultPubs
    ensures r.defaultPubs[|reg.defaultPubs|] == DefaultPublication(pubLabel, handler)
    ensures r == reg.(defaultPubs := r.defaultPubs)
  {
    reg.(defaultPubs := reg.defaultPubs + [DefaultPublication(pubLabel, handler)])
  }

  function UnimplementedMethod(name: string): string {
    "unimplemented method: \"" + name + "\""
  }

  function UnimplementedSub(name: string): string {
    "unimplemented sub: \"" + name + "\""
  }

  /** `callMethod`: runs the named handler; an unknown name throws. */
  function CallMethod(reg: Interface, sessionId: string, name: string, params: seq<Value>, random: Option<string>): (r: Outcome<Value>)
    ensures name !in reg.methods ==> r == Throw(UnimplementedMethod(name))
    ensures name in reg.methods ==>
      match reg.methods[name](sessionId, params, random)
      case Returned(v) => r == Ok(v)
      case Threw(m) => r == Throw(m)
  {
    if name !in reg.methods then Throw(UnimplementedMethod(name))
    else
      match reg.methods[name](sessionId, params, random)
      case Returned(v) => Ok(v)
      case Threw(m) => Throw(m)
  }

  /** The handler `callSubscribe` runs for `name`; an unknown name throws. */
  function LookupPublication(reg: Interface, name: string): (r: Outcome<PublicationHandler>)
    ensures r.Ok? <==> name in reg.publications
    ensures r.Ok? ==> r.value == reg.publications[name]
    ensures r.Throw? ==> r.message == UnimplementedSub(name)
  {
    if name in reg.publications then Ok(reg.publications[name]) else Throw(UnimplementedSub(name))
  }

  /** A method registered under a name is what a call by that name runs, until replaced. */
  lemma AddedMethodIsCalled(reg: Interface, name: string, handler: MethodHandler, other: string,
                            sessionId: string, params: seq<Value>, random: Option<string>)
    ensures var r := AddMethod(reg, name, handler);
      && CallMethod(r, sessionId, name, params, random) ==
           (match handler(sessionId, params, random) case Returned(v) => Ok(v) case Threw(m) => Throw(m))
      && (other != name ==> CallMethod(r, sessionId, other, params, random) == CallMethod(reg, sessionId, other, params, random))
  {
  }
}

=== FILE: server_session.dfy ===
/**
 * A server session's own state: its merge engines, named and universal
 * subscriptions, and the frames it has written to its socket.  The socket is
 * the `written` log; closing the session makes every later send throw.
 */
module ServerSessions {
  import opened Wrappers
  import opened Values
  import opened Wire
  import OM = OrderedMaps
  import P = Publishing

  /** One frame written to the socket. */
  datatype Frame =
    | OpenFrame                               // SockJS `o`
    | PacketFrame(packet: ServerPacket)       // raw: one encoded packet
    | ArrayFrame(packets: seq<ServerPacket>)  // SockJS `a` followed by a JSON array of encoded packets

  /**
   * A session.  Subscription objects are identified by `handle`s drawn from
   * `nextHandle`; `aborted` holds the handles whose stop signal fired.
   * `isSending` and `pendingReady` are the session-level flag and queue that a
   * subscription's `ready` consults.  `announcedTo` logs, in order, the
   * connection handlers this session was handed to.
   */
  datatype Session = Session(
    id: string,
    encapsulation: Encapsulation,
    collections: OM.OMap<string, P.PresentedCollection>,
    namedSubs: OM.OMap<string, nat>,
    universalSubs: seq<nat>,
    aborted: set<nat>,
    nextHandle: nat,
    isSending: bool,
    pendingReady: seq<string>,
    closed: bool,
    abortReason: string,
    announcedTo: seq<nat>,
    written: seq<Frame>)

  /** The session after an operation, and the message of the error it threw, if any. */
  datatype Effect = Effect(session: Session, thrown: Option<string>)

  /**
   * Why the socket went away.  A `close` event aborts the session with no
   * reason; an `error` event aborts it with the event's error, or with an
   * error made from its message when it carries none.
   */
  datatype CloseCause = SocketClosed | SocketErrored(error: Option<string>, message: string)

  /** The message of the reason a `close` event's bare `abort()` gets: the runtime's default. */
  const DefaultAbortReason: string := "The signal has been aborted"

  const UnidentifiedSocketError: string := "Unidentified WebSocket error."

  /**
   * The message of what `throwIfAborted` throws once the session closed
   * for `cause`: the default abort reason, or the socket error's message.
   */
  function AbortReason(cause: CloseCause): (r: string)
    ensures cause.SocketClosed? ==> r == DefaultAbortReason
    ensures cause.SocketErrored? && cause.error.Some? ==> r == cause.error.value
    ensures cause.SocketErrored? && cause.error.None? ==>
      r == (if cause.message != "" then cause.message else UnidentifiedSocketError)
  {
    match cause
    case SocketClosed => DefaultAbortReason
    case SocketErrored(error, message) =>
      if error.Some? then error.value
      else if message != "" then message
      else UnidentifiedSocketError
  }

  function NewSession(id: string, encapsulation: Encapsulation, isSending: bool): (r: Session)
    ensures r.id == id && r.encapsulation == encapsulation && r.isSending == isSending
    ensures !r.closed && r.written == [] && r.aborted == {} && r.universalSubs == []
    ensures r.collections.entries == map[] && r.namedSubs.entries == map[]
  {
    Session(id, encapsulation, OM.Empty(), OM.Empty(), [], {}, 0, isSending, [], false, "", [], [])
  }

  /** The packets a frame log carries, in order. */
  function PacketsOf(frames: seq<Frame>): seq<ServerPacket>
    decreases |frames|
  {
    if frames == [] then []
    else
      var here := match frames[0]
        case OpenFrame => []
        case PacketFrame(p) => [p]
        case ArrayFrame(ps) => ps;
      here + PacketsOf(frames[1..])
  }

  lemma {:induction false} PacketsOfAppend(a: seq<Frame>, b: seq<Frame>)
    ensures PacketsOf(a + b) == PacketsOf(a) + PacketsOf(b)
    decreases |a|
  {
    if a == [] {
      assert a + b == b;
    } else {
      assert (a + b)[0] == a[0];
      assert (a + b)[1..] == a[1..] + b;
      PacketsOfAppend(a[1..], b);
    }
  }

  /** One raw frame per packet. */
  function RawFrames(pkts: seq<ServerPacket>): (r: seq<Frame>)
    ensures |r| == |pkts|
    ensures forall i :: 0 <= i < |r| ==> r[i] == PacketFrame(pkts[i])
    ensures PacketsOf(r) == pkts
    decreases |pkts|
  {
    if pkts == [] then []
    else
      var rest := RawFrames(pkts[1..]);
      assert [PacketFrame(pkts[0])] + rest == [PacketFrame(pkts[0])] + rest;
      PacketsOfAppend([PacketFrame(pkts[0])], rest);
      [PacketFrame(pkts[0])] + rest
  }

  /** The frames one `send` of `pkts` writes. */
  function Frames(encapsulation: Encapsulation, pkts: seq<ServerPacket>): (r: seq<Frame>)
    ensures PacketsOf(r) == pkts
    ensures encapsulation == Raw ==> |r| == |pkts| && forall i :: 0 <= i < |r| ==> r[i] == PacketFrame(pkts[i])
    ensures encapsulation == SockJs ==> r == [ArrayFrame(pkts)]
  {
    match encapsulation
    case Raw => RawFrames(pkts)
    case SockJs =>
      assert PacketsOf([ArrayFrame(pkts)]) == pkts + [];
      [ArrayFrame(pkts)]
  }

  /**
   * `send`: throws once the session is closed; otherwise raw mode writes one
   * frame per packet and SockJS mode one array frame holding them all.
   */
  function Send(s: Session, pkts: seq<ServerPacket>): (r: Outcome<Session>)
    ensures r.Throw? <==> s.closed
    ensures r.Throw? ==> r.message == s.abortReason
    ensures r.Ok? ==> r.value == s.(written := s.written + Frames(s.encapsulation, pkts))
    ensures r.Ok? ==> s.written <= r.value.written
    ensures r.Ok? ==> PacketsOf(r.value.written) == PacketsOf(s.written) + pkts
  {
    if s.closed then Throw(s.abortReason)
    else
      PacketsOfAppend(s.written, Frames(s.encapsulation, pkts));
      Ok(s.(written := s.written + Frames(s.encapsulation, pkts)))
  }

  /** Sends each packet with a `send` of its own, as the merge engine does. */
  function SendEach(s: Session, pkts: seq<ServerPacket>): (r: Outcome<Session>)
    ensures r.Throw? <==> s.closed && pkts != []
    ensures r.Throw? ==> r.message == s.abortReason
    ensures r.Ok? ==> r.value == s.(written := r.value.written)
    ensures r.Ok? ==> s.written <= r.value.written
    ensures r.Ok? ==> PacketsOf(r.value.written) == PacketsOf(s.written) + pkts
    decreases |pkts|
  {
    if pkts == [] then Ok(s)
    else
      match Send(s, [pkts[0]])
      case Throw(m) => Throw(m)
      case Ok(s1) =>
        var r := SendEach(s1, pkts[1..]);
        assert r.Ok? ==> PacketsOf(r.value.written) == PacketsOf(s.written) + ([pkts[0]] + pkts[1..]);
        assert [pkts[0]] + pkts[1..] == pkts;
        r
  }

  /** The result of `getCollection`: the session, and the engine for the name. */
  datatype Got = Got(session: Session, coll: P.PresentedCollection)

  /** `getCollection`: the engine for `name`, created empty and sending on first use. */
  function GetCollection(s: Session, name: string): (r: Got)
    ensures name in r.session.collections.entries
    ensures r.coll == r.session.collections.entries[name]
    ensures r.session == s.(collections := r.session.collections)
    ensures name in s.collections.entries ==> r.session == s
    ensures name !in s.collections.entries ==>
      && r.coll == P.NewCollection(name)
      && r.session.collections.entries == s.collections.entries[name := r.coll]
      && r.session.collections.keys == s.collections.keys + [name]
  {
    match OM.Get(s.collections, name)
    case Some(c) => Got(s, c)
    case None =>
      var c := P.NewCollection(name);
      Got(s.(collections := OM.Put(s.collections, name, c)), c)
  }

  /** A merge-engine operation. */
  datatype CollectionOp =
    | AddOp(subId: string, docId: string, fields: Fields)
    | ChangeOp(subId: string, docId: string, fields: Fields)
    | RemoveOp(subId: string, docId: string)
    | DropSubOp(subId: string)

  function RunOp(c: P.PresentedCollection, op: CollectionOp): Outcome<P.Step> {
    match op
    case AddOp(subId, docId, fields) => P.Add(c, subId, docId, fields)
    case ChangeOp(subId, docId, fields) => P.Change(c, subId, docId, fields)
    case RemoveOp(subId, docId) => P.Remove(c, subId, docId)
    case DropSubOp(subId) => Ok(P.DropSub(c, subId))
  }

  /**
   * The engine as `op` leaves it when its first send throws.  Only `added` to
   * a cached document and `removed` by the last presenter (on its own or
   * inside `dropSub`) stop short of the completed step.
   */
  function HaltOp(c: P.PresentedCollection, op: CollectionOp): (r: P.PresentedCollection)
    requires RunOp(c, op).Ok?
    ensures r == c.(documentCache := r.documentCache)
    ensures RunOp(c, op).value.sent == [] ==> r == RunOp(c, op).value.coll
    ensures op.ChangeOp? ==> r == RunOp(c, op).value.coll
    ensures op.AddOp? && op.docId !in c.documentCache.entries ==> r == RunOp(c, op).value.coll
    ensures op.RemoveOp? && c.documentCache.entries[op.docId].presentedFields - {op.subId} != map[] ==>
      r == RunOp(c, op).value.coll
  {
    match op
    case AddOp(subId, docId, fields) => P.AddHalted(c, subId, docId, fields)
    case ChangeOp(_, _, _) => RunOp(c, op).value.coll
    case RemoveOp(subId, docId) => P.RemoveHalted(c, subId, docId)
    case DropSubOp(subId) => P.DropSubHalted(c, subId)
  }

  /**
   * Runs `op` on the engine for `name` (created if needed) and sends what it
   * emits.  A merge-engine error leaves the engine as it was; a send refused
   * by a closed session leaves it as the operation had changed it up to that
   * send, and nothing is written.
   */
  function ApplyOp(s: Session, name: string, op: CollectionOp): (r: Effect)
    ensures var g := GetCollection(s, name);
      && name in r.session.collections.entries
      && r.session == g.session.(collections := r.session.collections, written := r.session.written)
      && s.written <= r.session.written
      && (RunOp(g.coll, op).Throw? ==> r == Effect(g.session, Some(RunOp(g.coll, op).message)))
      && (RunOp(g.coll, op).Ok? ==>
            && r.session.collections.keys == g.session.collections.keys
            && (r.thrown.Some? <==> s.closed && RunOp(g.coll, op).value.sent != [])
            && (r.thrown.None? ==>
                  && r.session.collections.entries == g.session.collections.entries[name := RunOp(g.coll, op).value.coll]
                  && PacketsOf(r.session.written) == PacketsOf(s.written) + RunOp(g.coll, op).value.sent)
            && (r.thrown.Some? ==>
                  && r.thrown == Some(s.abortReason)
                  && r.session.collections.entries == g.session.collections.entries[name := HaltOp(g.coll, op)]
                  && r.session.written == s.written))
  {
    var g := GetCollection(s, name);
    match RunOp(g.coll, op)
    case Throw(m) => Effect(g.session, Some(m))
    case Ok(step) =>
      var s1 := g.session.(collections := OM.Put(g.session.collections, name, step.coll));
      match SendEach(s1, step.sent)
      case Throw(m) => Effect(g.session.(collections := OM.Put(g.session.collections, name, HaltOp(g.coll, op))), Some(m))
      case Ok(s2) => Effect(s2, None)
  }

  /**
   * On a closed session the last presenter's `removed` throws at its send and
   * leaves the document cached with no presenter, so that subscriber's next
   * `changed` finds the document but not the presenter.
   */
  lemma ClosedRemoveLeavesOrphan(s: Session, name: string, subId: string, docId: string, fields: Fields)
    requires s.closed
    requires name in s.collections.entries && s.collections.entries[name].isSending
    requires docId in s.collections.entries[name].documentCache.entries
    requires s.collections.entries[name].documentCache.entries[docId].presentedFields.Keys == {subId}
    ensures var e := ApplyOp(s, name, RemoveOp(subId, docId));
      && e.thrown == Some(s.abortReason)
      && e.session.written == s.written
      && docId in e.session.collections.entries[name].documentCache.entries
      && e.session.collections.entries[name].documentCache.entries[docId].presentedFields == map[]
      && ApplyOp(e.session, name, ChangeOp(subId, docId, fields)).thrown == Some("BUG: got changed for unpresented doc")
  {
    var c := s.collections.entries[name];
    var doc := c.documentCache.entries[docId];
    assert doc.presentedFields - {subId} == map[];
    assert P.RemovePresent(c, subId, docId).sent == [Doc(c.collection, Removed(docId))];
  }

  /** The handles of the named subscriptions. */
  function NamedHandles(s: Session): (r: set<nat>)
    ensures forall id :: id in s.namedSubs.entries ==> s.namedSubs.entries[id] in r
    ensures forall h :: h in r ==> exists id :: id in s.namedSubs.entries && s.namedSubs.entries[id] == h
  {
    set id | id in s.namedSubs.entries :: s.namedSubs.entries[id]
  }

  /**
   * The socket's `close` or `error` event aborts the session's signal: the
   * first abort records its reason, aborts every named subscription and
   * forgets them; a later one changes nothing.
   */
  function Close(s: Session, cause: CloseCause): (r: Session)
    ensures r.closed
    ensures s.closed ==> r == s
    ensures !s.closed ==>
      && r.abortReason == AbortReason(cause)
      && r.namedSubs.entries == map[]
      && r.aborted == s.aborted + NamedHandles(s)
      && r == s.(closed := true, abortReason := r.abortReason, namedSubs := r.namedSubs, aborted := r.aborted)
  {
    if s.closed then s
    else s.(closed := true, abortReason := AbortReason(cause), aborted := s.aborted + NamedHandles(s),
            namedSubs := OM.Empty())
  }

  /** The socket's `open` event: SockJS greets with an `o` frame. */
  function Open(s: Session): (r: Session)
    ensures r == s.(written := r.written)
    ensures s.encapsulation == SockJs ==> r.written == s.written + [OpenFrame]
    ensures s.encapsulation == Raw ==> r.written == s.written
    ensures PacketsOf(r.written) == PacketsOf(s.written)
  {
    match s.encapsulation
    case SockJs =>
      PacketsOfAppend(s.written, [OpenFrame]);
      s.(written := s.written + [OpenFrame])
    case Raw => s
  }

  /**
   * What an operation leaves alone, and what only ever grows: the session's
   * identity, framing, flags and universal subscriptions stay; frames are only
   * appended; aborted signals stay aborted.
   */
  ghost predicate Evolves(s: Session, s': Session) {
    && s'.id == s.id
    && s'.encapsulation == s.encapsulation
    && s'.universalSubs == s.universalSubs
    && s'.nextHandle == s.nextHandle
    && s'.isSending == s.isSending
    && s'.closed == s.closed
    && s'.abortReason == s.abortReason
    && s'.announcedTo == s.announcedTo
    && s.aborted <= s'.aborted
    && s.written <= s'.written
  }

  lemma EvolvesTransitive(a: Session, b: Session, c: Session)
    requires Evolves(a, b) && Evolves(b, c)
    ensures Evolves(a, c)
  {
  }

  /** Lazy creation: asking twice for the same name yields the same engine and changes nothing more. */
  lemma GetCollectionStable(s: Session, name: string)
    ensures var g := GetCollection(s, name);
      GetCollection(g.session, name) == g
  {
  }

  /**
   * The first close decides: a second, for whatever cause, changes nothing,
   * and every later send throws the first cause's reason.
   */
  lemma CloseIdempotent(s: Session, first: CloseCause, second: CloseCause, pkts: seq<ServerPacket>)
    requires !s.closed
    ensures Close(Close(s, first), second) == Close(s, first)
    ensures Send(Close(Close(s, first), second), pkts) == Throw(AbortReason(first))
    ensures forall h :: h in NamedHandles(s) ==> h in Close(s, first).aborted
  {
  }
}

=== FILE: subscriptions.dfy ===
/**
 * A server-side subscription (`DdpSessionSubscription`) acting on its session:
 * publishing documents into the session's merge engines, signalling `ready`,
 * failing, stopping, and pumping the event streams a publication returns.
 */
module Subscriptions {
  import opened Wrappers
  import opened Values
  import opened Wire
  import OM = OrderedMaps
  import P = Publishing
  import PP = PublishingProps
  import opened ServerSessions
  import Registry

  /** A subscription object: its handle, and its id ("" for a universal subscription). */
  datatype SubRef = SubRef(handle: nat, subId: string)

  /** Named subscriptions have a truthy id; the rest are universal. */
  predicate Named(sub: SubRef) {
    sub.subId != ""
  }

  /** A new subscription object, and the session that issued its handle. */
  datatype Created = Created(session: Session, sub: SubRef)

  function NewSubscription(s: Session, subId: string): (r: Created)
    ensures r.sub == SubRef(s.nextHandle, subId)
    ensures r.session == s.(nextHandle := s.nextHandle + 1)
  {
    Created(s.(nextHandle := s.nextHandle + 1), SubRef(s.nextHandle, subId))
  }

  /** Every handle the session knows of was issued by it. */
  ghost predicate HandlesIssued(s: Session) {
    && (forall h :: h in s.aborted ==> h < s.nextHandle)
    && (forall id :: id in s.namedSubs.entries ==> s.namedSubs.entries[id] < s.nextHandle)
    && (forall i :: 0 <= i < |s.universalSubs| ==> s.universalSubs[i] < s.nextHandle)
  }

  /** `_recreate`: a fresh subscription object with the same id, whose signal has not fired. */
  function Recreate(s: Session, sub: SubRef): (r: Created)
    ensures r.sub.subId == sub.subId
    ensures r.sub.handle != sub.handle || sub.handle >= s.nextHandle
    ensures HandlesIssued(s) ==> r.sub.handle !in r.session.aborted && HandlesIssued(r.session)
    ensures Evolves(s, r.session.(nextHandle := s.nextHandle))
  {
    NewSubscription(s, sub.subId)
  }

  /** `dropSub` on each engine named in `names`, in order, stopping at the first throw. */
  function DropAll(s: Session, subId: string, names: seq<string>): (r: Effect)
    requires forall n :: n in names ==> n in s.collections.entries
    ensures Evolves(s, r.session)
    ensures r.session == s.(collections := r.session.collections, written := r.session.written)
    ensures r.session.collections.entries.Keys == s.collections.entries.Keys
    ensures r.thrown.Some? ==> s.closed && r.thrown == Some(s.abortReason)
    ensures !s.closed ==> r.thrown.None?
    ensures s.closed ==> r.session.written == s.written
    decreases |names|
  {
    if names == [] then Effect(s, None)
    else
      var e := ApplyOp(s, names[0], DropSubOp(subId));
      if e.thrown.Some? then e
      else DropAll(e.session, subId, names[1..])
  }

  /**
   * `stop`.  A named subscription whose id is no longer registered does
   * nothing; otherwise it is unregistered, its contributions are dropped from
   * every engine and `nosub` is sent, and then its signal fires.  A universal
   * subscription only fires its signal.
   */
  function SubStop(s: Session, sub: SubRef, error: Option<MeteorError>): (r: Effect)
    ensures Evolves(s, r.session)
    ensures r.session.pendingReady == s.pendingReady
    ensures !Named(sub) ==> r == Effect(s.(aborted := s.aborted + {sub.handle}), None)
    ensures Named(sub) && sub.subId !in s.namedSubs.entries ==> r == Effect(s, None)
    ensures Named(sub) && sub.subId in s.namedSubs.entries ==>
      && r.session.namedSubs.entries == s.namedSubs.entries - {sub.subId}
      && (r.thrown.None? <==> !s.closed)
      && (r.thrown.None? ==>
            && r.session.aborted == s.aborted + {sub.handle}
            && |PacketsOf(r.session.written)| > 0
            && PacketsOf(r.session.written)[|PacketsOf(r.session.written)| - 1] == Nosub(sub.subId, error))
      && (r.thrown.Some? ==> r.session.aborted == s.aborted)
  {
    if !Named(sub) then Effect(s.(aborted := s.aborted + {sub.handle}), None)
    else if sub.subId !in s.namedSubs.entries then Effect(s, None)
    else
      var s1 := s.(namedSubs := OM.Delete(s.namedSubs, sub.subId));
      var d := DropAll(s1, sub.subId, s1.collections.keys);
      if d.thrown.Some? then d
      else
        match Send(d.session, [Nosub(sub.subId, error)])
        case Throw(m) => Effect(d.session, Some(m))
        case Ok(s2) => Effect(s2.(aborted := s2.aborted + {sub.handle}), None)
  }

  /** `added`: ignored once stopped; otherwise merged into the collection under the subscription's id. */
  function SubAdded(s: Session, sub: SubRef, collection: string, id: string, fields: Fields): (r: Effect)
    ensures sub.handle in s.aborted ==> r == Effect(s, None)
    ensures sub.handle !in s.aborted ==> r == ApplyOp(s, collection, AddOp(sub.subId, id, fields))
    ensures Evolves(s, r.session) && r.session.namedSubs == s.namedSubs && r.session.pendingReady == s.pendingReady
  {
    if sub.handle in s.aborted then Effect(s, None)
    else ApplyOp(s, collection, AddOp(sub.subId, id, fields))
  }

  /** `changed`: ignored once stopped; otherwise merged into the collection under the subscription's id. */
  function SubChanged(s: Session, sub: SubRef, collection: string, id: string, fields: Fields): (r: Effect)
    ensures sub.handle in s.aborted ==> r == Effect(s, None)
    ensures sub.handle !in s.aborted ==> r == ApplyOp(s, collection, ChangeOp(sub.subId, id, fields))
    ensures Evolves(s, r.session) && r.session.namedSubs == s.namedSubs && r.session.pendingReady == s.pendingReady
  {
    if sub.handle in s.aborted then Effect(s, None)
    else ApplyOp(s, collection, ChangeOp(sub.subId, id, fields))
  }

  /** `removed`: ignored once stopped; otherwise merged into the collection under the subscription's id. */
  function SubRemoved(s: Session, sub: SubRef, collection: string, id: string): (r: Effect)
    ensures sub.handle in s.aborted ==> r == Effect(s, None)
    ensures sub.handle !in s.aborted ==> r == ApplyOp(s, collection, RemoveOp(sub.subId, id))
    ensures Evolves(s, r.session) && r.session.namedSubs == s.namedSubs && r.session.pendingReady == s.pendingReady
  {
    if sub.handle in s.aborted then Effect(s, None)
    else ApplyOp(s, collection, RemoveOp(sub.subId, id))
  }

  /**
   * `ready`: ignored once stopped and for universal subscriptions; sent at
   * once while the session is sending, queued otherwise.
   */
  function SubReady(s: Session, sub: SubRef): (r: Effect)
    ensures Evolves(s, r.session) && r.session.namedSubs == s.namedSubs
    ensures sub.handle in s.aborted || !Named(sub) ==> r == Effect(s, None)
    ensures sub.handle !in s.aborted && Named(sub) && s.isSending ==>
      && r.session.pendingReady == s.pendingReady
      && (r.thrown.None? <==> !s.closed)
      && (r.thrown.None? ==> PacketsOf(r.session.written) == PacketsOf(s.written) + [Ready([sub.subId])])
    ensures sub.handle !in s.aborted && Named(sub) && !s.isSending ==>
      r == Effect(s.(pendingReady := s.pendingReady + [sub.subId]), None)
  {
    if sub.handle in s.aborted || !Named(sub) then Effect(s, None)
    else if s.isSending then
      match Send(s, [Ready([sub.subId])])
      case Throw(m) => Effect(s, Some(m))
      case Ok(s1) => Effect(s1, None)
    else Effect(s.(pendingReady := s.pendingReady + [sub.subId]), None)
  }

  /** The error a failing subscription reports to its client. */
  function ServerErrorFor(message: string): (e: MeteorError)
    ensures e.isClientSafe == Some(true)
    ensures e.error == Some(StrCode("server-error"))
    ensures e.reason == Some(message)
    ensures e.message == Some(message + " [server-error]")
  {
    MeteorError(Some(true), Some(StrCode("server-error")), Some(message), Some(message + " [server-error]"),
                Some("TODO: more metadata for DDP errors"), Some("Meteor.Error"))
  }

  /** `error`: ignored once stopped; otherwise a stop carrying a client-safe `server-error`. */
  function SubError(s: Session, sub: SubRef, message: string): (r: Effect)
    ensures Evolves(s, r.session)
    ensures sub.handle in s.aborted ==> r == Effect(s, None)
    ensures sub.handle !in s.aborted ==> r == SubStop(s, sub, Some(ServerErrorFor(message)))
  {
    if sub.handle in s.aborted then Effect(s, None)
    else SubStop(s, sub, Some(ServerErrorFor(message)))
  }

  /** One call a publication handler makes, applied to the session. */
  function Perform(s: Session, sub: SubRef, call: Registry.SubCall): (r: Effect)
    ensures Evolves(s, r.session)
  {
    match call
    case CallAdded(c, id, f) => SubAdded(s, sub, c, id, f)
    case CallChanged(c, id, f) => SubChanged(s, sub, c, id, f)
    case CallRemoved(c, id) => SubRemoved(s, sub, c, id)
    case CallReady => SubReady(s, sub)
    case CallError(m) => SubError(s, sub, m)
    case CallStop(e) => SubStop(s, sub, e)
  }

  /** A handler's calls in order; the first that throws ends the handler with that error. */
  function PerformAll(s: Session, sub: SubRef, calls: seq<Registry.SubCall>): (r: Effect)
    ensures Evolves(s, r.session)
    decreases |calls|
  {
    if calls == [] then Effect(s, None)
    else
      var e := Perform(s, sub, calls[0]);
      if e.thrown.Some? then e
      else
        var rest := PerformAll(e.session, sub, calls[1..]);
        EvolvesTransitive(s, e.session, rest.session);
        rest
  }

  /**
   * Runs a publication handler for `sub` whose failures are caught: its
   * calls, then, if a call threw or the handler failed, `error` with that
   * message.
   */
  function RunPublication(s: Session, sub: SubRef, run: Registry.PublicationRun): (r: Effect)
    ensures Evolves(s, r.session)
    ensures var e := PerformAll(s, sub, run.calls);
      && (e.thrown.None? && run.rejection.None? ==> r == e)
      && (e.thrown.Some? ==> r == SubError(e.session, sub, e.thrown.value))
      && (e.thrown.None? && run.rejection.Some? ==> r == SubError(e.session, sub, run.rejection.value))
  {
    var e := PerformAll(s, sub, run.calls);
    if e.thrown.Some? then
      var f := SubError(e.session, sub, e.thrown.value);
      EvolvesTransitive(s, e.session, f.session);
      f
    else if run.rejection.Some? then
      var f := SubError(e.session, sub, run.rejection.value);
      EvolvesTransitive(s, e.session, f.session);
      f
    else e
  }

  /** Calls are performed in order: a run of calls is the first part, then, unless it threw, the rest. */
  lemma {:induction false} PerformAllAppend(s: Session, sub: SubRef, a: seq<Registry.SubCall>, b: seq<Registry.SubCall>)
    ensures var first := PerformAll(s, sub, a);
      PerformAll(s, sub, a + b) == if first.thrown.Some? then first else PerformAll(first.session, sub, b)
    decreases |a|
  {
    if a == [] {
      assert a + b == b;
    } else {
      assert (a + b)[0] == a[0];
      assert (a + b)[1..] == a[1..] + b;
      var e := Perform(s, sub, a[0]);
      if e.thrown.None? {
        PerformAllAppend(e.session, sub, a[1..], b);
      }
    }
  }

  /** A single call is performed as itself. */
  lemma PerformAllOne(s: Session, sub: SubRef, call: Registry.SubCall)
    ensures PerformAll(s, sub, [call]) == Perform(s, sub, call)
  {
    assert [call][1..] == [];
  }

  /**
   * A publication that fails, by rejecting or by a call that throws, while its
   * named subscription is still live on an open session, ends that
   * subscription: its id is dropped and the last packet is `nosub` with a
   * `server-error` carrying the failure's message.
   */
  lemma FailingPublicationSendsNosub(s: Session, sub: SubRef, run: Registry.PublicationRun)
    requires Named(sub) && !s.closed
    requires var e := PerformAll(s, sub, run.calls);
      && (e.thrown.Some? || run.rejection.Some?)
      && sub.handle !in e.session.aborted && sub.subId in e.session.namedSubs.entries
    ensures var e := PerformAll(s, sub, run.calls);
      var m := if e.thrown.Some? then e.thrown.value else run.rejection.value;
      var r := RunPublication(s, sub, run);
      && r.thrown.None?
      && sub.handle in r.session.aborted
      && sub.subId !in r.session.namedSubs.entries
      && var pkts := PacketsOf(r.session.written);
         |pkts| > 0 && pkts[|pkts| - 1] == Nosub(sub.subId, Some(ServerErrorFor(m)))
  {
    var e := PerformAll(s, sub, run.calls);
    var m := if e.thrown.Some? then e.thrown.value else run.rejection.value;
    ErrorSendsNosub(e.session, sub, m);
  }

  /**
   * The same subscriber adding the same document twice fails its publication:
   * the merge engine's error becomes the subscription's `server-error`.
   */
  lemma DuplicateAddFailsPublication(s: Session, sub: SubRef, collection: string, id: string, f: Fields, g: Fields)
    requires Named(sub) && !s.closed
    requires sub.handle !in s.aborted && sub.subId in s.namedSubs.entries
    ensures var run := Registry.PublicationRun([Registry.CallAdded(collection, id, f), Registry.CallAdded(collection, id, g)], None, false);
      var r := RunPublication(s, sub, run);
      && r.thrown.None?
      && sub.subId !in r.session.namedSubs.entries
      && var pkts := PacketsOf(r.session.written);
         |pkts| > 0 && pkts[|pkts| - 1] == Nosub(sub.subId, Some(ServerErrorFor(DuplicateAdded)))
  {
    var calls := [Registry.CallAdded(collection, id, f), Registry.CallAdded(collection, id, g)];
    var run := Registry.PublicationRun(calls, None, false);
    DuplicateAddThrows(s, sub, collection, id, f, g);
    FailingPublicationSendsNosub(s, sub, run);
  }

  /** What the merge engine throws for a repeated `added`. */
  const DuplicateAdded: string := "TODO: given 'added' for document that was already added"

  /** The two calls of `DuplicateAddFailsPublication`: the second `added` throws, and the subscription stays live. */
  lemma DuplicateAddThrows(s: Session, sub: SubRef, collection: string, id: string, f: Fields, g: Fields)
    requires !s.closed && sub.handle !in s.aborted
    ensures var e := PerformAll(s, sub, [Registry.CallAdded(collection, id, f), Registry.CallAdded(collection, id, g)]);
      && e.thrown == Some(DuplicateAdded)
      && e.session.aborted == s.aborted && e.session.namedSubs == s.namedSubs
  {
    var calls := [Registry.CallAdded(collection, id, f), Registry.CallAdded(collection, id, g)];
    PerformAllAppend(s, sub, [calls[0]], [calls[1]]);
    assert calls == [calls[0]] + [calls[1]];
    PerformAllOne(s, sub, calls[0]);
    var e1 := ApplyOp(s, collection, AddOp(sub.subId, id, f));
    if e1.thrown.None? {
      PerformAllOne(e1.session, sub, calls[1]);
      var g1 := GetCollection(s, collection);
      var step := P.Add(g1.coll, sub.subId, id, f).value;
      assert e1.session.collections.entries[collection] == step.coll;
      assert id in step.coll.documentCache.entries && sub.subId in step.coll.documentCache.entries[id].presentedFields;
    }
  }

  // ---------------------------------------------------------------------------
  // Publication streams

  /** A packet written by source stream `source`. */
  datatype SourceEvent = SourceEvent(source: nat, packet: ServerPacket)

  /** What a failed stream write threw. */
  datatype Rejection = ThrownMessage(text: string) | ThrownError(error: MeteorError)

  /**
   * The pump's state: the session, the count of sources not yet ready (it can
   * go below zero), how many `ready` events were taken, how often `ready` was
   * called, the sources whose pipe failed, and what they failed with.
   */
  datatype Emission = Emission(
    session: Session,
    unready: int,
    readiesSeen: nat,
    readyCalls: nat,
    dead: set<nat>,
    rejections: seq<Rejection>,
    thrown: Option<string>)

  /** Records the effect of a call made while writing `source`'s packet; a throw fails that source. */
  function Settle(e: Emission, source: nat, eff: Effect): (r: Emission)
    ensures r.session == eff.session
    ensures r.unready == e.unready && r.readiesSeen == e.readiesSeen && r.readyCalls == e.readyCalls
    ensures r.dead == if eff.thrown.Some? then e.dead + {source} else e.dead
  {
    if eff.thrown.Some? then
      e.(session := eff.session, dead := e.dead + {source}, rejections := e.rejections + [ThrownMessage(eff.thrown.value)])
    else e.(session := eff.session)
  }

  /** One write into the pump. */
  function EmitStep(e: Emission, sub: SubRef, ev: SourceEvent): (r: Emission)
    ensures e.dead <= r.dead
    ensures ev.source in e.dead ==> r == e
    ensures ev.source !in e.dead && ev.packet.Ready? ==>
      r.readiesSeen == e.readiesSeen + 1 && r.unready == e.unready - 1
    ensures !(ev.source !in e.dead && ev.packet.Ready?) ==>
      r.readiesSeen == e.readiesSeen && r.unready == e.unready && r.readyCalls == e.readyCalls
    ensures ev.source !in e.dead && ev.packet.Ready? ==>
      r.readyCalls == if e.unready - 1 == 0 then e.readyCalls + 1 else e.readyCalls
    ensures r.thrown == e.thrown
  {
    if ev.source in e.dead then e
    else match ev.packet
      case Ready(_) =>
        var e1 := e.(unready := e.unready - 1, readiesSeen := e.readiesSeen + 1);
        if e1.unready == 0 then Settle(e1.(readyCalls := e1.readyCalls + 1), ev.source, SubReady(e1.session, sub))
        else e1
      case Nosub(_, err) =>
        if err.Some? then e.(dead := e.dead + {ev.source}, rejections := e.rejections + [ThrownError(err.value)])
        else Settle(e, ev.source, SubStop(e.session, sub, None))
      case Doc(coll, Added(id, f)) => Settle(e, ev.source, SubAdded(e.session, sub, coll, id, f.GetOr(map[])))
      case Doc(coll, Changed(id, f, _)) => Settle(e, ev.source, SubChanged(e.session, sub, coll, id, f.GetOr(map[])))
      case Doc(coll, Removed(id)) => Settle(e, ev.source, SubRemoved(e.session, sub, coll, id))
      case _ => e
  }

  function EmitFold(e: Emission, sub: SubRef, events: seq<SourceEvent>): (r: Emission)
    ensures e.dead <= r.dead
    ensures r.thrown == e.thrown
    decreases |events|
  {
    if events == [] then e else EmitFold(EmitStep(e, sub, events[0]), sub, events[1..])
  }

  /**
   * `emitToSub` over `n` sources whose writes arrive as `events`.  With no
   * sources the subscription is ready at once (a throw from that call is
   * `thrown`).
   */
  function EmitToSub(s: Session, sub: SubRef, n: nat, events: seq<SourceEvent>): (r: Emission)
    ensures n == 0 ==> r.readyCalls == 1 && r.session == SubReady(s, sub).session && r.thrown == SubReady(s, sub).thrown
    ensures n > 0 ==> r.thrown.None?
  {
    if n == 0 then
      var eff := SubReady(s, sub);
      Emission(eff.session, 0, 0, 1, {}, [], eff.thrown)
    else EmitFold(Emission(s, n, 0, 0, {}, [], None), sub, events)
  }

  /** The number of `ready` packets among `events`. */
  function CountReadies(events: seq<SourceEvent>): nat
    decreases |events|
  {
    if events == [] then 0
    else (if events[0].packet.Ready? then 1 else 0) + CountReadies(events[1..])
  }

  /** The pump's counting invariant, for `n` sources. */
  ghost predicate Counting(e: Emission, n: nat) {
    && e.unready == n - e.readiesSeen
    && e.readyCalls == (if e.readiesSeen >= n then 1 else 0)
  }

  lemma {:induction false} EmitFoldCounts(e: Emission, sub: SubRef, events: seq<SourceEvent>, n: nat)
    requires n > 0 && Counting(e, n)
    ensures var r := EmitFold(e, sub, events);
      && Counting(r, n)
      && r.readiesSeen <= e.readiesSeen + CountReadies(events)
      && (e.dead == {} && r.dead == {} ==> r.readiesSeen == e.readiesSeen + CountReadies(events))
    decreases |events|
  {
    if events != [] {
      var e1 := EmitStep(e, sub, events[0]);
      EmitFoldCounts(e1, sub, events[1..], n);
    }
  }

  /**
   * `emitToSub` with `n` sources calls `ready` exactly once if at least
   * `n` ready events got through and never otherwise; while no source fails, every
   * ready event gets through.
   */
  lemma EmitToSubReadiesOnce(s: Session, sub: SubRef, n: nat, events: seq<SourceEvent>)
    requires n > 0
    ensures var r := EmitToSub(s, sub, n, events);
      && r.readyCalls == (if r.readiesSeen >= n then 1 else 0)
      && r.unready == n - r.readiesSeen
      && r.readiesSeen <= CountReadies(events)
      && (r.dead == {} ==> r.readiesSeen == CountReadies(events))
  {
    EmitFoldCounts(Emission(s, n, 0, 0, {}, [], None), sub, events, n);
  }

  /** What a publication's start function settled with. */
  datatype StartResult =
    | NoStreams
    | OneStream(events: seq<SourceEvent>)
    | StreamList(count: nat, events: seq<SourceEvent>)
    | StartRejected(message: string)

  /**
   * `_start`: a stream list is pumped, a single stream is pumped as a list of
   * one, nothing is done for no result, and a rejection (or a synchronous
   * throw while pumping) becomes `error`.
   */
  function Start(s: Session, sub: SubRef, result: StartResult): (r: Effect)
    ensures result.NoStreams? ==> r == Effect(s, None)
    ensures result.StartRejected? ==> r == SubError(s, sub, result.message)
    ensures result.OneStream? ==> r == Pump(s, sub, 1, result.events)
    ensures result.StreamList? ==> r == Pump(s, sub, result.count, result.events)
  {
    match result
    case NoStreams => Effect(s, None)
    case StartRejected(m) => SubError(s, sub, m)
    case OneStream(events) => Pump(s, sub, 1, events)
    case StreamList(n, events) => Pump(s, sub, n, events)
  }

  /**
   * Pumps `n` streams into the subscription.  With none, the subscription is
   * ready at once, and a throw from that becomes `error`.
   */
  function Pump(s: Session, sub: SubRef, n: nat, events: seq<SourceEvent>): (r: Effect)
    ensures n == 0 ==>
      var ready := SubReady(s, sub);
      r == if ready.thrown.Some? then SubError(ready.session, sub, ready.thrown.value) else ready
    ensures n > 0 ==> r == Effect(EmitToSub(s, sub, n, events).session, None)
  {
    var em := EmitToSub(s, sub, n, events);
    if em.thrown.Some? then SubError(em.session, sub, em.thrown.value) else Effect(em.session, None)
  }

  // ---------------------------------------------------------------------------
  // Properties

  /** Stopping again after a stop that did not throw changes nothing and sends nothing. */
  lemma StopIdempotent(s: Session, sub: SubRef, error: Option<MeteorError>, again: Option<MeteorError>)
    requires SubStop(s, sub, error).thrown.None?
    ensures var s1 := SubStop(s, sub, error).session;
      SubStop(s1, sub, again) == Effect(s1, None)
  {
    var s1 := SubStop(s, sub, error).session;
    if !Named(sub) {
      assert s1.aborted + {sub.handle} == s1.aborted;
    }
  }

  /** A universal subscription never writes: its stop, ready and error send nothing. */
  lemma UniversalNeverSends(s: Session, sub: SubRef, error: Option<MeteorError>, message: string)
    requires !Named(sub)
    ensures SubStop(s, sub, error).session.written == s.written
    ensures SubReady(s, sub).session.written == s.written
    ensures SubError(s, sub, message).session.written == s.written
    ensures sub.handle in SubStop(s, sub, error).session.aborted
  {
  }

  /** Once its signal fired, nothing a subscription is asked to do changes the session. */
  lemma StoppedIgnoresEverything(s: Session, sub: SubRef, call: Registry.SubCall)
    requires sub.handle in s.aborted
    requires !call.CallStop?
    ensures Perform(s, sub, call) == Effect(s, None)
  {
  }

  /** `error` on a live, registered, named subscription of an open session sends `nosub` with the server error. */
  lemma ErrorSendsNosub(s: Session, sub: SubRef, message: string)
    requires Named(sub) && sub.handle !in s.aborted && sub.subId in s.namedSubs.entries && !s.closed
    ensures var r := SubError(s, sub, message);
      && r.thrown.None?
      && sub.handle in r.session.aborted
      && sub.subId !in r.session.namedSubs.entries
      && var pkts := PacketsOf(r.session.written);
         |pkts| > 0 && pkts[|pkts| - 1] == Nosub(sub.subId, Some(ServerErrorFor(message)))
  {
  }
}

=== FILE: values.dfy ===
/**
 * The values carried by documents and wire messages.  The structured-value codec
 * (EJSON) is outside the model; a value is a tree, compared structurally.
 */
module Values {

  /** An EJSON-able value, including JavaScript's `undefined`. */
  datatype Value =
    | Undefined
    | Null
    | Bool(b: bool)
    | Num(n: int)
    | Str(s: string)
    | Arr(items: seq<Value>)
    | Obj(props: map<string, Value>)

  /** A document's fields: a record from field name to value. */
  type Fields = map<string, Value>

  /** JavaScript truthiness of a value (objects and arrays are always truthy). */
  predicate Truthy(v: Value) {
    match v
    case Undefined => false
    case Null => false
    case Bool(b) => b
    case Num(n) => n != 0
    case Str(s) => s != ""
    case Arr(_) => true
    case Obj(_) => true
  }

  /** The decimal digit for 0 <= d < 10. */
  function Digit(d: nat): char
    requires d < 10
  {
    ('0' as int + d) as char
  }

  /** `String(n)` for a natural number: its decimal spelling without leading zeros. */
  function DecimalString(n: nat): (r: string)
    ensures |r| >= 1
    ensures forall i :: 0 <= i < |r| ==> '0' <= r[i] <= '9'
    ensures n >= 10 <==> |r| >= 2
    decreases n
  {
    if n < 10 then [Digit(n)] else DecimalString(n / 10) + [Digit(n % 10)]
  }

  /** The value of a decimal digit string. */
  function DecimalValue(s: string): nat
    requires forall i :: 0 <= i < |s| ==> '0' <= s[i] <= '9'
  {
    if |s| == 0 then 0 else DecimalValue(s[..|s| - 1]) * 10 + (s[|s| - 1] as int - '0' as int)
  }

  /** Reading a digit string extended by one more digit. */
  lemma DecimalValueSnoc(s: string, d: nat)
    requires forall i :: 0 <= i < |s| ==> '0' <= s[i] <= '9'
    requires d < 10
    ensures DecimalValue(s + [Digit(d)]) == DecimalValue(s) * 10 + d
  {
    assert (s + [Digit(d)])[..|s|] == s;
  }

  /** Decimal spelling round-trips, so distinct numbers have distinct spellings. */
  lemma {:induction false} DecimalRoundTrip(n: nat)
    ensures DecimalValue(DecimalString(n)) == n
    decreases n
  {
    if n < 10 {
      DecimalValueSnoc([], n);
      assert [] + [Digit(n)] == DecimalString(n);
    } else {
      var q, d := n / 10, n % 10;
      DecimalRoundTrip(q);
      DecimalValueSnoc(DecimalString(q), d);
      assert DecimalString(n) == DecimalString(q) + [Digit(d)];
    }
  }

  lemma DecimalStringInjective(a: nat, b: nat)
    requires DecimalString(a) == DecimalString(b)
    ensures a == b
  {
    DecimalRoundTrip(a);
    DecimalRoundTrip(b);
  }

  /**
   * The keys `Object.keys` gives for an array of length `n`, or `Object.entries`
   * gives as first components: the strings "0", "1", ..., String(n - 1).
   */
  function IndexKeys(n: nat): (r: set<string>)
    ensures forall i: nat :: i < n ==> DecimalString(i) in r
    decreases n
  {
    if n == 0 then {} else IndexKeys(n - 1) + {DecimalString(n - 1)}
  }

  /** Index keys below `m` never spell an index at or above `m`. */
  lemma {:induction false} IndexKeysBelow(m: nat, k: nat)
    requires m <= k
    ensures DecimalString(k) !in IndexKeys(m)
    decreases m
  {
    if m > 0 {
      IndexKeysBelow(m - 1, k);
      if DecimalString(k) == DecimalString(m - 1) {
        DecimalStringInjective(k, m - 1);
      }
    }
  }

  /** There are exactly `n` array index keys below `n`. */
  lemma {:induction false} IndexKeysCount(n: nat)
    ensures |IndexKeys(n)| == n
  {
    if n > 0 {
      IndexKeysCount(n - 1);
      IndexKeysBelow(n - 1, n - 1);
    }
  }
}

=== FILE: wire.dfy ===
/**
 * The DDP version 1 wire messages: what a client sends, what a server sends,
 * and the structured error both sides exchange.
 */
module Wire {
  import opened Wrappers
  import opened Values

  /** A Meteor error code is a number or a string. */
  datatype ErrorCode = NumCode(n: int) | StrCode(s: string)

  /** A Meteor error; every property is optional. */
  datatype MeteorError = MeteorError(
    isClientSafe: Option<bool>,
    error: Option<ErrorCode>,
    reason: Option<string>,
    message: Option<string>,
    details: Option<string>,
    errorType: Option<string>)

  /** Messages a client sends.  `ping`/`pong` carry an optional id. */
  datatype ClientPacket =
    | ClientPing(pingId: Option<string>)
    | ClientPong(pingId: Option<string>)
    | Connect(version: string, support: seq<string>)
    | Method(id: string, methodName: string, params: seq<Value>, randomSeed: Option<string>)
    | Sub(id: string, name: string, params: seq<Value>)
    | Unsub(id: string)

  /**
   * A document mutation.  `before` is `string | null` (None is null).  The
   * `cleared` list is modelled as the set of names it holds.
   */
  datatype DocumentChange =
    | Added(id: string, fields: Option<Fields>)
    | Changed(id: string, fields: Option<Fields>, cleared: Option<set<string>>)
    | Removed(id: string)
    | AddedBefore(id: string, fields: Option<Fields>, before: Option<string>)
    | MovedBefore(id: string, before: Option<string>)

  /** The two shapes of a `result` message: a success carries no error. */
  datatype MethodOutcome = Success(result: Option<Value>) | Failure(error: MeteorError)

  /**
   * Messages a server sends.  A document packet is a `DocumentChange` together
   * with the name of the collection it belongs to.
   */
  datatype ServerPacket =
    | ServerPing(pingId: Option<string>)
    | ServerPong(pingId: Option<string>)
    | Connected(session: string)
    | Failed(version: string)
    | ServerError(reason: string, offendingMessage: Option<ClientPacket>)
    | Ready(subs: seq<string>)
    | Nosub(id: string, error: Option<MeteorError>)
    | Doc(collection: string, change: DocumentChange)
    | Updated(methods: seq<string>)
    | Result(id: string, outcome: MethodOutcome)

  /**
   * How packets travel on a socket: one encoded packet per frame, or SockJS
   * framing, where a data frame is `a` followed by a JSON array of encoded
   * packets.
   */
  datatype Encapsulation = Raw | SockJs

  /** The `msg` discriminator of a client message. */
  function ClientMsg(p: ClientPacket): string {
    match p
    case ClientPing(_) => "ping"
    case ClientPong(_) => "pong"
    case Connect(_, _) => "connect"
    case Method(_, _, _, _) => "method"
    case Sub(_, _, _) => "sub"
    case Unsub(_) => "unsub"
  }

  /** The `msg` discriminator of a document change. */
  function ChangeMsg(c: DocumentChange): string {
    match c
    case Added(_, _) => "added"
    case Changed(_, _, _) => "changed"
    case Removed(_) => "removed"
    case AddedBefore(_, _, _) => "addedBefore"
    case MovedBefore(_, _) => "movedBefore"
  }

  /** The `msg` discriminator of a server message. */
  function ServerMsg(p: ServerPacket): string {
    match p
    case ServerPing(_) => "ping"
    case ServerPong(_) => "pong"
    case Connected(_) => "connected"
    case Failed(_) => "failed"
    case ServerError(_, _) => "error"
    case Ready(_) => "ready"
    case Nosub(_, _) => "nosub"
    case Doc(_, c) => ChangeMsg(c)
    case Updated(_) => "updated"
    case Result(_, _) => "result"
  }

  /** The properties of a `result` object as they appear on the wire. */
  datatype ResultRecord = ResultRecord(id: string, result: Option<Value>, error: Option<MeteorError>)

  /** Flattens a `result` message to its wire properties. */
  function ToResultRecord(id: string, outcome: MethodOutcome): (r: ResultRecord)
    ensures r.id == id
    ensures !(r.result.Some? && r.error.Some?)
    ensures r.error.Some? <==> outcome.Failure?
  {
    match outcome
    case Success(v) => ResultRecord(id, v, None)
    case Failure(e) => ResultRecord(id, None, Some(e))
  }

  /**
   * Reads wire properties back as a `result` message: a record with both a
   * result and an error has neither of the two admitted shapes.
   */
  function FromResultRecord(r: ResultRecord): (p: Option<ServerPacket>)
    ensures p.Some? <==> !(r.result.Some? && r.error.Some?)
    ensures p.Some? ==> p.value.Result? && p.value.id == r.id
  {
    if r.error.Some? then
      if r.result.Some? then None else Some(Result(r.id, Failure(r.error.value)))
    else Some(Result(r.id, Success(r.result)))
  }

  /** Every `result` message survives flattening and reading back. */
  lemma ResultRecordRoundTrip(id: string, outcome: MethodOutcome)
    ensures FromResultRecord(ToResultRecord(id, outcome)) == Some(Result(id, outcome))
  {
  }

  /** Every admissible record is the flattening of exactly the message read from it. */
  lemma ResultRecordInverse(r: ResultRecord)
    requires FromResultRecord(r).Some?
    ensures ToResultRecord(r.id, FromResultRecord(r).value.outcome) == r
  {
  }
}

=== FILE: wrappers.dfy ===
/** Failure-carrying result types shared by every module of the model. */
module Wrappers {

  /** An optional value: JavaScript `undefined` / a missing property. */
  datatype Option<+T> = None | Some(value: T) {
    function GetOr(default: T): T {
      match this
      case Some(v) => v
      case None => default
    }
  }

  /** The outcome of an operation that can throw an `Error` with a message. */
  datatype Outcome<+T> = Ok(value: T) | Throw(message: string) {
    predicate IsFailure() {
      Throw?
    }

    function PropagateFailure<U>(): Outcome<U>
      requires Throw?
    {
      Throw(message)
    }

    function Extract(): T
      requires Ok?
    {
      value
    }
  }
}
